=== FILE: README.md ===
# evade-my — a verified model of the game core

evade-my is a browser survival game. The player dodges enemies in an arena,
steering by touch, by pointer or with an on-screen joystick. Enemies come in
from outside the screen. Items fall, or fly in from the edges, and catching
one scores points. A touch costs a life. While the player is invincible for
a moment after a hit, further touches are ignored. The repository holds
three generations of the game screen, and this model covers all three:

- the legacy canvas game, with its menu, leaderboard, touch joystick,
  spawning and collisions (`src/game.ts`);
- the 2D game screen (`src/screens/game_screen.ts`), where enemies aim at
  the player and items fall from the top;
- the 3D game screen (`src/ui/screens/game_screen.ts`), driven by a wave
  controller. Its enemies walk straight, arc or zigzag paths and play an
  attack animation when they reach the player.

Around these screens it models:

- the shared pieces: the wave controller, trajectories, rotation
  smoothing, the joystick, the falling item, the two player classes and
  the location catalogues;
- the first menu screen (`src/screens/menu_screen.ts`).

Each source file becomes one Dafny module. Objects whose fields the game
updates become classes: `WaveController`, `Enemy`, `FallingItem`, both
`Player`s, `Joystick`, the three screens and the menu. Their methods state
the whole new state in terms of specification functions, and lemmas prove
what the game relies on about those functions. Numbers are `real`.
`Math.hypot`, `Math.sqrt`, `Math.atan2`, `Math.sin`, `Math.random` and
`performance.now()` are parameters. Where a proof needs a property of one
of them, a predicate states that property (`IsHypot`, `HypotOracle`,
`IsSineOfTurns`, `IsRoll`). Callbacks the browser fires later, such as a
`setTimeout` or an animation mixer's `finished` event, are methods of their
own that the environment calls.

A 3D enemy's path is fixed when the enemy is made. Its `route` gives the
point of the trajectory for each value of the progress `t`: the
`Trajectory.Position` of its kind between its two ends, as the constructor
states. Each frame moves a walking enemy to the route's point at the
advanced progress.

Where the written description of the game and the code disagree, the model
follows the code:

- Lives are not clamped at zero. In the 2D and 3D screens several enemies
  can cost a life in the same frame (`UiGameScreen.LivesCanGoNegative`).
- When the wave controller finishes from a pause it sets `finished`, but
  it leaves the timer at the expired value. `WaveController.Timer`
  therefore promises 0 on finishing only when at least one wave is
  configured.
- The 3D screen never adds to its score. `GetScore` is always 0 there.
- The 3D screen's `removeEnemy` applies `splice(indexOf(e), 1)` without
  checking the index. For an enemy not in the list, it removes the last
  enemy (`JsArrays.RemoveAbsentDropsLast`).

## Model

| member | source | states |
|---|---|---|
| `Direction.SmoothRotation` | src/utils/direction.ts:1-13 | with no movement the heading stays; with a factor in [0,1] the new heading lies between the old one and the movement's angle; it is fixed when already on target; with factor 1 it reaches the target |
| `Direction.NoWrapAround` | src/utils/direction.ts:8-12 | a target below the current angle always turns the heading down, never across the ±π seam |
| `Direction.LongWayRound` | src/utils/direction.ts:5-12 | from 3 rad toward −3 rad the default factor 0.15 gives 2.1, the long way round |
| `Trajectory.Position` | src/utils/trajectory.ts:8-64 | straight paths and arcs with a control point start at `start` (t = 0) and end at `end` (t = 1); an arc without a control point is at `end`; an unknown kind stays at `start` |
| `Trajectory.StraightBetween` | src/utils/trajectory.ts:20-24 | for t in [0,1] a straight path stays in the box spanned by its endpoints |
| `Trajectory.ArcThroughMidpointIsStraight` | src/utils/trajectory.ts:26-39 | an arc whose control point is the midpoint follows the straight path |
| `Trajectory.ZigzagShortIsStraight` | src/utils/trajectory.ts:43-59 | a zigzag no longer than 0.01 is the straight interpolation |
| `Trajectory.ZigzagOffsetAlongNormal` | src/utils/trajectory.ts:47-57 | a zigzag's deviation from the straight path is perpendicular to it, has length abs(sin(2π·t·frequency)·amplitude), and never exceeds the amplitude |
| `Trajectory.ZigzagDisplacement` | src/utils/trajectory.ts:52-57 | the zigzag point is the straight point plus the scaled unit normal |
| `Trajectory.ZigzagNode` | src/utils/trajectory.ts:54-57 | at whole turns of the sine the zigzag is on the straight path |
| `Trajectory.ZigzagEndpoints` | src/utils/trajectory.ts:43-59 | with the default amplitude and frequency a zigzag starts at `start` and ends at `end` |
| `Enemies.KindFromRoll` | src/entities/enemy.ts:37 | the random pick is one of the three listed kinds, each on its third of the roll range |
| `Enemies.ControlPoint` | src/entities/enemy.ts:39-46 | an arc's control point is the midpoint shifted equally on both axes by an offset in [−5, 45) |
| `Enemies.PathFor` | src/entities/enemy.ts:39-46 | only arcs get a control point, and it is `ControlPoint` |
| `Enemies.Progress` | src/entities/enemy.ts:87 | progress never passes 1; it is 1 exactly when `t + dt·0.12` reaches 1 and is `t + dt·0.12` otherwise; it never decreases for a non-negative step and stays non-negative |
| `Enemies.AnimationRate` | src/entities/enemy.ts:105-113 | the walk animation's rate is clamped to [0.5, 3]; it is the speed ratio when that is in range and 3 for a zero-length frame |
| `Enemies.FindClip` | src/entities/enemy.ts:133-134 | finds the first clip whose lower-cased name contains the part, or reports that none does |
| `Enemies.Enemy.constructor` | src/entities/enemy.ts:31-72 | the enemy starts at `start` with progress 0, a kind and path from its rolls, a route that is the trajectory of its kind between its ends, and the walk clip playing when the model has clips |
| `Enemies.Enemy.Update` | src/entities/enemy.ts:74-117 | an attacking or model-less enemy keeps its state; otherwise progress advances, the position is the route's point at the new progress, the heading turns smoothly toward the motion, and a playing action takes the rate of the ground speed; the attack and the action stay |
| `Enemies.Enemy.IsAttacking` | src/entities/enemy.ts:119-122 | reports the attack flag; an attacking enemy always has a mixer |
| `Enemies.Enemy.PlayAttackAnimation` | src/entities/enemy.ts:124-163 | does nothing without a mixer or when already attacking; otherwise marks the enemy attacking, plays the `attack1` clip at 1.5× speed facing the player, and reports the hit delay, 0.3 of the sped-up clip |
| `Enemies.Enemy.OnMixerFinished` | src/entities/enemy.ts:156-162 | the finish callback fires exactly when the attack clip that finished is the current one |
| `FallingItems.Fall` | src/entities/falling_item.ts:12-15 | an item falls straight down, never up, and not at all in a zero-length frame |
| `FallingItems.FallAdditive` | src/entities/falling_item.ts:14 | two frames fall as far as one frame of their summed length |
| `FallingItems.FallAllDistance` | src/entities/falling_item.ts:12-15 | over any frames an item falls 150 per second of their total |
| `FallingItems.FallingItem.constructor` | src/entities/falling_item.ts:4-10 | a new item is one radius above the top edge at the given x, with radius 10 and speed 150 |
| `FallingItems.FallingItem.Update` | src/entities/falling_item.ts:12-15 | the new position is `Fall` of the old one |
| `Invincibility.Tick` | src/player.ts:20-26 | a vulnerable player stays so; an invincible one loses `dt` of the timer and stays invincible only while time remains |
| `Invincibility.TimeLeftKept` | src/player.ts:20-48 | an invincible player always has time left, after ticks and after being made invincible |
| `Invincibility.InvincibleWhileTimeLeft` | src/player.ts:20-26 | over non-negative frames the player is still invincible exactly while their sum is below the timer |
| `Invincibility.TickAllIdle` | src/player.ts:20 | frames leave a vulnerable player unchanged |
| `Invincibility.GrantLastsOneSecond` | src/player.ts:44-48 | after a hit the player is invincible exactly while less than one second has passed |
| `LegacyPlayer.Player.constructor` | src/player.ts:5-16 | the player starts at rest at the origin, radius 20, vulnerable, with a 1-second invincibility |
| `LegacyPlayer.Player.Update` | src/player.ts:18-28 | the invincibility state ticks; position, velocity and radius stay |
| `LegacyPlayer.Player.MakeInvincible` | src/player.ts:44-48 | the player becomes invincible for the configured duration; nothing else changes |
| `EntityPlayer.Player.constructor` | src/entities/player.ts:5-18 | the player starts at rest at the origin, radius 30, vulnerable, with a 1-second invincibility |
| `EntityPlayer.Player.Update` | src/entities/player.ts:20-30 | the invincibility state ticks; position, velocity and radius stay |
| `EntityPlayer.Player.MakeInvincible` | src/entities/player.ts:47-51 | the player becomes invincible for the configured duration; nothing else changes |
| `Joysticks.KnobAsWritten` | src/joystick.ts:41-59 | as written, a touch within the radius puts the knob on the touch; the knob is defined only off the base |
| `Joysticks.KnobAsWrittenUndefinedOnBase` | src/joystick.ts:49-53 | the distance it divides by is 0 exactly when the pointer is on the base |
| `Joysticks.KnobAgreesOffBase` | src/joystick.ts:49-58 | off the base the corrected knob is the knob as written |
| `Joysticks.KnobWithinRadius` | src/joystick.ts:47-58 | the knob is never more than 50 from the base, and is the touch itself when the touch is that close |
| `Joysticks.KnobAlongRay` | src/joystick.ts:52-58 | the knob lies on the ray from the base through the touch |
| `Joysticks.DirectionOf` | src/joystick.ts:67-82 | no direction without a base and knob, none when the knob is on the base; otherwise it points from the base to the knob with length at most 1 |
| `Joysticks.Joystick.constructor` | src/joystick.ts:7-9 | a new joystick has no base and no knob, radius 50 |
| `Joysticks.Joystick.OnPointerDown` | src/joystick.ts:33-39 | base and knob are both placed on the touch |
| `Joysticks.Joystick.OnPointerMove` | src/joystick.ts:41-59 | without a base nothing moves; otherwise the knob follows the touch, held within 50 of the base |
| `Joysticks.Joystick.OnPointerUp` | src/joystick.ts:61-65 | base and knob are cleared |
| `Joysticks.Joystick.Reading` | src/joystick.ts:67-82 | zero without a base and a knob, otherwise `DirectionOf` them, at most 1 long |
| `Joysticks.Joystick.GetDirection` | src/joystick.ts:67-82 | the direction is `DirectionOf` the current base and knob, at most 1 long |
| `Joysticks.DirectionZeroAfterDown` | src/joystick.ts:37-38 | right after a touch the direction is zero |
| `LocationConfig.SpawnInterval` | src/ui/screens/game_screen.ts:66 | the spawn interval is positive and is the inverse of the location's spawn rate |
| `LocationConfig.CatalogueShape` | src/configs/location_config.ts:10-14 | three locations, all with positive spawn rates, each harder one faster in every respect |
| `LegacyLocationConfig.SpawnInterval` | src/game.ts:106 | the spawn interval is positive and is the inverse of the location's spawn rate |
| `LegacyLocationConfig.EnemySpeed` | src/game.ts:273 | the enemy speed of a location of the catalogue, always positive |
| `LegacyLocationConfig.CatalogueShape` | src/locationConfig.ts:9-13 | three locations with the same names as the newer catalogue, all with positive spawn rates, each harder one faster and spawning more often |
| `Waves.Init` | src/wave_controller.ts:12-18 | a controller starts in wave 1, in a wave, with the full wave duration on the timer and its settings kept |
| `Waves.Step` | src/wave_controller.ts:20-56 | an update never changes the settings, and once finished nothing changes |
| `Waves.InitValid` | src/wave_controller.ts:12-18 | a new controller satisfies the wave invariant and is in a wave |
| `Waves.StepValid` | src/wave_controller.ts:20-56 | every update preserves the wave invariant: wave number in range, one phase at a time, positive timer while running |
| `Waves.RunValid` | src/wave_controller.ts:20-56 | any sequence of updates preserves the invariant |
| `Waves.ReachableValid` | src/wave_controller.ts:12-56 | every reachable state satisfies the invariant |
| `Waves.FinishedAbsorbing` | src/wave_controller.ts:22 | updates after finishing change nothing |
| `Waves.PhaseExclusive` | src/wave_controller.ts:73-86 | exactly one of in a wave, paused and finished holds |
| `Waves.AtMostOneTransition` | src/wave_controller.ts:24-55 | one update moves at most one phase ahead: wave to pause or finish, pause to the next wave or finish |
| `Waves.OvershootDiscarded` | src/wave_controller.ts:24-53 | how far a frame overshoots an expiring timer makes no difference |
| `Waves.WaveExpiry` | src/wave_controller.ts:26-40 | an expiring wave finishes the session when it is the last and otherwise starts a pause of the full pause length |
| `Waves.PauseExpiry` | src/wave_controller.ts:42-53 | an expiring pause starts the next wave with the full wave length |
| `Waves.FinishOnlyFromLastWave` | src/wave_controller.ts:44-48 | a session only finishes once its last wave has been reached |
| `Waves.RunKeepsSettings` | src/wave_controller.ts:3-6 | the wave count and durations never change |
| `Waves.WaveCycle` | src/wave_controller.ts:26-53 | a full wave and a full pause lead to the next wave with a fresh timer |
| `Waves.RemainingWavesFinish` | src/wave_controller.ts:26-53 | from the start of a wave, the remaining waves and pauses at their full lengths finish the session |
| `Waves.SessionFinishes` | src/wave_controller.ts:20-56 | a session of n waves finishes after n waves and n−1 pauses, and stays finished |
| `Waves.GameScreenSession` | src/ui/screens/game_screen.ts:93 | with 5 waves of 15 s and pauses of 8 s: paused after 15 s, wave 2 after 23 s, finished after 107 s |
| `Waves.WaveController.constructor` | src/wave_controller.ts:12-18 | the state is `Init` of the arguments |
| `Waves.WaveController.Update` | src/wave_controller.ts:20-56 | the new state is `Step` of the old one, and the invariant is kept |
| `Waves.WaveController.CurrentWave` | src/wave_controller.ts:58-61 | the wave number, between 1 and the wave count |
| `Waves.WaveController.TotalWaves` | src/wave_controller.ts:63-66 | the wave count, never below the current wave |
| `Waves.WaveController.Timer` | src/wave_controller.ts:68-71 | the timer; 0 once finished when at least one wave is configured |
| `Waves.WaveController.InWave` | src/wave_controller.ts:73-76 | true exactly in the wave phase |
| `Waves.WaveController.IsFinished` | src/wave_controller.ts:78-81 | true exactly in the finished phase |
| `Waves.WaveController.IsPaused` | src/wave_controller.ts:83-86 | true exactly in the pause phase, which never follows the last wave |
| `JsArrays.IndexOf` | src/ui/screens/game_screen.ts:176 | −1 exactly when absent, otherwise the first position of the element |
| `JsArrays.SpliceOne` | src/ui/screens/game_screen.ts:176 | with `k` the start counted from the end when negative and clamped at 0: when `k` is inside the array, the result is one shorter, the elements before `k` stay in place and the ones after it move down by one; at or past the end nothing changes; a start of -1 drops the last element |
| `JsArrays.RemovePresent` | src/ui/screens/game_screen.ts:176 | removing a present element takes out its first occurrence and nothing else |
| `JsArrays.RemoveAbsentDropsLast` | src/ui/screens/game_screen.ts:176 | removing an absent element drops the last one |
| `JsArrays.RemoveHead` | src/ui/screens/game_screen.ts:193-198 | removing the first element leaves the rest |
| `JsArrays.RemoveKeepsDistinct` | src/ui/screens/game_screen.ts:176 | a list without repeats keeps none and gains nothing |
| `Foes.CollidesIffCloser` | src/screens/game_screen.ts:128-133 | an enemy touches the player exactly when their centres are closer than the two radii |
| `Foes.EdgePoint` | src/screens/game_screen.ts:199-209 | a spawn point lies outside the canvas, `offset` beyond one edge and within that edge's extent |
| `Geometry.Clamp` | src/game.ts:138-139 | the result lies in the range and is the value itself when that does |
| `Geometry.Lerp` | src/utils/trajectory.ts:21-24 | `start` at 0, `end` at 1, and between them in between |
| `Geometry.Side` | src/game.ts:270 | the side is one of the four, the one whose quarter of the roll range holds the roll |
| `Geometry.Along` | src/screens/game_screen.ts:205-208 | a random coordinate along an edge lies within it |
| `Geometry.Confine` | src/screens/game_screen.ts:151-152 | the player is kept a radius inside the canvas and not moved when already there |
| `Geometry.ConfineIdempotent` | src/screens/game_screen.ts:151-152 | confining twice is confining once |
| `Geometry.OverlapsIffHypotBelow` | src/screens/game_screen.ts:117-118 | the squared-distance test agrees with the `Math.hypot` test |
| `Geometry.HypotZeroIff` | src/joystick.ts:74 | a distance is 0 exactly when both offsets are |
| `LegacyGame.InsertByScore` | src/game.ts:96-97 | adding a score keeps every entry and adds the new one |
| `LegacyGame.InsertKeepsRanked` | src/game.ts:97 | inserting into a ranked board keeps it ranked |
| `LegacyGame.SortByScore` | src/game.ts:97 | sorting permutes the entries into best-first order |
| `LegacyGame.TopScores` | src/game.ts:96-98 | the board is ranked best-first and holds exactly min(n, 10) of the n entries given |
| `LegacyGame.TopScoresRanked` | src/game.ts:96-98 | no kept entry scores more than one before it |
| `LegacyGame.TopScoresKeepBest` | src/game.ts:96-98 | the board keeps entries from the input only, keeps all of them when there are at most 10, and drops only entries scoring no better than every kept one |
| `LegacyGame.SortRankedUnchanged` | src/game.ts:84-85 | re-sorting a ranked board changes nothing |
| `LegacyGame.InsertLowest` | src/game.ts:96-97 | a score no better than any on the board goes last |
| `LegacyGame.MenuRow` | src/game.ts:316-323 | a menu touch picks a location row exactly when it falls in the rows' band, and the row picked is the 50-pixel band it falls in (`floor(locY / 50)`) |
| `LegacyGame.MenuTargetsApart` | src/game.ts:316-328 | no touch both picks a location and toggles the joystick |
| `LegacyGame.StickDirectionIsJoystickDirection` | src/game.ts:126-137 | the game's stick direction is the joystick's direction, at most 1 long |
| `LegacyGame.TouchKnobIsKnob` | src/game.ts:357-367 | the game's knob is the joystick's corrected knob, within 50 of the base |
| `LegacyGame.SpawnAsWrittenDriftsAway` | src/game.ts:267-303 | as written, an enemy on the right half of the top edge drifts further right |
| `LegacyGame.SpawnHeadsIn` | src/game.ts:267-303 | corrected, every enemy moves at the location's speed, into the canvas across its edge, drifting toward the middle |
| `LegacyGame.HeadingSigns` | src/game.ts:274-295 | the heading before normalising has the full speed into the canvas and a drift toward the middle |
| `LegacyGame.NormalizeSpeed` | src/game.ts:298-303 | normalising gives the location's speed |
| `LegacyGame.FirstHit` | src/game.ts:158-181 | −1 when no enemy touches the player, otherwise the first one that does |
| `LegacyGame.FindFirstHit` | src/game.ts:160-180 | the loop finds `FirstHit` |
| `LegacyGame.Strike` | src/game.ts:157-181 | a life is lost exactly when the player is vulnerable and `FirstHit` finds an enemy; then one enemy goes, the player turns invincible and the screen shakes, and otherwise nothing changes |
| `LegacyGame.OnScreenKeepsVisible` | src/game.ts:155 | keeps exactly the enemies that are not off screen |
| `LegacyGame.Game.constructor` | src/game.ts:14-57 | the game opens on the menu with 3 lives, no enemies, score 0, and the stored best score and board |
| `LegacyGame.Game.LoadScores` | src/game.ts:76-86 | the best score and the top 10 of the stored board are loaded |
| `LegacyGame.Game.SaveScores` | src/game.ts:88-100 | the best score becomes the larger one, and the board gains the current score and keeps the top 10 |
| `LegacyGame.Game.StartGame` | src/game.ts:102-115 | the chosen location's interval is set, the player is centred, and the session restarts with 3 lives and score 0 |
| `LegacyGame.Game.MoveTarget` | src/game.ts:125-143 | a joystick step lands a radius inside the canvas; without one the player goes to the last touch, or stays |
| `LegacyGame.Game.Move` | src/game.ts:125-143 | with a held joystick the player steps along the stick, kept inside the canvas; otherwise the player jumps to the touch, or stays put |
| `LegacyGame.Game.SpawnEnemy` | src/game.ts:267-308 | appends the corrected `Spawn` at the location's speed, just outside the rolled edge (see "## Left out") |
| `LegacyGame.Game.MoveEnemies` | src/game.ts:153-155 | the list becomes the enemies, each after its step, that are not off screen, in their order (`OnScreen` of `StepAll`) |
| `LegacyGame.Game.Hit` | src/game.ts:166-179 | a hit costs a life, removes the enemy, makes the player invincible and shakes the screen; at 0 lives the game ends and the score is saved |
| `LegacyGame.Game.CheckCollisions` | src/game.ts:157-181 | the enemies, lives, invincibility and shake become `Strike` of the old ones: when the player is vulnerable and an enemy touches, the first such enemy goes, a life goes, the player turns invincible and the screen shakes, and otherwise nothing changes; the last life ends the game and saves the score, and otherwise the phase, best score and board stay |
| `LegacyGame.Game.Update` | src/game.ts:117-188 | outside play nothing changes; in play the score grows by 10 a second, the player goes to `MoveTarget`, an enemy spawns and the spawn time resets exactly when the interval has passed, and the enemies, lives, invincibility and shake are the shake countdown of `Strike` on the moved enemies still on screen; the game ends, saving the score, exactly when the last life goes |
| `LegacyGame.Game.Advance` | src/game.ts:119-151 | the score grows by 10 a second, the invincibility ticks, the player goes to `MoveTarget`, and `Spawn` is appended and the spawn time reset exactly when the interval has passed |
| `LegacyGame.Game.Combat` | src/game.ts:153-187 | the enemies, lives, invincibility and shake are the shake countdown of `Strike` on the moved enemies still on screen, so a life is lost exactly when the player is vulnerable and one of them touches; the game ends, saving the score, exactly when the last life goes |
| `LegacyGame.Game.Collide` | src/game.ts:153-181 | the enemies, lives, invincibility and shake are `Strike` on the moved enemies still on screen; the game ends, saving the score, exactly when the last life goes |
| `LegacyGame.Game.Play` | src/game.ts:117-188 | a frame in play: the results of `Advance` and then `Combat`, stated on the state before the frame |
| `LegacyGame.Game.HandleTouchStart` | src/game.ts:310-347 | on the menu a row starts a session there and the toggle line flips the joystick, anything else leaving the session state alone; after the game the restart line returns to the menu and nothing else changes; in play the touch sets the joystick base and knob or the touch target and nothing else |
| `LegacyGame.Game.HandleTouchMove` | src/game.ts:349-373 | with a joystick the knob follows within 50 of the base; otherwise the touch target follows |
| `LegacyGame.Game.HandleTouchEnd` | src/game.ts:375-385 | releasing clears the joystick or the touch target |
| `LegacyGameScreen.KeptItems` | src/screens/game_screen.ts:113-121 | the kept items come from the list, are not caught, and are still on screen |
| `LegacyGameScreen.CatchScoreCounts` | src/screens/game_screen.ts:119 | the score gained is the item value times the number of caught items |
| `LegacyGameScreen.CatchScoreNonneg` | src/screens/game_screen.ts:119 | catching never lowers the score |
| `LegacyGameScreen.CatchAccount` | src/screens/game_screen.ts:113-121 | every item that should stay stays; caught and kept items together never outnumber the items |
| `LegacyGameScreen.KeptItemsDistinct` | src/screens/game_screen.ts:113 | filtering keeps the items free of repeats |
| `LegacyGameScreen.FilterItems` | src/screens/game_screen.ts:113-121 | the loop keeps `KeptItems` and adds the catch score |
| `LegacyGameScreen.Survivors` | src/screens/game_screen.ts:128-136 | the surviving enemies come from the list and do not touch the player |
| `LegacyGameScreen.CollisionAccount` | src/screens/game_screen.ts:128-136 | every enemy is either kept or costs a life, and every enemy not touching is kept |
| `LegacyGameScreen.NoCollisionKeepsAll` | src/screens/game_screen.ts:128-136 | with no touch, all enemies stay and no life is lost |
| `LegacyGameScreen.AimHeadsFor` | src/screens/game_screen.ts:211-216 | the velocity is parallel to the way to the player; given the way's length it is zero on the player, otherwise `speed` long with a component of `speed` times the length along the way, so it points at the player |
| `LegacyGameScreen.AimFacts` | src/screens/game_screen.ts:211-216 | the same facts about the heading of an offset |
| `LegacyGameScreen.StandingWhenOnTarget` | src/screens/game_screen.ts:213 | the `|| 1` guard leaves an enemy on the player at rest |
| `LegacyGameScreen.NudgeWithinStep` | src/screens/game_screen.ts:147-149 | a joystick frame moves the player at most 300·dt |
| `LegacyGameScreen.GameScreen.constructor` | src/screens/game_screen.ts:14-42 | a new screen is idle with 3 lives, no enemies, no items and the default settings |
| `LegacyGameScreen.GameScreen.SetConfig` | src/screens/game_screen.ts:44-53 | the location's interval, speed and item value are taken |
| `LegacyGameScreen.GameScreen.Init` | src/screens/game_screen.ts:55-76 | the session restarts with the player centred, and sets up the joystick or pointer following |
| `LegacyGameScreen.GameScreen.GetScore` | src/screens/game_screen.ts:78-81 | the score rounded down |
| `LegacyGameScreen.GameScreen.OnPointerMove` | src/screens/game_screen.ts:222-228 | the player moves to the pointer |
| `LegacyGameScreen.GameScreen.Destroy` | src/screens/game_screen.ts:163-168 | the screen stops and drops its listeners |
| `LegacyGameScreen.GameScreen.NewFoe` | src/screens/game_screen.ts:197-216 | the new enemy stands at the rolled edge point with the enemy radius |
| `LegacyGameScreen.GameScreen.SpawnEnemy` | src/screens/game_screen.ts:197-220 | appends `NewFoe`: an enemy at the rolled edge point, aimed at the player at the enemy speed |
| `LegacyGameScreen.GameScreen.SpawnFallingItem` | src/screens/game_screen.ts:156-161 | appends a new item above the top edge, at least 10 in from the sides |
| `LegacyGameScreen.GameScreen.HandleSpawns` | src/screens/game_screen.ts:96-106 | exactly when the spawn interval has passed, `NewFoe` (at the rolled edge point, aimed at the player) is appended and its timer reset; exactly when the item interval has passed, a fresh item at its launch point above the top edge is appended and its timer reset; old items are untouched |
| `LegacyGameScreen.GameScreen.UpdateItems` | src/screens/game_screen.ts:108-111 | every item falls |
| `LegacyGameScreen.GameScreen.CatchItems` | src/screens/game_screen.ts:113-121 | the list becomes `KeptItems` and the score grows by the catch score |
| `LegacyGameScreen.GameScreen.UpdateEnemies` | src/screens/game_screen.ts:123-126 | every enemy takes one step |
| `LegacyGameScreen.GameScreen.CollideEnemies` | src/screens/game_screen.ts:128-136 | the touching enemies are removed, one life each |
| `LegacyGameScreen.GameScreen.MoveByJoystick` | src/screens/game_screen.ts:145-153 | with a joystick the direction read is the stick's `Reading` and the player steps along it, kept inside the canvas; otherwise the player stays |
| `LegacyGameScreen.GameScreen.Glide` | src/screens/game_screen.ts:147-152 | the step is confined to the canvas |
| `LegacyGameScreen.GameScreen.Update` | src/screens/game_screen.ts:92-154 | the spawns as in `HandleSpawns`; every item falls and the list and score become `KeptItems` and `CatchScore` of the arrivals; the enemies become the `Survivors` of the stepped list and a life goes for each of the `Collisions`; at 0 lives the screen stops and shows results and the player stays, otherwise the joystick steps the player along the stick's reading, kept inside the canvas |
| `LegacyGameScreen.GameScreen.Items` | src/screens/game_screen.ts:108-121 | every item falls; the list becomes `KeptItems` and the score grows by `CatchScore`, never falling |
| `LegacyGameScreen.GameScreen.Enemies` | src/screens/game_screen.ts:123-136 | the enemies become the `Survivors` of the list after each took its step, and a life goes for each of the `Collisions` |
| `LegacyGameScreen.GameScreen.Frame` | src/screens/game_screen.ts:92-136 | the spawns, then the items fall and are caught (`ItemsAfter`), then the enemies move and collide (`EnemiesAfter`) |
| `LegacyGameScreen.GameScreen.Supply` | src/screens/game_screen.ts:96-121 | the spawns as in `HandleSpawns`, then the items fall and are caught (`ItemsAfter` of the arrivals) |
| `LegacyGameScreen.GameScreen.Settle` | src/screens/game_screen.ts:138-153 | at 0 lives the screen stops and shows results; otherwise the joystick steps the player along its reading, kept inside the canvas |
| `LegacyMenu.FirstLocation` | src/screens/menu_screen.ts:27-36 | the first location row holding the click, or none |
| `LegacyMenu.Click` | src/screens/menu_screen.ts:22-44 | a click on a row starts that location with the current setting; otherwise a click on the toggle line flips it |
| `LegacyMenu.BandsApart` | src/screens/menu_screen.ts:29-39 | rows and the toggle line never overlap |
| `LegacyMenu.ClickStartsOnRow` | src/screens/menu_screen.ts:27-35 | a click on a row starts that row's location |
| `LegacyMenu.ClickTwiceRestores` | src/screens/menu_screen.ts:38-43 | two clicks at the same point restore the setting |
| `LegacyMenu.ClickOutsideIgnored` | src/screens/menu_screen.ts:22-44 | a click outside every band changes nothing |
| `LegacyMenu.ClickToggles` | src/screens/menu_screen.ts:38-43 | a click on the toggle line flips the setting and starts nothing |
| `LegacyMenu.MenuScreen.constructor` | src/screens/menu_screen.ts:9-16 | the joystick starts off |
| `LegacyMenu.MenuScreen.OnClick` | src/screens/menu_screen.ts:22-44 | the handler's loop does what `Click` says |
| `UiGameScreen.CameraView` | src/ui/screens/game_screen.ts:103-110 | the view is the window at 40 pixels a unit, centred on the origin |
| `UiGameScreen.EnemyEndpoints` | src/ui/screens/game_screen.ts:468-505 | an enemy walks from just outside one edge to just outside the opposite edge |
| `UiGameScreen.EnemiesEnterFromOutside` | src/ui/screens/game_screen.ts:468-505 | both ends of an enemy's walk are outside the view, on opposite sides |
| `UiGameScreen.ItemLaunch` | src/ui/screens/game_screen.ts:328-377 | an item from the sides enters through an edge at speed 400; any other starts above the top and falls at 150 |
| `UiGameScreen.Burst` | src/ui/screens/game_screen.ts:288-294 | a burst launches one item from the sides per roll |
| `UiGameScreen.JoystickTargetWithinStep` | src/ui/screens/game_screen.ts:238-248 | the joystick target is at most one step share of the player's speed away |
| `UiGameScreen.SteerTargetWithinStep` | src/ui/screens/game_screen.ts:235-248 | a target taken from a stick reading no longer than 1 is at most half the speed away |
| `UiGameScreen.FreshStepView` | src/entities/enemy.ts:74-92 | a new enemy's first step takes it to its route's point at the first progress, still not attacking |
| `UiGameScreen.Settle` | src/ui/screens/game_screen.ts:253-265 | an enemy with a mixer that hits becomes attacking; nothing else about it changes |
| `UiGameScreen.Settled` | src/ui/screens/game_screen.ts:253-265 | one pass settles every enemy |
| `UiGameScreen.SettledHitsOnlyMixerless` | src/ui/screens/game_screen.ts:255 | after a pass only enemies without a mixer hit again |
| `UiGameScreen.NoMixerlessNoHits` | src/ui/screens/game_screen.ts:255 | when every enemy has a mixer, a second pass costs nothing |
| `UiGameScreen.AllOverlappingHit` | src/ui/screens/game_screen.ts:253-266 | every touching, non-attacking enemy costs a life |
| `UiGameScreen.LivesCanGoNegative` | src/ui/screens/game_screen.ts:253-272 | four simultaneous hits on 3 lives leave −1 |
| `UiGameScreen.GameOverStep` | src/ui/screens/game_screen.ts:209-223 | the loss fires exactly when lives reach 0 and it has not already fired |
| `UiGameScreen.LossFiresOnce` | src/ui/screens/game_screen.ts:209-223 | over a whole session the loss fires at most once, and exactly once when lives ever reach 0 |
| `UiGameScreen.GameScreen.constructor` | src/ui/screens/game_screen.ts:17-59 | a new screen is idle with 3 lives, no enemies, no items and the default settings |
| `UiGameScreen.GameScreen.SetConfig` | src/ui/screens/game_screen.ts:60-69 | the location's interval, speed and item value are taken |
| `UiGameScreen.GameScreen.Init` | src/ui/screens/game_screen.ts:71-148 | a fresh wave controller (5 × 15 s waves, 8 s pauses), the session reset, the camera view, the player at the origin, and the joystick when chosen |
| `UiGameScreen.GameScreen.ResetSession` | src/ui/screens/game_screen.ts:86-93 | 3 lives, score 0, no enemies, running |
| `UiGameScreen.GameScreen.SetUpScene` | src/ui/screens/game_screen.ts:103-143 | the camera view, the player at the origin, and the joystick when chosen |
| `UiGameScreen.GameScreen.GetScore` | src/ui/screens/game_screen.ts:150-153 | the score rounded down, always 0 here |
| `UiGameScreen.GameScreen.RemoveEnemy` | src/ui/screens/game_screen.ts:155-177 | a present enemy is removed once; an absent one removes the last enemy |
| `UiGameScreen.GameScreen.OnWaveEnd` | src/ui/screens/game_screen.ts:193-199 | all enemies are removed |
| `UiGameScreen.GameScreen.UpdateEnemies` | src/ui/screens/game_screen.ts:201-207 | every enemy takes the step `Enemy.Update` describes (progress, position on its route, heading, animation rate), and the collision pass then sees each one's `SteppedView` |
| `UiGameScreen.GameScreen.CheckGameOver` | src/ui/screens/game_screen.ts:209-223 | `GameOverStep`; when it fires, the loss animation starts and the timeout is scheduled |
| `UiGameScreen.GameScreen.Destroy` | src/ui/screens/game_screen.ts:379-442 | the screen stops and drops its joystick, enemies and items |
| `UiGameScreen.GameScreen.EndGame` | src/ui/screens/game_screen.ts:225-229 | the screen stops and the results are shown |
| `UiGameScreen.GameScreen.OnLossTimeout` | src/ui/screens/game_screen.ts:216-220 | the delayed loss ends the game |
| `UiGameScreen.GameScreen.HandleJoystick` | src/ui/screens/game_screen.ts:231-249 | in joystick mode a non-zero stick reading sets the target to `SteerTarget` along it, otherwise the target stays (`Steered`); a changed target is at most half the player's speed away |
| `UiGameScreen.GameScreen.HandlePlayerHit` | src/ui/screens/game_screen.ts:268-278 | a life is lost and the player freezes; an enemy without a mixer, or one already attacking, is untouched and no hit is scheduled; otherwise the enemy plays the clip `FindClip` picks (the first whose lower-cased name contains `attack1`) at speed 1.5, a model turns to face the player, and the hit is due at 30% of the clip's scaled duration; with no such clip nothing about the enemy changes and no hit is scheduled |
| `UiGameScreen.GameScreen.OnAttackHit` | src/ui/screens/game_screen.ts:274 | the hit animation plays only while lives remain |
| `UiGameScreen.GameScreen.OnAttackFinished` | src/ui/screens/game_screen.ts:275 | the attacker is removed and the player unfreezes |
| `UiGameScreen.GameScreen.CheckCollisions` | src/ui/screens/game_screen.ts:251-266 | every touching, non-attacking enemy costs a life and is settled; the player freezes exactly when a life is lost |
| `UiGameScreen.GameScreen.CollideAll` | src/ui/screens/game_screen.ts:253-265 | the loop over the enemies costs `Hits` lives and settles each enemy |
| `UiGameScreen.GameScreen.CollideStep` | src/ui/screens/game_screen.ts:253-265 | one iteration extends the settled prefix by one enemy |
| `UiGameScreen.GameScreen.CollideWith` | src/ui/screens/game_screen.ts:255-264 | one enemy costs a life exactly when it hits, and is settled |
| `UiGameScreen.GameScreen.SpawnEnemy` | src/ui/screens/game_screen.ts:468-505 | appends a fresh enemy from `EnemyEndpoints` across the view, of the rolled kind, standing at its start on the route `Trajectory.Position` gives |
| `UiGameScreen.GameScreen.SpawnFallingItem` | src/ui/screens/game_screen.ts:328-377 | appends `ItemLaunch` |
| `UiGameScreen.GameScreen.SpawnBurst` | src/ui/screens/game_screen.ts:292 | appends a burst of five |
| `UiGameScreen.Launches` | src/ui/screens/game_screen.ts:288-298 | a due launch is a burst of five items while collecting and a single item otherwise |
| `UiGameScreen.GameScreen.HandleSpawns` | src/ui/screens/game_screen.ts:280-300 | an enemy only during a wave after the interval; a burst while collecting every quarter interval; otherwise one item per interval (`ItemsSpawned`: the launches appended and the item timer reset exactly when due, nothing otherwise) |
| `UiGameScreen.GameScreen.Update` | src/ui/screens/game_screen.ts:302-326 | the wave controller steps; the spawns as in `Spawned`; the item timer resets exactly when items are due; lives drop by exactly the `Hits` among the moved enemies; the loss fires once lives reach 0; otherwise a finished session ends the game, dropping the joystick and the items, and a pause clears the enemies; on a loss or a session still running, the joystick stays and the items are the old ones plus the due launches; on a loss or an unpaused running session, the enemies are the spawned list |
| `UiGameScreen.GameScreen.Advance` | src/ui/screens/game_screen.ts:304-313 | the wave controller steps; the enemy list gains the spawned enemy as in `Spawned`; the items as in `ItemsSpawned`; lives drop by exactly the `Hits` among the moved enemies; the player's target is `Steered` |
| `UiGameScreen.GameScreen.Act` | src/ui/screens/game_screen.ts:310-313 | `Collided`: lives drop by exactly the `Hits` of the stepped enemies, the hit ones are `Settled` and the player freezes exactly when hit; then the target is `Steered`; the enemy list, the scheduler, the items and both timers stay |
| `UiGameScreen.GameScreen.SteerKeeping` | src/ui/screens/game_screen.ts:312 | the joystick steers (`Steered`) and what the collision pass left (`Collided`), the lives, the enemy list, the scheduler, the items and the timers stay |
| `UiGameScreen.GameScreen.Engage` | src/ui/screens/game_screen.ts:310-311 | the enemies step, then lives drop by exactly the `Hits` of the stepped enemies, the hit ones are `Settled` and the player freezes exactly when hit; the enemy list, the scheduler, the items and the timers stay |
| `UiGameScreen.GameScreen.Arrive` | src/ui/screens/game_screen.ts:304-310 | the wave controller steps and the spawns happen (enemies as in `Spawned`, items as in `ItemsSpawned`); `moved` is what the collision pass will see: the old enemies' stepped views, then a new enemy's first step |
| `UiGameScreen.GameScreen.Enter` | src/ui/screens/game_screen.ts:304-309 | the wave controller steps; one fresh enemy, standing at its start, is appended and the spawn timer reset exactly when the stepped controller is in a wave and the spawn interval has passed; the items as in `ItemsSpawned` |
| `UiGameScreen.GameScreen.Resolve` | src/ui/screens/game_screen.ts:315-325 | the loss fires once, playing one lose animation; a finished session ends the game, dropping the joystick and the items; a pause clears the enemies; on a loss or a running session the game state, joystick and items stay, and on a loss or an unpaused running session the enemies stay |
| `UiGameScreen.Steer` | src/ui/screens/game_screen.ts:235-248 | no target for a zero stick reading, otherwise `JoystickTarget` along the reading, at most half the speed away |

## Left out

- Drawing: canvas, THREE.js scenes, HUD text, screen shake rendering,
  model loading and `dispose` calls. Only the state they read or reset is
  modelled.
- The DOM: event listeners, pointer-to-canvas mapping, and ray casting from
  the pointer into the 3D scene. Handlers take the resulting point.
- `localStorage` and JSON parsing. The stored best score and leaderboard
  are parameters. A score entry's date is a number.
- Time, randomness and transcendental functions are parameters (see above).
  The animation loop (`requestAnimationFrame`) is the caller of `Update`.
- Floating point. Numbers are reals, so rounding and NaN are not modelled,
  except that the division by zero in the joystick is reported below.
- `src/enemy.ts` and `src/score_entry.ts` are not part of this model. The
  legacy game's enemies are `Foe` values; their movement and off-screen
  test are parameters, and so is their collision radius. The 2D screen
  calls the enemy class with arguments its constructor does not accept, so
  its enemies are `Foe` values too.
- The 3D screen calls `new FallingItem(x, y, vx, vy)`
  (src/ui/screens/game_screen.ts:375). The constructor keeps only `x`. It
  places the item at `(x, -10)`, with radius 10 and speed 150
  (src/entities/falling_item.ts:4-10). The `y`, `vx` and `vy` the screen
  computes are discarded, and the screen never updates or reads its items
  again. `UiGameScreen.ItemLaunch`, `Burst`, `Launches` and
  `GameScreen.SpawnFallingItem` model the item the screen meant to create,
  a `LaunchedItem` value with that position and velocity. The modelled
  `fallingItems` are therefore not the objects the source holds.
- The 3D screen constructs the `Player` of `src/entities/player.ts`
  (src/ui/screens/game_screen.ts:1,130). That class has no `setTarget`,
  `freeze`, `unfreeze`, `stopAnimation`, `speed`, `playHitAnimation` or
  `playLoseAnimation` (src/entities/player.ts:3-52). As written, the screen
  therefore throws a `TypeError` at the first hit (:270), at a frame with a
  non-zero joystick (:245), at a pointer move (:521) and at the loss (:214).
  The model assumes a player that has these members. It keeps the player
  as abstract state: position, frozen flag, target, and the number of hit
  and lose animations asked for.
- The wave controller has no `isCollecting` method. Its only phase
  queries are `inWave`, `isFinished` and `isPaused`
  (src/wave_controller.ts:73-86). `handleSpawns` calls
  `this.wave_controller.isCollecting()` unconditionally
  (src/ui/screens/game_screen.ts:288). As written, every `update` therefore
  throws a `TypeError` at that call. This happens after the controller and
  player updates and a possible enemy spawn. The enemy step, the
  collisions, the joystick, the loss check and the finish and pause
  handling never run, and the exception leaves the loop before it requests
  the next frame (:190). The model assumes a controller that reports a
  collecting phase: `collecting` is a parameter of `HandleSpawns`,
  `Update` and the members between them, and `Update` runs the whole frame.
- The newer menu that measures text widths is not part of the model.
- `LegacyGame.Game.SpawnEnemy` appends the corrected `Spawn`, not what
  src/game.ts:271-275 computes. The drift there is computed while the
  position is still the origin, so every enemy on the top or bottom edge
  drifts right and every one on the left or right edge drifts down. The
  as-written spawn is `LegacyGame.SpawnAsWritten`. `SpawnAsWrittenDriftsAway`
  shows the difference (see "## Findings"). `Game.Advance`, `Game.Play` and
  `Game.Update` therefore model the corrected game.
- `Enemies.FindClip` lowers only the letters A to Z, where JavaScript's
  `toLowerCase` also lowers other Unicode letters (the Kelvin sign U+212A
  becomes "k"). It searches the clip list, where the source searches the
  keys of a record keyed by clip name. With two clips of the same name, the
  record keeps the first one's key position but holds the last one's
  action, so the source plays, and times the hit from, the later clip. The
  model plays the first.
- `UiGameScreen.GameScreen.Advance` does not restate which enemies the
  collision pass sets attacking; `Act` states it (`Collided`).
- `UiGameScreen.GameScreen.Update` does not restate which enemies the
  collision pass sets attacking (`Act` states it), nor the joystick target
  (`Advance` states it, and the lose sequence may drop the joystick
  afterwards).
- `FallingItems.FallingItem.Update`: requires the speed to be the class
  constant 150, which nothing changes.
- `LegacyGameScreen.GameScreen.Init`: does not clear the falling items, as
  in the source.

## Findings

| source | as written | input that shows it | evidently intended | confidence | as-written member | corrected member |
|---|---|---|---|---|---|---|
| src/joystick.ts:49-53 | the knob offset divides by the pointer's distance from the base | a pointer move exactly onto the base (distance 0) gives 0/0 | the knob stays on the base | not executed | `Joysticks.KnobAsWritten` | `Joysticks.Knob` |
| src/game.ts:271-275 | the drift toward the middle is computed while the position is still `{x: 0, y: 0}` | side roll in [0, 0.25) and edge roll above 0.5: the enemy appears on the right half of the top edge and drifts right | the drift points toward the middle of the canvas from where the enemy appears | not executed | `LegacyGame.SpawnAsWritten` | `LegacyGame.Spawn` |

=== FILE: direction.dfy ===
/** The heading an enemy model turns to: a fixed fraction of the way from the
    current angle to the direction of motion, with no turning at all when
    there is no motion. `atan2` is a parameter standing for `Math.atan2`. */
module Direction {
  import opened Geometry

  /** The default fraction of the remaining turn made per call. */
  const DefaultLerpFactor: real := 0.15

  function Target(dx: real, dy: real, atan2: (real, real) -> real): real {
    atan2(dx, dy)
  }

  /** `getSmoothRotation(current, dx, dy, lerpFactor)`. */
  function SmoothRotation(current: real, dx: real, dy: real, lerpFactor: real,
                          atan2: (real, real) -> real): (r: real)
    ensures dx == 0.0 && dy == 0.0 ==> r == current
    ensures !(dx == 0.0 && dy == 0.0) && 0.0 <= lerpFactor <= 1.0 ==>
      Between(current, r, Target(dx, dy, atan2))
    ensures Target(dx, dy, atan2) == current ==> r == current
    ensures !(dx == 0.0 && dy == 0.0) && lerpFactor == 1.0 ==> r == Target(dx, dy, atan2)
  {
    if dx == 0.0 && dy == 0.0 then current
    else
      var target := Target(dx, dy, atan2);
      var r := current + (target - current) * lerpFactor;
      assert 0.0 <= lerpFactor <= 1.0 ==> Between(current, r, target) by {
        if 0.0 <= lerpFactor <= 1.0 { ScaledStepBetween(current, target, lerpFactor); }
      }
      r
  }

  /** Angles are interpolated as plain numbers, with no wrap-around: when the
      target is below the current angle the heading always decreases, even
      when the shorter turn would cross from +pi to -pi. */
  lemma NoWrapAround(current: real, dx: real, dy: real, lerpFactor: real,
                     atan2: (real, real) -> real)
    requires !(dx == 0.0 && dy == 0.0) && 0.0 < lerpFactor
    requires Target(dx, dy, atan2) < current
    ensures SmoothRotation(current, dx, dy, lerpFactor, atan2) < current
  {
    var d := current - Target(dx, dy, atan2);
    assert 0.0 < d * lerpFactor;
  }

  /** From a heading of 3 towards a target of -3 (both near pi in size) the
      default step turns by 0.9 through zero, not by the 0.28 or so across
      pi that would reach the same direction. */
  lemma LongWayRound(dx: real, dy: real, atan2: (real, real) -> real)
    requires !(dx == 0.0 && dy == 0.0) && atan2(dx, dy) == -3.0
    ensures SmoothRotation(3.0, dx, dy, DefaultLerpFactor, atan2) == 2.1
  {
  }
}

=== FILE: enemy.dfy ===
/** A 3D enemy that walks from a start point to an end point along one of the
    three path shapes, turns its model towards where it is going, speeds its
    walk animation up or down with its ground speed, and plays an attack
    animation once.

    Random numbers are passed in as `roll` parameters in [0, 1). `Math.sin`,
    `Math.hypot` and `Math.atan2` are passed in as functions. The animation
    clips the asset manager supplies are a parameter of the constructor. */
module Enemies {
  import opened Geometry
  import opened Trajectory
  import Direction

  const EnemyRadius: real := 0.8
  const EnemySpeed: real := 0.8

  /** The share of `speed` by which `t` advances per second. */
  const ProgressScale: real := 0.15

  /** The ground speed at which the walk animation plays at its own rate. */
  const BaseSpeed: real := 2.0
  const MinTimeScale: real := 0.5
  const MaxTimeScale: real := 3.0

  /** The animation rate of the attack, and the share of the attack clip after
      which the hit lands. */
  const AttackTimeScale: real := 1.5
  const HitFraction: real := 0.3

  /** A named animation clip, as the asset manager supplies it. */
  datatype Clip = Clip(name: string, duration: real)

  /** The path shape picked by `floor(roll * 3)` from straight, arc, zigzag. */
  function KindFromRoll(roll: real): (k: Kind)
    requires 0.0 <= roll < 1.0
    ensures k != Other
    ensures k == Straight <==> roll * 3.0 < 1.0
    ensures k == Zigzag <==> 2.0 <= roll * 3.0
  {
    var i := (roll * 3.0).Floor;
    if i == 0 then Straight else if i == 1 then Arc else Zigzag
  }

  /** The arc's control point: the midpoint of the path shifted by the same
      offset `roll * 50 - 5` on both axes. */
  function ControlPoint(start: Vec2, end: Vec2, roll: real): (c: Vec2)
    requires 0.0 <= roll < 1.0
    ensures var off := c.x - (start.x + end.x) / 2.0;
      c.y - (start.y + end.y) / 2.0 == off && -5.0 <= off < 45.0
  {
    var offset := roll * 50.0 - 5.0;
    Vec2((start.x + end.x) / 2.0 + offset, (start.y + end.y) / 2.0 + offset)
  }

  /** Only an arc gets a control point. */
  function PathFor(kind: Kind, start: Vec2, end: Vec2, roll: real): (p: PathData)
    requires 0.0 <= roll < 1.0
    ensures p.control.Some? <==> kind == Arc
    ensures p.control.Some? ==> p.control.value == ControlPoint(start, end, roll)
  {
    if kind == Arc then PathData(Some(ControlPoint(start, end, roll))) else PathData(None)
  }

  /** `t` after a frame of `dt` seconds: advanced by `dt * speed * 0.15` and
      capped at 1. */
  function Progress(t: real, dt: real): (r: real)
    ensures r <= 1.0
    ensures r == 1.0 <==> t + dt * (EnemySpeed * ProgressScale) >= 1.0
    ensures r < 1.0 ==> r == t + dt * (EnemySpeed * ProgressScale)
    ensures 0.0 <= dt && t <= 1.0 ==> t <= r
    ensures 0.0 <= t && 0.0 <= dt ==> 0.0 <= r
  {
    Min(1.0, t + dt * (EnemySpeed * ProgressScale))
  }

  /** The walk animation's rate for a step of length `stepLen` taken in `dt`
      seconds: the ground speed over `BaseSpeed`, clamped to [0.5, 3]. A step
      taken in no time is infinitely fast and gets the top rate. */
  function AnimationRate(stepLen: real, dt: real): (r: real)
    ensures MinTimeScale <= r <= MaxTimeScale
    ensures dt != 0.0 && MinTimeScale <= stepLen / dt / BaseSpeed <= MaxTimeScale ==>
      r == stepLen / dt / BaseSpeed
    ensures dt == 0.0 ==> r == MaxTimeScale
  {
    if dt == 0.0 then MaxTimeScale
    else Clamp(stepLen / dt / BaseSpeed, MinTimeScale, MaxTimeScale)
  }

  /** `toLowerCase` on the letters A to Z. */
  function LowerChar(c: char): (d: char)
    ensures 'A' <= c <= 'Z' ==> 'a' <= d <= 'z' && d as int - c as int == 32
    ensures !('A' <= c <= 'Z') ==> d == c
  {
    if 'A' <= c <= 'Z' then (c as int + 32) as char else c
  }

  function Lower(s: string): (r: string)
    ensures |r| == |s|
    ensures forall i :: 0 <= i < |s| ==> r[i] == LowerChar(s[i])
  {
    seq(|s|, i requires 0 <= i < |s| => LowerChar(s[i]))
  }

  predicate OccursAt(s: string, part: string, i: int) {
    0 <= i && i + |part| <= |s| && s[i..i + |part|] == part
  }

  /** `s.includes(part)`. */
  predicate Includes(s: string, part: string) {
    exists i | 0 <= i <= |s| - |part| :: OccursAt(s, part, i)
  }

  /** The test `find` applies to each clip name: its lower-case form includes
      `part`. */
  predicate ClipMatches(c: Clip, part: string) {
    Includes(Lower(c.name), part)
  }

  /** The first clip from position `from` on whose name matches, as `find`
      over the action keys returns it. */
  function FindClip(clips: seq<Clip>, part: string, from: nat): (r: Option<nat>)
    requires from <= |clips|
    ensures r.Some? ==> from <= r.value < |clips| && ClipMatches(clips[r.value], part)
    ensures r.Some? ==> forall j :: from <= j < r.value ==> !ClipMatches(clips[j], part)
    ensures r.None? ==> forall j :: from <= j < |clips| ==> !ClipMatches(clips[j], part)
    decreases |clips| - from
  {
    if from == |clips| then None
    else if ClipMatches(clips[from], part) then Some(from)
    else FindClip(clips, part, from + 1)
  }

  class Enemy {
    var position: Vec2
    const radius: real
    const speed: real
    var t: real
    const kind: Kind
    const path: PathData
    const start: Vec2
    const end: Vec2
    const amplitude: real
    const frequency: real
    /** The point of the path at each value of `t`: the trajectory of
        `kind` from `start` to `end`, fixed when the enemy is made. */
    const route: real -> Vec2

    /** Whether a model was loaded; the asset manager always supplies one. */
    const hasModel: bool
    const clips: seq<Clip>

    /** The clip of the action playing now, as an index into `clips`. */
    var current: Option<nat>
    /** The playback rate of the current action. */
    var timeScale: real
    /** The model's rotation about the vertical axis. */
    var heading: real
    var attacking: bool
    /** The clip whose "finished" event the attack listens for. */
    var attackClip: Option<nat>

    /** An animation mixer exists exactly when there are clips. */
    predicate HasMixer()
      reads this
    {
      |clips| > 0
    }

    predicate Valid()
      reads this
    {
      && radius == EnemyRadius && speed == EnemySpeed
      && amplitude == DefaultAmplitude && frequency == DefaultFrequency
      && t <= 1.0
      && MinTimeScale <= timeScale <= MaxTimeScale
      && (current.Some? ==> current.value < |clips|)
      && (attacking ==> HasMixer())
      && (attackClip.Some? ==> attacking && attackClip == current)
    }

    /** A new enemy stands at `start` with `t == 0`, on a path shape picked by
        `kindRoll`; if there are clips, the first whose name contains "walk"
        is playing. */
    constructor(start: Vec2, end: Vec2, kindRoll: real, offsetRoll: real, clips: seq<Clip>,
                sinTurns: real -> real, hypot: (real, real) -> real)
      requires 0.0 <= kindRoll < 1.0 && 0.0 <= offsetRoll < 1.0
      ensures Valid()
      ensures position == start && t == 0.0
      ensures this.start == start && this.end == end
      ensures kind == KindFromRoll(kindRoll)
      ensures path == PathFor(kind, start, end, offsetRoll)
      ensures forall u :: route(u) == Position(kind, u, start, end, path, amplitude, frequency,
                                               hypot(end.x - start.x, end.y - start.y), sinTurns)
      ensures this.clips == clips && hasModel
      ensures current == (if |clips| > 0 then FindClip(clips, Lower("Walk"), 0) else None)
      ensures !attacking && attackClip.None? && timeScale == 1.0 && heading == 0.0
    {
      this.start := start;
      this.end := end;
      position := start;
      radius := EnemyRadius;
      speed := EnemySpeed;
      t := 0.0;
      amplitude := DefaultAmplitude;
      frequency := DefaultFrequency;
      var k := KindFromRoll(kindRoll);
      kind := k;
      var p := PathFor(k, start, end, offsetRoll);
      path := p;
      var len := hypot(end.x - start.x, end.y - start.y);
      route := u => Position(k, u, start, end, p, DefaultAmplitude, DefaultFrequency, len, sinTurns);
      hasModel := true;
      this.clips := clips;
      heading := 0.0;
      attacking := false;
      attackClip := None;
      timeScale := 1.0;
      current := None;
      if |clips| > 0 {
        current := FindClip(clips, Lower("Walk"), 0);
      }
    }

    /** Where `update(dt)` leaves the enemy: while it walks (it has a model
        and is not attacking), on its path at the advanced `t`; otherwise
        where it is. */
    function NextPosition(dt: real): Vec2
      reads this
    {
      if hasModel && !attacking then route(Progress(t, dt)) else position
    }

    /** What `update(dt)` makes of the enemy: the attack and the clips stay
        as they were; a walking enemy advances `t`, moves to `NextPosition`,
        turns smoothly towards its motion and, when it moved and an action
        plays, plays it at the rate of its ground speed; a standing or
        attacking enemy keeps all of these. */
    twostate predicate Stepped(dt: real, hypot: (real, real) -> real, atan2: (real, real) -> real)
      reads this
    {
      var walking := hasModel && !old(attacking);
      && attacking == old(attacking) && current == old(current) && attackClip == old(attackClip)
      && position == old(NextPosition(dt))
      && t == (if walking then Progress(old(t), dt) else old(t))
      && heading == (if walking then
                       Direction.SmoothRotation(old(heading), position.x - old(position.x),
                                                position.y - old(position.y),
                                                Direction.DefaultLerpFactor, atan2)
                     else old(heading))
      && timeScale == (if walking && current.Some? && position != old(position) then
                         AnimationRate(hypot(position.x - old(position.x), position.y - old(position.y)), dt)
                       else old(timeScale))
    }

    /** `update(dt)`: advance along the path, turn towards the motion and match
        the walk animation to the ground speed. */
    method Update(dt: real, hypot: (real, real) -> real, atan2: (real, real) -> real)
      requires Valid()
      modifies this
      ensures Valid()
      ensures Stepped(dt, hypot, atan2)
    {
      if !hasModel {
        return;
      }
      if attacking {
        return;
      }
      var prev := position;
      t := Progress(t, dt);
      position := route(t);
      var dx := position.x - prev.x;
      var dy := position.y - prev.y;
      heading := Direction.SmoothRotation(heading, dx, dy, Direction.DefaultLerpFactor, atan2);
      if dx != 0.0 || dy != 0.0 {
        var rate := AnimationRate(hypot(dx, dy), dt);
        if current.Some? {
          timeScale := rate;
        }
      }
    }

    /** `isAttacking()`: only an enemy with a mixer ever attacks. */
    function IsAttacking(): (b: bool)
      reads this
      requires Valid()
      ensures b ==> HasMixer()
      ensures b == attacking
    {
      attacking
    }

    /** `playAttackAnimation`. Returns the delay after which the hit callback
        is due, or `None` when none is scheduled. */
    method PlayAttackAnimation(player: Vec2, atan2: (real, real) -> real) returns (hitDelay: Option<real>)
      requires Valid()
      modifies this
      ensures Valid()
      ensures !old(HasMixer()) || old(attacking) ==> unchanged(this) && hitDelay.None?
      ensures old(HasMixer()) ==> attacking
      ensures position == old(position) && t == old(t)
      ensures var key := FindClip(clips, "attack1", 0);
        old(HasMixer()) && !old(attacking) ==>
          if key.None? then
            hitDelay.None? && current == old(current) && timeScale == old(timeScale)
            && heading == old(heading) && attackClip == old(attackClip)
          else
            && current == key && attackClip == key
            && timeScale == AttackTimeScale
            && hitDelay == Some(clips[key.value].duration / AttackTimeScale * HitFraction)
            && (hasModel ==> heading == atan2(player.x - position.x, player.y - position.y))
    {
      if !HasMixer() || attacking {
        return None;
      }
      attacking := true;
      var key := FindClip(clips, "attack1", 0);
      if key.None? {
        return None;
      }
      if hasModel {
        heading := atan2(player.x - position.x, player.y - position.y);
      }
      current := key;
      timeScale := AttackTimeScale;
      attackClip := key;
      hitDelay := Some(clips[key.value].duration / timeScale * HitFraction);
    }

    /** The mixer's "finished" event for the clip at `clip`: the attack's
        finish callback runs exactly when it is the attack clip and still the
        current action. */
    method OnMixerFinished(clip: nat) returns (callFinish: bool)
      requires Valid()
      ensures callFinish <==> attackClip == Some(clip) && current == Some(clip)
      ensures callFinish ==> attacking
    {
      callFinish := attackClip.Some? && attackClip.value == clip && current == Some(clip);
    }
  }
}

=== FILE: entity_player.dfy ===
/** The 2D player: the player entity of both game screens. Only its invincibility
    changes over time; the screens move it. */
module EntityPlayer {
  import opened Geometry
  import opened Invincibility

  const PlayerRadius: real := 30.0

  class Player {
    var position: Vec2
    var velocity: Vec2
    var radius: real
    var invincible: bool
    var invincibleTimer: real
    var invincibleDuration: real

    function ShieldState(): Shield
      reads this
    {
      Shield(invincible, invincibleTimer)
    }

    constructor()
      ensures position == Origin && velocity == Origin
      ensures radius == PlayerRadius
      ensures !invincible && invincibleTimer == 0.0
      ensures invincibleDuration == InvincibleDuration
    {
      position := Origin;
      velocity := Origin;
      radius := PlayerRadius;
      invincible := false;
      invincibleTimer := 0.0;
      invincibleDuration := InvincibleDuration;
    }

    /** `update(dt)`: only the invincibility timer moves. */
    method Update(dt: real)
      modifies this
      ensures ShieldState() == Tick(old(ShieldState()), dt)
      ensures position == old(position) && velocity == old(velocity)
      ensures radius == old(radius) && invincibleDuration == old(invincibleDuration)
    {
      if invincible {
        invincibleTimer := invincibleTimer - dt;
        if invincibleTimer <= 0.0 {
          invincible := false;
        }
      }
    }

    method MakeInvincible()
      modifies this
      ensures ShieldState() == Grant(old(invincibleDuration))
      ensures position == old(position) && velocity == old(velocity)
      ensures radius == old(radius) && invincibleDuration == old(invincibleDuration)
    {
      invincible := true;
      invincibleTimer := invincibleDuration;
    }
  }
}

=== FILE: falling_item.dfy ===
/** A collectible that drops straight down at a constant speed from just above
    the top edge. */
module FallingItems {
  import opened Geometry

  const ItemRadius: real := 10.0
  const FallSpeed: real := 150.0

  /** Where an item at `p` is after `dt` seconds of falling. */
  function Fall(p: Vec2, dt: real): (q: Vec2)
    ensures q.x == p.x
    ensures 0.0 <= dt ==> p.y <= q.y
    ensures dt == 0.0 ==> q == p
  {
    Vec2(p.x, p.y + FallSpeed * dt)
  }

  /** Two frames fall as far as one frame of their combined length. */
  lemma FallAdditive(p: Vec2, a: real, b: real)
    ensures Fall(Fall(p, a), b) == Fall(p, a + b)
  {
  }

  function FallAll(p: Vec2, dts: seq<real>): Vec2
    decreases |dts|
  {
    if dts == [] then p else FallAll(Fall(p, dts[0]), dts[1..])
  }

  /** After any run of frames an item has fallen `150` times the elapsed time
      and has not moved sideways. */
  lemma {:induction false} FallAllDistance(p: Vec2, dts: seq<real>)
    ensures FallAll(p, dts) == Vec2(p.x, p.y + FallSpeed * Sum(dts))
    decreases |dts|
  {
    if dts != [] {
      FallAllDistance(Fall(p, dts[0]), dts[1..]);
    }
  }

  class FallingItem {
    var position: Vec2
    const radius: real
    const speed: real

    /** A new item sits at `(x, -radius)`, just above the top edge. */
    constructor(x: real)
      ensures position == Vec2(x, -ItemRadius)
      ensures radius == ItemRadius && speed == FallSpeed
    {
      radius := ItemRadius;
      speed := FallSpeed;
      position := Vec2(x, -ItemRadius);
    }

    method Update(dt: real)
      requires speed == FallSpeed
      modifies this
      ensures position == Fall(old(position), dt)
    {
      position := Vec2(position.x, position.y + speed * dt);
    }
  }
}

=== FILE: foe.dfy ===
/** The 2D enemy as the two canvas session loops see it. The legacy game
    creates the enemy class of `src/enemy.ts`, which is not part of this
    model. The canvas game screen calls the 3D enemy class (`Enemies.Enemy`)
    with a position and a velocity, which its constructor does not accept.
    In both, an enemy is the value the loops read (position, velocity,
    collision radius), and `update` and `isOffScreen` are parameters of the
    loops that call them. */
module Foes {
  import opened Geometry

  datatype Foe = Foe(position: Vec2, velocity: Vec2, radius: real)

  /** `dist < player.radius + enemy.radius`, decided on squared lengths. */
  predicate Collides(f: Foe, player: Vec2, playerRadius: real) {
    Overlaps(player, f.position, playerRadius + f.radius)
  }

  /** The squared test is the loops' test on the length of the offset. */
  lemma CollidesIffCloser(f: Foe, player: Vec2, playerRadius: real, dist: real)
    requires IsHypot(player.x - f.position.x, player.y - f.position.y, dist)
    ensures Collides(f, player, playerRadius) <==> dist < playerRadius + f.radius
  {
    OverlapsIffHypotBelow(player, f.position, playerRadius + f.radius, dist);
  }

  /** Where a new enemy appears: `offset` outside the edge the side roll
      picks (0 top, 1 bottom, 2 left, 3 right), at the along roll's point of
      that edge. */
  function EdgePoint(sideRoll: real, alongRoll: real, width: real, height: real, offset: real): (p: Vec2)
    requires IsRoll(sideRoll) && IsRoll(alongRoll)
    ensures 0.0 < offset && 0.0 <= width && 0.0 <= height ==>
      p.x < 0.0 || width < p.x || p.y < 0.0 || height < p.y
    ensures (Between(0.0, p.x, width) && (p.y == -offset || p.y == height + offset))
         || (Between(0.0, p.y, height) && (p.x == -offset || p.x == width + offset))
  {
    match Side(sideRoll)
    case 0 => Vec2(Along(alongRoll, 0.0, width), -offset)
    case 1 => Vec2(Along(alongRoll, 0.0, width), height + offset)
    case 2 => Vec2(-offset, Along(alongRoll, 0.0, height))
    case _ => Vec2(width + offset, Along(alongRoll, 0.0, height))
  }

  /** Every enemy after its own `update(dt)`, in order. */
  function StepAll(fs: seq<Foe>, step: (Foe, real) -> Foe, dt: real): seq<Foe> {
    seq(|fs|, k requires 0 <= k < |fs| => step(fs[k], dt))
  }
}

=== FILE: geometry.dfy ===
/** Plane vectors, the optional-value wrapper, and the facts about square roots
    and sines that the game's geometry relies on.

    The game computes `Math.hypot`, `Math.sqrt`, `Math.sin` and `Math.atan2`.
    None of them is computed here. A length is passed in as a number `h`
    together with the promise `IsHypot(dx, dy, h)` (it is non-negative and its
    square is `dx*dx + dy*dy`); a sine is passed in as a function together with
    the promise `IsSineOfTurns` (bounded by 1, zero at every whole number of
    turns). */
module Geometry {

  datatype Option<T> = None | Some(value: T)

  /** The game's `{ x, y }` records, as values. */
  datatype Vec2 = Vec2(x: real, y: real)

  const Origin: Vec2 := Vec2(0.0, 0.0)

  /** The total of a sequence of frame lengths. */
  function Sum(dts: seq<real>): real {
    if dts == [] then 0.0 else dts[0] + Sum(dts[1..])
  }

  function Min(a: real, b: real): real { if a <= b then a else b }
  function Max(a: real, b: real): real { if a >= b then a else b }

  /** `Math.max(lo, Math.min(hi, v))`, the clamp the screens use. */
  function Clamp(v: real, lo: real, hi: real): (r: real)
    ensures lo <= hi ==> lo <= r <= hi
    ensures lo <= v <= hi ==> r == v
    ensures lo <= hi && v < lo ==> r == lo
    ensures lo <= hi && hi < v ==> r == hi
  {
    Max(lo, Min(hi, v))
  }

  predicate Between(a: real, v: real, b: real) {
    (a <= v <= b) || (b <= v <= a)
  }

  /** `start + (end - start) * t`, componentwise. */
  function Lerp(a: Vec2, b: Vec2, t: real): (p: Vec2)
    ensures t == 0.0 ==> p == a
    ensures t == 1.0 ==> p == b
    ensures 0.0 <= t <= 1.0 ==> Between(a.x, p.x, b.x) && Between(a.y, p.y, b.y)
  {
    var p := Vec2(a.x + (b.x - a.x) * t, a.y + (b.y - a.y) * t);
    assert 0.0 <= t <= 1.0 ==> Between(a.x, p.x, b.x) by {
      if 0.0 <= t <= 1.0 { ScaledStepBetween(a.x, b.x, t); }
    }
    assert 0.0 <= t <= 1.0 ==> Between(a.y, p.y, b.y) by {
      if 0.0 <= t <= 1.0 { ScaledStepBetween(a.y, b.y, t); }
    }
    p
  }

  lemma ScaledStepBetween(a: real, b: real, t: real)
    requires 0.0 <= t <= 1.0
    ensures Between(a, a + (b - a) * t, b)
  {
    var d := b - a;
    assert d * t + d * (1.0 - t) == d;
    if a <= b {
      ProductNonneg(d, t);
      ProductNonneg(d, 1.0 - t);
    } else {
      ProductNonneg(-d, t);
      ProductNonneg(-d, 1.0 - t);
    }
  }

  /** A value of `Math.random()`. */
  predicate IsRoll(r: real) {
    0.0 <= r < 1.0
  }

  /** `Math.floor(roll * 4)`: one of the four edges. */
  function Side(roll: real): (s: int)
    requires IsRoll(roll)
    ensures 0 <= s < 4
    ensures s as real <= roll * 4.0 < s as real + 1.0
  {
    (roll * 4.0).Floor
  }

  /** `roll * (hi - lo) + lo`: a point of the span from `lo` to `hi`. */
  function Along(roll: real, lo: real, hi: real): (v: real)
    requires IsRoll(roll)
    ensures Between(lo, v, hi)
  {
    ScaledStepBetween(lo, hi, roll);
    roll * (hi - lo) + lo
  }

  lemma ProductNonneg(x: real, y: real)
    requires 0.0 <= x && 0.0 <= y
    ensures 0.0 <= x * y
  {
  }

  /** `Math.max(r, Math.min(size - r, v))` on both axes: the centre of a
      circle of radius `r` kept a radius away from every edge of the canvas.
      On a canvas narrower than the circle the centre sits at `r`, past the
      far edge. */
  function Confine(p: Vec2, r: real, width: real, height: real): (q: Vec2)
    ensures r <= q.x && r <= q.y
    ensures r <= width - r ==> q.x <= width - r
    ensures r <= height - r ==> q.y <= height - r
    ensures r <= p.x <= width - r && r <= p.y <= height - r ==> q == p
  {
    Vec2(Clamp(p.x, r, width - r), Clamp(p.y, r, height - r))
  }

  /** Confining twice is confining once. */
  lemma ConfineIdempotent(p: Vec2, r: real, width: real, height: real)
    requires r <= width - r && r <= height - r
    ensures Confine(Confine(p, r, width, height), r, width, height) == Confine(p, r, width, height)
  {
  }

  /** The square of a number; kept behind a function so that the solver treats
      each square as one quantity. */
  function Sq(x: real): real { x * x }

  lemma SqNonneg(x: real)
    ensures 0.0 <= Sq(x)
  {
  }

  lemma SqPositive(x: real)
    requires x != 0.0
    ensures 0.0 < Sq(x)
  {
    assert Sq(x) / x == x;
  }

  /** Squaring is strictly increasing on the non-negative numbers. */
  lemma SqStrictlyIncreasing(a: real, b: real)
    requires 0.0 <= a < b
    ensures Sq(a) < Sq(b)
  {
    assert Sq(b) / b == b;
    if a > 0.0 {
      assert Sq(a) / a == a;
    }
  }

  /** A number in [-1, 1] has a square of at most 1. */
  lemma SqAtMostOne(s: real)
    requires -1.0 <= s <= 1.0
    ensures Sq(s) <= 1.0
  {
    if s >= 0.0 {
      ProductNonneg(1.0 - s, s);
    } else {
      ProductNonneg(1.0 + s, -s);
    }
  }

  lemma SqOfProduct(a: real, b: real)
    ensures Sq(a * b) == Sq(a) * Sq(b)
  {
  }

  function SqNorm(v: Vec2): real { Sq(v.x) + Sq(v.y) }

  function Sub(a: Vec2, b: Vec2): Vec2 { Vec2(a.x - b.x, a.y - b.y) }

  function SqDist(a: Vec2, b: Vec2): real { SqNorm(Sub(a, b)) }

  /** `h` is what `Math.hypot(dx, dy)` denotes: the non-negative square root of
      `dx*dx + dy*dy`. */
  predicate IsHypot(dx: real, dy: real, h: real) {
    0.0 <= h && Sq(h) == Sq(dx) + Sq(dy)
  }

  /** A step of `step` along a direction of length at most 1 moves at most
      `step` away. */
  lemma StepDistance(position: Vec2, dir: Vec2, step: real)
    requires SqNorm(dir) <= 1.0
    ensures SqDist(Vec2(position.x + dir.x * step, position.y + dir.y * step), position) <= Sq(step)
  {
    assert Sub(Vec2(position.x + dir.x * step, position.y + dir.y * step), position)
      == Vec2(dir.x * step, dir.y * step);
    SqOfProduct(dir.x, step);
    SqOfProduct(dir.y, step);
    SqNonneg(step);
    assert SqNorm(Vec2(dir.x * step, dir.y * step)) == SqNorm(dir) * Sq(step);
    ProductNonneg(1.0 - SqNorm(dir), Sq(step));
  }

  /** A function that returns the length of every vector: the role `Math.hypot`
      plays in the methods that call it on values they compute themselves. */
  ghost predicate HypotOracle(hypot: (real, real) -> real) {
    forall dx, dy :: IsHypot(dx, dy, hypot(dx, dy))
  }

  /** `sinTurns(x)` stands for `Math.sin(2 * Math.PI * x)`: bounded by 1 and zero
      at every whole number of turns. */
  ghost predicate IsSineOfTurns(sinTurns: real -> real) {
    && (forall x :: -1.0 <= sinTurns(x) <= 1.0)
    && (forall x: real :: x.Floor as real == x ==> sinTurns(x) == 0.0)
  }

  /** The length of a vector is zero exactly when the vector is. */
  lemma HypotZeroIff(dx: real, dy: real, h: real)
    ensures IsHypot(dx, dy, h) ==> (h == 0.0 <==> dx == 0.0 && dy == 0.0)
  {
    if !IsHypot(dx, dy, h) {
      return;
    }
    SqNonneg(dx);
    SqNonneg(dy);
    if h == 0.0 {
      if dx != 0.0 {
        SqPositive(dx);
      } else if dy != 0.0 {
        SqPositive(dy);
      }
    } else {
      SqPositive(h);
    }
  }

  lemma CancelFactor(x: real, y: real, c: real)
    requires c != 0.0 && x * c == y * c
    ensures x == y
  {
    assert (x - y) * c == 0.0;
  }

  /** `hypot(dx, dy) < reach`, decided without a square root. */
  predicate Overlaps(a: Vec2, b: Vec2, reach: real) {
    0.0 < reach && SqDist(a, b) < Sq(reach)
  }

  /** The squared comparison decides the same thing as comparing the length. */
  lemma OverlapsIffHypotBelow(a: Vec2, b: Vec2, reach: real, h: real)
    ensures IsHypot(a.x - b.x, a.y - b.y, h) ==> (Overlaps(a, b, reach) <==> h < reach)
  {
    if IsHypot(a.x - b.x, a.y - b.y, h) && 0.0 < reach {
      if h < reach {
        SqStrictlyIncreasing(h, reach);
      } else if reach < h {
        SqStrictlyIncreasing(reach, h);
      }
    }
  }

  /** Dividing a vector by its length and scaling by `k` gives a vector of
      length `|k|`. */
  lemma ScaledUnit(dx: real, dy: real, h: real, k: real)
    requires h != 0.0
    ensures IsHypot(dx, dy, h) ==> SqNorm(Vec2(dx / h * k, dy / h * k)) == Sq(k)
  {
    if !IsHypot(dx, dy, h) {
      return;
    }
    var a, b := dx / h, dy / h;
    SqPositive(h);
    SqOfQuotient(dx, h);
    SqOfQuotient(dy, h);
    assert Sq(a) + Sq(b) == (Sq(dx) + Sq(dy)) / Sq(h);
    assert Sq(a) + Sq(b) == 1.0;
    SqOfProduct(a, k);
    SqOfProduct(b, k);
    assert Sq(a * k) + Sq(b * k) == (Sq(a) + Sq(b)) * Sq(k);
  }

  lemma SqOfQuotient(x: real, h: real)
    requires h != 0.0
    ensures Sq(h) != 0.0 && Sq(x / h) == Sq(x) / Sq(h)
  {
    SqPositive(h);
    SqOfProduct(x / h, h);
    assert x / h * h == x;
  }
}

=== FILE: invincibility.dfy ===
/** The short invincibility a 2D player gets after a hit: a flag and a
    countdown timer that `update` runs down and `makeInvincible` restarts. */
module Invincibility {
  import opened Geometry

  /** The length of the invincibility, in seconds. */
  const InvincibleDuration: real := 1.0

  datatype Shield = Shield(invincible: bool, timer: real)

  /** `makeInvincible()`. */
  function Grant(duration: real): Shield {
    Shield(true, duration)
  }

  /** The invincibility part of `update(dt)`. */
  function Tick(s: Shield, dt: real): (r: Shield)
    ensures !s.invincible ==> r == s
    ensures s.invincible ==> r.timer == s.timer - dt
    ensures s.invincible ==> (r.invincible <==> s.timer - dt > 0.0)
  {
    if !s.invincible then s
    else
      var t := s.timer - dt;
      if t <= 0.0 then Shield(false, t) else Shield(true, t)
  }

  /** An invincible player always has time left: granting a positive duration
      establishes it and every tick keeps it. */
  predicate TimeLeft(s: Shield) {
    s.invincible ==> 0.0 < s.timer
  }

  lemma TimeLeftKept(s: Shield, dt: real, duration: real)
    requires TimeLeft(s) && 0.0 < duration
    ensures TimeLeft(Tick(s, dt)) && TimeLeft(Grant(duration))
  {
  }

  function TickAll(s: Shield, dts: seq<real>): Shield
    decreases |dts|
  {
    if dts == [] then s else TickAll(Tick(s, dts[0]), dts[1..])
  }

  predicate NonNegative(dts: seq<real>) {
    forall i :: 0 <= i < |dts| ==> 0.0 <= dts[i]
  }

  /** With frames of non-negative length, an invincible player with time left
      stays invincible exactly while the elapsed time is below the timer, and the
      timer has then run down by the elapsed time. */
  lemma {:induction false} InvincibleWhileTimeLeft(s: Shield, dts: seq<real>)
    requires s.invincible && 0.0 < s.timer && NonNegative(dts)
    ensures TickAll(s, dts).invincible <==> Sum(dts) < s.timer
    ensures TickAll(s, dts).invincible ==> TickAll(s, dts).timer == s.timer - Sum(dts)
    decreases |dts|
  {
    if dts != [] {
      var r := Tick(s, dts[0]);
      assert TickAll(s, dts) == TickAll(r, dts[1..]);
      assert Sum(dts) == dts[0] + Sum(dts[1..]);
      assert NonNegative(dts[1..]) by {
        forall i | 0 <= i < |dts[1..]| ensures 0.0 <= dts[1..][i] {
          assert dts[1..][i] == dts[i + 1];
        }
      }
      SumNonNegative(dts[1..]);
      if r.invincible {
        InvincibleWhileTimeLeft(r, dts[1..]);
      } else {
        TickAllIdle(r, dts[1..]);
      }
    }
  }

  lemma {:induction false} SumNonNegative(dts: seq<real>)
    requires NonNegative(dts)
    ensures 0.0 <= Sum(dts)
    decreases |dts|
  {
    if dts != [] {
      assert NonNegative(dts[1..]) by {
        forall i | 0 <= i < |dts[1..]| ensures 0.0 <= dts[1..][i] {
          assert dts[1..][i] == dts[i + 1];
        }
      }
      SumNonNegative(dts[1..]);
    }
  }

  /** Once invincibility has ended, further frames change nothing. */
  lemma {:induction false} TickAllIdle(s: Shield, dts: seq<real>)
    requires !s.invincible
    ensures TickAll(s, dts) == s
    decreases |dts|
  {
    if dts != [] {
      TickAllIdle(Tick(s, dts[0]), dts[1..]);
    }
  }

  /** A freshly granted invincibility lasts one second of frames. */
  lemma GrantLastsOneSecond(dts: seq<real>)
    requires NonNegative(dts)
    ensures TickAll(Grant(InvincibleDuration), dts).invincible <==> Sum(dts) < 1.0
  {
    InvincibleWhileTimeLeft(Grant(InvincibleDuration), dts);
  }
}

=== FILE: joystick.dfy ===
/** The on-screen joystick: a base where the pointer went down, a knob that
    follows the pointer but stays within 50 units of the base, and the
    direction they define, whose length is at most 1. Screen coordinates are
    the input; the mapping from pointer events to them is not modelled. */
module Joysticks {
  import opened Geometry

  const JoystickRadius: real := 50.0

  /** Where `onPointerMove` puts the knob for a pointer at `p`, as written:
      the offset from the base divided by its length `dist`, which is not
      defined when the pointer is on the base. */
  function KnobAsWritten(base: Vec2, p: Vec2, dist: real): (k: Vec2)
    requires dist != 0.0
    ensures IsHypot(p.x - base.x, p.y - base.y, dist) && dist <= JoystickRadius ==> k == p
  {
    var dx, dy := p.x - base.x, p.y - base.y;
    var clamped := Min(dist, JoystickRadius);
    Vec2(base.x + dx / dist * clamped, base.y + dy / dist * clamped)
  }

  /** The division by `dist` is undefined exactly when the pointer is on the
      base. */
  lemma KnobAsWrittenUndefinedOnBase(base: Vec2, p: Vec2, dist: real)
    requires IsHypot(p.x - base.x, p.y - base.y, dist)
    ensures dist == 0.0 <==> p == base
  {
    HypotZeroIff(p.x - base.x, p.y - base.y, dist);
    OffsetZeroIff(p, base);
  }

  lemma OffsetZeroIff(a: Vec2, b: Vec2)
    ensures a == b <==> a.x - b.x == 0.0 && a.y - b.y == 0.0
  {
  }

  /** Everywhere else the corrected knob is the code's. */
  lemma KnobAgreesOffBase(base: Vec2, p: Vec2, dist: real)
    requires dist != 0.0
    ensures KnobAsWritten(base, p, dist) == Knob(base, p, dist)
  {
  }

  /** The knob position with the zero-length case handled: on the base the
      knob stays on the base. */
  function Knob(base: Vec2, p: Vec2, dist: real): Vec2 {
    if dist == 0.0 then base
    else
      var clamped := Min(dist, JoystickRadius);
      Vec2(base.x + (p.x - base.x) / dist * clamped, base.y + (p.y - base.y) / dist * clamped)
  }

  /** A pointer within the radius is the knob; one outside is pulled back onto
      the rim, so the knob never leaves the disc of radius 50. */
  lemma KnobWithinRadius(base: Vec2, p: Vec2, dist: real)
    ensures IsHypot(p.x - base.x, p.y - base.y, dist) ==>
      var k := Knob(base, p, dist);
      && SqDist(k, base) <= Sq(JoystickRadius)
      && (dist <= JoystickRadius ==> k == p)
      && (dist > JoystickRadius ==> SqDist(k, base) == Sq(JoystickRadius))
  {
    if dist == 0.0 {
      KnobOnBase(base, p, dist);
      SqDistSelf(base);
    } else {
      RimProperties(base, p, dist);
    }
  }

  lemma KnobOnBase(base: Vec2, p: Vec2, dist: real)
    requires dist == 0.0
    ensures IsHypot(p.x - base.x, p.y - base.y, dist) ==>
      p == base && Knob(base, p, dist) == p
  {
    HypotZeroIff(p.x - base.x, p.y - base.y, dist);
    OffsetZeroIff(p, base);
  }

  lemma SqDistSelf(a: Vec2)
    ensures SqDist(a, a) == 0.0
  {
    assert Sub(a, a) == Origin;
  }

  /** The knob stays on the line from the base through the pointer. */
  lemma KnobAlongRay(base: Vec2, p: Vec2, dist: real)
    ensures var k := Knob(base, p, dist);
      (k.x - base.x) * (p.y - base.y) == (k.y - base.y) * (p.x - base.x)
  {
    if dist != 0.0 {
      ScaledParallel(p.x - base.x, p.y - base.y, dist, Min(dist, JoystickRadius));
    }
  }

  lemma RimProperties(base: Vec2, p: Vec2, dist: real)
    requires dist != 0.0
    ensures IsHypot(p.x - base.x, p.y - base.y, dist) ==>
      var dx, dy := p.x - base.x, p.y - base.y;
      var clamped := Min(dist, JoystickRadius);
      var k := Vec2(base.x + dx / dist * clamped, base.y + dy / dist * clamped);
      && SqDist(k, base) <= Sq(JoystickRadius)
      && (dist <= JoystickRadius ==> k == p)
      && (dist > JoystickRadius ==> SqDist(k, base) == Sq(JoystickRadius))
  {
    var dx, dy := p.x - base.x, p.y - base.y;
    if !IsHypot(dx, dy, dist) {
      return;
    }
    var clamped := Min(dist, JoystickRadius);
    KnobOffset(base, dx, dy, dist, clamped);
    SqStrictlyIncreasingOrEqual(clamped, JoystickRadius);
    if dist <= JoystickRadius {
      assert dx / dist * dist == dx;
      assert dy / dist * dist == dy;
    }
  }

  lemma KnobOffset(base: Vec2, dx: real, dy: real, dist: real, c: real)
    requires dist != 0.0
    ensures IsHypot(dx, dy, dist) ==> SqDist(Vec2(base.x + dx / dist * c, base.y + dy / dist * c), base) == Sq(c)
  {
    ScaledUnit(dx, dy, dist, c);
    assert Sub(Vec2(base.x + dx / dist * c, base.y + dy / dist * c), base)
      == Vec2(dx / dist * c, dy / dist * c);
  }

  lemma SqStrictlyIncreasingOrEqual(a: real, b: real)
    requires 0.0 <= a <= b
    ensures Sq(a) <= Sq(b)
  {
    if a < b {
      SqStrictlyIncreasing(a, b);
    }
  }

  /** Scaling `(dx, dy)` by a common factor keeps it on the same line. */
  lemma ScaledParallel(dx: real, dy: real, dist: real, c: real)
    requires dist != 0.0
    ensures dx / dist * c * dy == dy / dist * c * dx
  {
    var f := c / dist;
    assert dx / dist * c == dx * f;
    assert dy / dist * c == dy * f;
  }

  /** The direction for a knob `(dx, dy)` away from the base at distance
      `dist`: the unit offset scaled by `min(dist / 50, 1)`, and zero at
      distance zero. */
  function Pull(dx: real, dy: real, dist: real): Vec2 {
    if dist == 0.0 then Origin
    else
      var intensity := Min(dist / JoystickRadius, 1.0);
      Vec2(dx / dist * intensity, dy / dist * intensity)
  }

  /** With the true distance the pull is at most 1 long, zero for a knob on
      the base, the offset over 50 within the radius, and parallel to the
      offset. */
  lemma PullFacts(dx: real, dy: real, dist: real)
    requires IsHypot(dx, dy, dist)
    ensures SqNorm(Pull(dx, dy, dist)) <= 1.0
    ensures dx == 0.0 && dy == 0.0 ==> Pull(dx, dy, dist) == Origin
    ensures dist <= JoystickRadius ==> Pull(dx, dy, dist) == Vec2(dx / JoystickRadius, dy / JoystickRadius)
    ensures Pull(dx, dy, dist).x * dy == Pull(dx, dy, dist).y * dx
  {
    HypotZeroIff(dx, dy, dist);
    if dist != 0.0 {
      PullBounded(dx, dy, dist, Min(dist / JoystickRadius, 1.0));
    }
    PullParallel(dx, dy, dist);
    if dist <= JoystickRadius {
      PullNear(dx, dy, dist);
    }
  }

  lemma PullParallel(dx: real, dy: real, dist: real)
    ensures Pull(dx, dy, dist).x * dy == Pull(dx, dy, dist).y * dx
  {
    var p := Pull(dx, dy, dist);
    if dist != 0.0 {
      ScaledParallel(dx, dy, dist, Min(dist / JoystickRadius, 1.0));
    } else {
      ZeroTimes(p.x, dy);
      ZeroTimes(p.y, dx);
    }
  }

  lemma PullNear(dx: real, dy: real, dist: real)
    requires IsHypot(dx, dy, dist) && dist <= JoystickRadius
    ensures Pull(dx, dy, dist) == Vec2(dx / JoystickRadius, dy / JoystickRadius)
  {
    HypotZeroIff(dx, dy, dist);
    if dist != 0.0 {
      CancelLength(dx, dist);
      CancelLength(dy, dist);
    } else {
      ZeroOverRadius(dx);
      ZeroOverRadius(dy);
    }
  }

  lemma ZeroTimes(z: real, x: real)
    requires z == 0.0
    ensures z * x == 0.0
  {
  }

  lemma ZeroOverRadius(x: real)
    requires x == 0.0
    ensures x / JoystickRadius == 0.0
  {
  }

  lemma PullBounded(dx: real, dy: real, dist: real, intensity: real)
    requires IsHypot(dx, dy, dist) && dist != 0.0 && intensity == Min(dist / JoystickRadius, 1.0)
    ensures SqNorm(Vec2(dx / dist * intensity, dy / dist * intensity)) <= 1.0
  {
    assert 0.0 < dist by { HypotZeroIff(dx, dy, dist); }
    assert 0.0 <= intensity <= 1.0;
    ScaledUnit(dx, dy, dist, intensity);
    SqAtMostOne(intensity);
  }

  /** `getDirection()` on the joystick state: zero when either point is
      missing or they coincide; otherwise the unit vector from base to knob
      scaled by `min(dist / 50, 1)`. */
  function DirectionOf(base: Option<Vec2>, pos: Option<Vec2>, dist: real): (d: Vec2)
    ensures base.None? || pos.None? ==> d == Origin
    ensures base.Some? && pos.Some? ==>
      var dx, dy := pos.value.x - base.value.x, pos.value.y - base.value.y;
      IsHypot(dx, dy, dist) ==>
        && SqNorm(d) <= 1.0
        && (pos.value == base.value ==> d == Origin)
        && (dist <= JoystickRadius ==> d == Vec2(dx / JoystickRadius, dy / JoystickRadius))
        && d.x * dy == d.y * dx
  {
    if base.None? || pos.None? then Origin
    else
      var dx, dy := pos.value.x - base.value.x, pos.value.y - base.value.y;
      if IsHypot(dx, dy, dist) then
        PullFacts(dx, dy, dist);
        Pull(dx, dy, dist)
      else Pull(dx, dy, dist)
  }

  lemma CancelLength(x: real, dist: real)
    requires dist != 0.0
    ensures x / dist * (dist / JoystickRadius) == x / JoystickRadius
  {
  }

  class Joystick {
    var base: Option<Vec2>
    var pos: Option<Vec2>
    const radius: real

    constructor()
      ensures base.None? && pos.None? && radius == JoystickRadius
    {
      base := None;
      pos := None;
      radius := JoystickRadius;
    }

    /** `onPointerDown`: base and knob both go to the pointer. */
    method OnPointerDown(p: Vec2)
      modifies this
      ensures base == Some(p) && pos == Some(p)
    {
      base := Some(p);
      pos := Some(p);
    }

    /** `onPointerMove`, with the zero-length case handled: the knob follows
        the pointer within the radius. Without a base nothing changes. */
    method OnPointerMove(p: Vec2, hypot: (real, real) -> real)
      requires radius == JoystickRadius
      modifies this
      ensures base == old(base)
      ensures base.None? ==> pos == old(pos)
      ensures base.Some? ==>
        pos == Some(Knob(base.value, p, hypot(p.x - base.value.x, p.y - base.value.y)))
      ensures base.Some? && HypotOracle(hypot) ==> SqDist(pos.value, base.value) <= Sq(JoystickRadius)
    {
      if base.None? {
        return;
      }
      var b := base.value;
      var dist := hypot(p.x - b.x, p.y - b.y);
      pos := Some(Knob(b, p, dist));
      KnobWithinRadius(b, p, dist);
    }

    /** `onPointerUp`, also used for cancel and leave: the stick is released. */
    method OnPointerUp()
      modifies this
      ensures base.None? && pos.None?
    {
      base := None;
      pos := None;
    }

    /** The direction the stick shows: zero unless both the base and the
        knob are down, `DirectionOf` them otherwise. */
    function Reading(hypot: (real, real) -> real): (d: Vec2)
      reads this`base, this`pos
      ensures HypotOracle(hypot) ==> SqNorm(d) <= 1.0
    {
      if base.None? || pos.None? then Origin
      else DirectionOf(base, pos, hypot(pos.value.x - base.value.x, pos.value.y - base.value.y))
    }

    /** `getDirection()`. */
    method GetDirection(hypot: (real, real) -> real) returns (d: Vec2)
      ensures base.None? || pos.None? ==> d == Origin
      ensures base.Some? && pos.Some? ==>
        d == DirectionOf(base, pos, hypot(pos.value.x - base.value.x, pos.value.y - base.value.y))
      ensures HypotOracle(hypot) ==> SqNorm(d) <= 1.0
      ensures d == Reading(hypot)
    {
      if base.None? || pos.None? {
        return Origin;
      }
      var dist := hypot(pos.value.x - base.value.x, pos.value.y - base.value.y);
      d := DirectionOf(base, pos, dist);
    }
  }

  /** Right after the pointer goes down the direction is zero. */
  lemma DirectionZeroAfterDown(p: Vec2, dist: real)
    requires IsHypot(0.0, 0.0, dist)
    ensures DirectionOf(Some(p), Some(p), dist) == Origin
  {
  }
}

=== FILE: js_arrays.dfy ===
/** The two array operations the screens combine to remove an element:
    `indexOf`, which answers -1 for a missing element, and `splice(start, 1)`,
    which counts a negative start from the end. */
module JsArrays {

  /** `s.indexOf(x)`: the first position holding `x`, or -1. */
  function IndexOf<T(==)>(s: seq<T>, x: T): (i: int)
    ensures -1 <= i < |s|
    ensures i == -1 <==> x !in s
    ensures 0 <= i ==> s[i] == x && x !in s[..i]
  {
    if |s| == 0 then -1
    else if s[0] == x then 0
    else
      var j := IndexOf(s[1..], x);
      assert s[1..][..if j < 0 then 0 else j] == s[1..if j < 0 then 1 else j + 1];
      if j < 0 then -1 else j + 1
  }

  /** `s.splice(start, 1)` on a copy of `s`: a negative start counts from
      the end (clamped at 0); a start at or past the end removes nothing. */
  function SpliceOne<T>(s: seq<T>, start: int): (r: seq<T>)
    ensures var k := if start < 0 then (if |s| + start < 0 then 0 else |s| + start) else start;
      && (k < |s| ==>
           && |r| == |s| - 1
           && (forall i | 0 <= i < k :: r[i] == s[i])
           && (forall i | k <= i < |r| :: r[i] == s[i + 1]))
      && (k >= |s| ==> r == s)
    ensures start == -1 && |s| > 0 ==> r == s[..|s| - 1]
  {
    var k := if start < 0 then (if |s| + start < 0 then 0 else |s| + start) else start;
    if k < |s| then s[..k] + s[k + 1..] else s
  }

  /** `s.splice(s.indexOf(x), 1)`. */
  function RemoveFirst<T(==)>(s: seq<T>, x: T): seq<T> {
    SpliceOne(s, IndexOf(s, x))
  }

  /** A present element loses exactly one occurrence and everything else
      keeps its order. */
  lemma RemovePresent<T>(s: seq<T>, x: T)
    requires x in s
    ensures var i := IndexOf(s, x);
      RemoveFirst(s, x) == s[..i] + s[i + 1..]
    ensures multiset(RemoveFirst(s, x)) == multiset(s) - multiset{x}
  {
    DropOneMultiset(s, IndexOf(s, x));
  }

  /** Dropping position `i` takes one occurrence of `s[i]` out of the
      multiset. */
  lemma DropOneMultiset<T>(s: seq<T>, i: nat)
    requires i < |s|
    ensures multiset(s[..i] + s[i + 1..]) == multiset(s) - multiset{s[i]}
  {
    assert s == s[..i] + [s[i]] + s[i + 1..];
  }

  /** A missing element makes `indexOf` answer -1, and the splice then drops
      the last element instead. */
  lemma RemoveAbsentDropsLast<T>(s: seq<T>, x: T)
    requires x !in s && |s| > 0
    ensures RemoveFirst(s, x) == s[..|s| - 1]
  {
  }

  /** Removing the element at the front takes the front off. */
  lemma RemoveHead<T>(s: seq<T>)
    requires |s| > 0
    ensures RemoveFirst(s, s[0]) == s[1..]
  {
  }

  /** No element occurs twice. */
  predicate Distinct<T(==)>(s: seq<T>) {
    forall i, j :: 0 <= i < j < |s| ==> s[i] != s[j]
  }

  /** Removing keeps a list free of repeats and adds nothing to it. */
  lemma RemoveKeepsDistinct<T>(s: seq<T>, x: T)
    requires Distinct(s)
    ensures Distinct(RemoveFirst(s, x))
    ensures forall y :: y in RemoveFirst(s, x) ==> y in s
  {
    var i := IndexOf(s, x);
    var k := if i < 0 then |s| - 1 else i;
    if 0 <= k < |s| {
      DropKeepsDistinct(s, k);
    }
  }

  lemma DropKeepsDistinct<T>(s: seq<T>, k: nat)
    requires Distinct(s) && k < |s|
    ensures Distinct(s[..k] + s[k + 1..])
    ensures forall y :: y in s[..k] + s[k + 1..] ==> y in s
  {
    var r := s[..k] + s[k + 1..];
    forall a, b | 0 <= a < b < |r|
      ensures r[a] != r[b]
    {
      var a', b' := if a < k then a else a + 1, if b < k then b else b + 1;
      assert r[a] == s[a'] && r[b] == s[b'];
    }
    forall y | y in r
      ensures y in s
    {
      var a :| 0 <= a < |r| && r[a] == y;
      assert r[a] == s[if a < k then a else a + 1];
    }
  }
}

=== FILE: legacy_game.dfy ===
/** The first browser game: one canvas object that is menu, session and
    game-over screen at once. A session accrues score with time, moves the
    player by touch or by a virtual joystick, spawns enemies from the edges,
    and takes one life per frame at most when an enemy reaches a player who
    is not invincible; the last life ends the session and records the score
    on a top-10 leaderboard.

    The clock, the random numbers and `Math.sqrt` of a sum of squares are
    parameters; the stored best score and leaderboard are the parsed values
    of browser storage, passed in. The enemy class is not part of this
    model: its `update` and `isOffScreen` are parameters. */
module LegacyGame {
  import opened Geometry
  import opened Foes
  import opened JsArrays
  import Joysticks
  import LegacyLocationConfig
  import LegacyPlayer
  import Invincibility

  const InitialLives: int := 3
  /** Points per second of play. */
  const ScoreRate: real := 10.0
  const PlayerSpeed: real := 300.0
  const JoystickRadius: real := 50.0
  const ShakeDuration: real := 0.3
  /** The length of the leaderboard. */
  const BoardSize: nat := 10
  /** The height of a menu row. */
  const RowHeight: real := 50.0

  datatype Phase = Menu | Playing | GameOver

  /** A leaderboard entry; `date` is the time the score was saved. */
  datatype ScoreEntry = ScoreEntry(score: real, date: real)

  /** The random numbers `spawnEnemy` draws, in the order it draws them: the
      edge, the two drift factors, the point along the edge. */
  datatype SpawnRolls = SpawnRolls(side: real, driftX: real, driftY: real, along: real)

  /** The session state a touch outside the menu rows leaves alone: the
      location, the spawning, the player's place, the enemies, the lives,
      the score and the saved scores. */
  datatype Progress = Progress(selectedLocation: nat, spawnInterval: real, lastSpawnTime: real,
                               position: Vec2, enemies: seq<Foe>, lives: int, score: real,
                               gameOver: bool, bestScore: real, leaderboard: seq<ScoreEntry>)

  predicate ValidRolls(r: SpawnRolls) {
    IsRoll(r.side) && IsRoll(r.driftX) && IsRoll(r.driftY) && IsRoll(r.along)
  }

  // ----- Leaderboard -----

  /** Best score first. */
  predicate Ranked(s: seq<ScoreEntry>) {
    forall i, j :: 0 <= i < j < |s| ==> s[j].score <= s[i].score
  }

  /** From index `i` on, each entry scores no more than the one before it. */
  predicate DescendingFrom(s: seq<ScoreEntry>, i: nat)
    decreases |s| - i
  {
    i + 1 >= |s| || (s[i + 1].score <= s[i].score && DescendingFrom(s, i + 1))
  }

  /** Each entry scores no more than the one before it. */
  predicate Descending(s: seq<ScoreEntry>) {
    DescendingFrom(s, 0)
  }

  /** Checking neighbours from `i` on is enough: the tail from `i` is ranked
      exactly when every entry scores no more than the one before it. */
  lemma {:induction false} DescendingFromIsRanked(s: seq<ScoreEntry>, i: nat)
    ensures DescendingFrom(s, i) <==> forall a, b :: i <= a < b < |s| ==> s[b].score <= s[a].score
    decreases |s| - i
  {
    if i + 1 < |s| {
      DescendingFromIsRanked(s, i + 1);
      if DescendingFrom(s, i) {
        forall a, b | i <= a < b < |s|
          ensures s[b].score <= s[a].score
        {
          if a == i && b > i + 1 {
            assert s[b].score <= s[i + 1].score;
          }
        }
      }
    }
  }

  /** A list is ranked exactly when every entry scores no more than the one
      before it. */
  lemma DescendingIsRanked(s: seq<ScoreEntry>)
    ensures Descending(s) <==> Ranked(s)
  {
    DescendingFromIsRanked(s, 0);
  }

  /** `e` placed after every entry scoring at least as much: where a stable
      sort by descending score puts an entry that comes last. */
  function InsertByScore(s: seq<ScoreEntry>, e: ScoreEntry): (r: seq<ScoreEntry>)
    ensures multiset(r) == multiset(s) + multiset{e}
  {
    if s == [] then [e]
    else if s[0].score >= e.score then
      assert s == [s[0]] + s[1..];
      [s[0]] + InsertByScore(s[1..], e)
    else [e] + s
  }

  /** Inserting into a ranked list keeps it ranked. */
  lemma {:induction false} InsertKeepsRanked(s: seq<ScoreEntry>, e: ScoreEntry)
    requires Ranked(s)
    ensures Ranked(InsertByScore(s, e))
    decreases |s|
  {
    if s == [] {
    } else if s[0].score >= e.score {
      var rest := InsertByScore(s[1..], e);
      InsertKeepsRanked(s[1..], e);
      forall x | x in rest
        ensures x.score <= s[0].score
      {
        assert x in multiset(rest);
        if x != e {
          assert x in multiset(s[1..]);
          var k :| 0 <= k < |s[1..]| && s[1..][k] == x;
          assert s[k + 1] == x;
        }
      }
      RankedCons(s[0], rest);
    } else {
      forall x | x in s
        ensures x.score <= e.score
      {
        var k :| 0 <= k < |s| && s[k] == x;
      }
      RankedCons(e, s);
    }
  }

  /** An entry scoring at least as much as every entry of a ranked list can
      go in front of it. */
  lemma RankedCons(h: ScoreEntry, rest: seq<ScoreEntry>)
    requires Ranked(rest)
    requires forall x | x in rest :: x.score <= h.score
    ensures Ranked([h] + rest)
  {
    var r := [h] + rest;
    forall i, j | 0 <= i < j < |r|
      ensures r[j].score <= r[i].score
    {
      assert r[j] == rest[j - 1];
      if i > 0 {
        assert r[i] == rest[i - 1];
      }
    }
  }

  /** `sort((a, b) => b.score - a.score)`: a stable sort, best score first. */
  function SortByScore(s: seq<ScoreEntry>): (r: seq<ScoreEntry>)
    ensures multiset(r) == multiset(s)
    ensures Ranked(r)
    decreases |s|
  {
    if s == [] then []
    else
      var init := s[..|s| - 1];
      assert s == init + [s[|s| - 1]];
      InsertKeepsRanked(SortByScore(init), s[|s| - 1]);
      InsertByScore(SortByScore(init), s[|s| - 1])
  }

  /** `sort` then `slice(0, 10)`: what `loadScores` and `saveScores` keep. */
  function TopScores(s: seq<ScoreEntry>): (r: seq<ScoreEntry>)
    ensures Descending(r) && |r| <= BoardSize
    ensures |r| == if |s| <= BoardSize then |s| else BoardSize
  {
    var sorted := SortByScore(s);
    assert |sorted| == |multiset(sorted)| == |multiset(s)| == |s|;
    var r := if |sorted| <= BoardSize then sorted else sorted[..BoardSize];
    DescendingIsRanked(r);
    r
  }

  /** The kept board is ranked: no entry scores more than one before it. */
  lemma TopScoresRanked(s: seq<ScoreEntry>)
    ensures Ranked(TopScores(s))
  {
    DescendingIsRanked(TopScores(s));
  }

  /** The kept entries are taken from the input, all of it when it has at
      most ten entries; every entry left out scores no
      more than any entry kept. */
  lemma TopScoresKeepBest(s: seq<ScoreEntry>)
    ensures var r := TopScores(s);
      && multiset(r) <= multiset(s)
      && (|s| <= BoardSize ==> multiset(r) == multiset(s))
      && forall x, y | x in multiset(s) - multiset(r) && y in r :: x.score <= y.score
  {
    var sorted := SortByScore(s);
    if |sorted| > BoardSize {
      SplitMultiset(sorted, BoardSize);
      RankedSplit(sorted, BoardSize);
    } else {
      assert |s| <= BoardSize by { assert |multiset(sorted)| == |multiset(s)|; }
    }
  }

  /** Cutting a list at `n` splits its multiset in two. */
  lemma SplitMultiset<T>(s: seq<T>, n: nat)
    requires n <= |s|
    ensures multiset(s[..n]) <= multiset(s)
    ensures multiset(s) - multiset(s[..n]) == multiset(s[n..])
  {
    assert s == s[..n] + s[n..];
  }

  /** In a ranked list the entries from position `n` on score no more than
      those before it. */
  lemma RankedSplit(sorted: seq<ScoreEntry>, n: nat)
    requires Ranked(sorted) && n <= |sorted|
    ensures Ranked(sorted[..n])
    ensures forall x, y | x in multiset(sorted[n..]) && y in sorted[..n] :: x.score <= y.score
  {
    forall x, y | x in multiset(sorted[n..]) && y in sorted[..n]
      ensures x.score <= y.score
    {
      var j :| 0 <= j < |sorted[n..]| && sorted[n..][j] == x;
      var i :| 0 <= i < n && sorted[..n][i] == y;
      assert sorted[n + j] == x && sorted[i] == y;
    }
  }

  /** A ranked list comes out of the sort as it went in, so sorting twice is
      sorting once, and `saveScores` on a ranked board only inserts. */
  lemma {:induction false} SortRankedUnchanged(s: seq<ScoreEntry>)
    requires Ranked(s)
    ensures SortByScore(s) == s
    decreases |s|
  {
    if s != [] {
      var init, last := s[..|s| - 1], s[|s| - 1];
      SortRankedUnchanged(init);
      InsertLowest(init, last);
      assert init + [last] == s;
    }
  }

  lemma {:induction false} InsertLowest(s: seq<ScoreEntry>, e: ScoreEntry)
    requires forall i :: 0 <= i < |s| ==> e.score <= s[i].score
    ensures InsertByScore(s, e) == s + [e]
    decreases |s|
  {
    if s != [] {
      InsertLowest(s[1..], e);
      assert s == [s[0]] + s[1..];
    }
  }

  // ----- Menu and game-over hit tests -----

  /** The location row a menu touch at height `y` falls in: rows of 50
      starting 50 above the middle of the canvas. */
  function MenuRow(y: real, height: real): (row: Option<nat>)
    ensures row.Some? ==> row.value < |LegacyLocationConfig.LegacyLocations|
    ensures row.Some? <==> height / 2.0 - RowHeight < y < height / 2.0 - RowHeight + 3.0 * RowHeight
    ensures row.Some? ==>
      row.value as real * RowHeight <= y - (height / 2.0 - RowHeight) < (row.value + 1) as real * RowHeight
  {
    var locY := y - (height / 2.0 - RowHeight);
    if 0.0 < locY < |LegacyLocationConfig.LegacyLocations| as real * RowHeight then
      Some((locY / RowHeight).Floor as nat)
    else None
  }

  /** A menu touch on the joystick toggle line. */
  predicate OnToggle(y: real, height: real) {
    var joyY := y - (height / 2.0 + 100.0 + |LegacyLocationConfig.LegacyLocations| as real * RowHeight - 20.0);
    0.0 < joyY < 40.0
  }

  /** A game-over touch on the restart line below a board of `entries`. */
  predicate OnRestart(y: real, height: real, entries: nat) {
    var restartY := y - (height / 2.0 + 200.0 + entries as real * 30.0 - 20.0);
    0.0 < restartY < 40.0
  }

  /** The location rows and the toggle line do not overlap: one menu touch
      never both starts a session and flips the joystick. */
  lemma MenuTargetsApart(y: real, height: real)
    ensures MenuRow(y, height).Some? ==> !OnToggle(y, height)
  {
  }

  // ----- Movement -----

  /** The joystick direction as `update` computes it from base and knob:
      nothing at zero length, otherwise the unit offset scaled by
      `min(dist, 50) / 50`. */
  function StickDirection(base: Vec2, knob: Vec2, dist: real): Vec2 {
    if dist > 0.0 then
      var normDist := Min(dist, JoystickRadius) / JoystickRadius;
      Vec2((knob.x - base.x) / dist * normDist, (knob.y - base.y) / dist * normDist)
    else Origin
  }

  /** It is the on-screen joystick's direction, so it is at most 1 long and
      points from the base to the knob. */
  lemma StickDirectionIsJoystickDirection(base: Vec2, knob: Vec2, dist: real)
    requires IsHypot(knob.x - base.x, knob.y - base.y, dist)
    ensures StickDirection(base, knob, dist) == Joysticks.DirectionOf(Some(base), Some(knob), dist)
    ensures SqNorm(StickDirection(base, knob, dist)) <= 1.0
  {
    if dist > 0.0 {
      assert Min(dist, JoystickRadius) / JoystickRadius == Min(dist / JoystickRadius, 1.0);
    }
  }

  /** The player moved along `dir` at 300 per second for `dt` seconds. */
  function Step(p: Vec2, dir: Vec2, dt: real): Vec2 {
    Vec2(p.x + dir.x * (PlayerSpeed * dt), p.y + dir.y * (PlayerSpeed * dt))
  }

  /** Where `handleTouchMove` puts the knob: the touch itself within 50 of
      the base, otherwise the point 50 from the base towards the touch. */
  function TouchKnob(base: Vec2, touch: Vec2, dist: real): Vec2 {
    var dx, dy := touch.x - base.x, touch.y - base.y;
    if dist > JoystickRadius then
      Vec2(base.x + dx / dist * JoystickRadius, base.y + dy / dist * JoystickRadius)
    else Vec2(base.x + dx, base.y + dy)
  }

  /** It is the on-screen joystick's knob, so it stays within 50 of the
      base. */
  lemma TouchKnobIsKnob(base: Vec2, touch: Vec2, dist: real)
    requires IsHypot(touch.x - base.x, touch.y - base.y, dist)
    ensures TouchKnob(base, touch, dist) == Joysticks.Knob(base, touch, dist)
    ensures SqDist(TouchKnob(base, touch, dist), base) <= Sq(JoystickRadius)
  {
    var dx, dy := touch.x - base.x, touch.y - base.y;
    HypotZeroIff(dx, dy, dist);
    if 0.0 < dist <= JoystickRadius {
      assert dx / dist * dist == dx;
      assert dy / dist * dist == dy;
    }
    Joysticks.KnobWithinRadius(base, touch, dist);
  }

  // ----- Spawning -----

  /** The velocity `spawnEnemy` picks before normalising, for an enemy that
      the drift is computed from as if it stood at `from`: straight into the
      canvas across the edge, drifting along the edge towards the middle by
      up to 1.5 times the speed scaled by the distance to the middle. */
  function Heading(side: int, from: Vec2, width: real, height: real, speed: real, r: SpawnRolls): Vec2
    requires 0.0 < width && 0.0 < height
  {
    var dirX := Drift(width / 2.0 - from.x, width, speed, r.driftX + 0.5);
    var dirY := Drift(height / 2.0 - from.y, height, speed, r.driftY + 0.5);
    if side == 0 then Vec2(dirX, speed)
    else if side == 1 then Vec2(dirX, -speed)
    else if side == 2 then Vec2(speed, dirY)
    else Vec2(-speed, dirY)
  }

  /** The drift along an edge: the way `gap` to the middle, as a fraction
      of the canvas `size`, times the speed and the rolled factor `k`. */
  function Drift(gap: real, size: real, speed: real, k: real): real
    requires 0.0 < size
  {
    gap / size * speed * k
  }

  /** The normalisation: `v` rescaled to length `speed` when its length
      `mag` is positive. */
  function Normalize(v: Vec2, mag: real, speed: real): Vec2 {
    if mag > 0.0 then Vec2(v.x / mag * speed, v.y / mag * speed) else v
  }

  /** `spawnEnemy` as written: the drift is computed while the position is
      still the initial `{x: 0, y: 0}`, so it does not depend on where the
      enemy appears. */
  function SpawnAsWritten(r: SpawnRolls, width: real, height: real, offset: real, speed: real,
                          radius: real, sqrt: (real, real) -> real): Foe
    requires ValidRolls(r) && 0.0 < width && 0.0 < height
  {
    var p := EdgePoint(r.side, r.along, width, height, offset);
    var v := Heading(Side(r.side), Origin, width, height, speed, r);
    Foe(p, Normalize(v, sqrt(v.x, v.y), speed), radius)
  }

  /** `spawnEnemy` with the drift computed from the enemy's own position. */
  function Spawn(r: SpawnRolls, width: real, height: real, offset: real, speed: real,
                 radius: real, sqrt: (real, real) -> real): Foe
    requires ValidRolls(r) && 0.0 < width && 0.0 < height
  {
    var p := EdgePoint(r.side, r.along, width, height, offset);
    var v := Heading(Side(r.side), p, width, height, speed, r);
    Foe(p, Normalize(v, sqrt(v.x, v.y), speed), radius)
  }

  /** As written, an enemy appearing on the right half of the top edge
      drifts further right, away from the middle it is meant to lean
      towards. */
  lemma SpawnAsWrittenDriftsAway(r: SpawnRolls, width: real, height: real, offset: real, speed: real,
                                 radius: real, sqrt: (real, real) -> real)
    requires ValidRolls(r) && 0.0 < width && 0.0 < height && 0.0 < speed
    requires HypotOracle(sqrt)
    requires Side(r.side) == 0 && r.along > 0.5
    ensures var f := SpawnAsWritten(r, width, height, offset, speed, radius, sqrt);
      f.position.x > width / 2.0 && f.velocity.x > 0.0
  {
    var p := EdgePoint(r.side, r.along, width, height, offset);
    TopRightHalf(r, width, height, offset);
    HeadingIn(0, Origin, width, height, speed, r, sqrt);
    assert Toward(SpawnAsWritten(r, width, height, offset, speed, radius, sqrt).velocity.x, 0.0, width / 2.0);
  }

  lemma TopRightHalf(r: SpawnRolls, width: real, height: real, offset: real)
    requires ValidRolls(r) && 0.0 < width && 0.0 < height
    requires Side(r.side) == 0 && r.along > 0.5
    ensures EdgePoint(r.side, r.along, width, height, offset).x > width / 2.0
  {
    assert EdgePoint(r.side, r.along, width, height, offset) == Vec2(Along(r.along, 0.0, width), -offset);
    RightHalf(r.along, width);
  }

  lemma RightHalf(along: real, width: real)
    requires IsRoll(along) && 0.5 < along && 0.0 < width
    ensures Along(along, 0.0, width) > width / 2.0
  {
    assert along * width > 0.5 * width;
  }

  /** `d` points from `at` towards `mid`: positive below it, negative
      above it, zero on it. */
  predicate Toward(d: real, at: real, mid: real) {
    && (at < mid ==> d > 0.0)
    && (at > mid ==> d < 0.0)
    && (at == mid ==> d == 0.0)
  }

  /** Corrected, every enemy moves at the location's speed, straight into
      the canvas across its edge, and drifts along the edge towards the
      middle (not at all when it appears right in the middle). */
  lemma SpawnHeadsIn(r: SpawnRolls, width: real, height: real, offset: real, speed: real,
                     radius: real, sqrt: (real, real) -> real)
    requires ValidRolls(r) && 0.0 < width && 0.0 < height && 0.0 < speed
    requires HypotOracle(sqrt)
    ensures var f := Spawn(r, width, height, offset, speed, radius, sqrt);
      var side := Side(r.side);
      && SqNorm(f.velocity) == Sq(speed)
      && (side == 0 ==> f.velocity.y > 0.0) && (side == 1 ==> f.velocity.y < 0.0)
      && (side == 2 ==> f.velocity.x > 0.0) && (side == 3 ==> f.velocity.x < 0.0)
      && (side <= 1 ==> Toward(f.velocity.x, f.position.x, width / 2.0))
      && (side >= 2 ==> Toward(f.velocity.y, f.position.y, height / 2.0))
  {
    var p := EdgePoint(r.side, r.along, width, height, offset);
    HeadingIn(Side(r.side), p, width, height, speed, r, sqrt);
  }

  /** The normalised heading from `from`: full speed, across the edge
      inwards, along the edge towards the middle. */
  lemma HeadingIn(side: int, from: Vec2, width: real, height: real, speed: real, r: SpawnRolls,
                  sqrt: (real, real) -> real)
    requires ValidRolls(r) && 0.0 < width && 0.0 < height && 0.0 < speed && 0 <= side < 4
    requires HypotOracle(sqrt)
    ensures var v := Heading(side, from, width, height, speed, r);
      var n := Normalize(v, sqrt(v.x, v.y), speed);
      && SqNorm(n) == Sq(speed)
      && (side == 0 ==> n.y > 0.0) && (side == 1 ==> n.y < 0.0)
      && (side == 2 ==> n.x > 0.0) && (side == 3 ==> n.x < 0.0)
      && (side <= 1 ==> Toward(n.x, from.x, width / 2.0))
      && (side >= 2 ==> Toward(n.y, from.y, height / 2.0))
  {
    var v := Heading(side, from, width, height, speed, r);
    var mag := sqrt(v.x, v.y);
    assert v.x != 0.0 || v.y != 0.0;
    HypotZeroIff(v.x, v.y, mag);
    HeadingSigns(side, from, width, height, speed, r);
    NormalizeKeepsSigns(v, mag, speed);
    NormalizeSpeed(v, mag, speed);
  }

  /** Across the edge the heading is the speed itself; along it, the drift
      points towards the middle. */
  lemma HeadingSigns(side: int, from: Vec2, width: real, height: real, speed: real, r: SpawnRolls)
    requires ValidRolls(r) && 0.0 < width && 0.0 < height && 0.0 < speed && 0 <= side < 4
    ensures var v := Heading(side, from, width, height, speed, r);
      && (side == 0 ==> v.y == speed) && (side == 1 ==> v.y == -speed)
      && (side == 2 ==> v.x == speed) && (side == 3 ==> v.x == -speed)
      && (side <= 1 ==> Toward(v.x, from.x, width / 2.0))
      && (side >= 2 ==> Toward(v.y, from.y, height / 2.0))
  {
    DriftSign(width / 2.0 - from.x, width, speed, r.driftX + 0.5);
    DriftSign(height / 2.0 - from.y, height, speed, r.driftY + 0.5);
  }

  /** A drift has the sign of its gap. */
  lemma DriftSign(gap: real, size: real, speed: real, k: real)
    requires 0.0 < size && 0.0 < speed && 0.0 < k
    ensures gap > 0.0 ==> Drift(gap, size, speed, k) > 0.0
    ensures gap < 0.0 ==> Drift(gap, size, speed, k) < 0.0
    ensures gap == 0.0 ==> Drift(gap, size, speed, k) == 0.0
  {
    var f := speed * k / size;
    assert 0.0 < speed * k;
    assert 0.0 < f;
    assert gap / size * speed * k == gap * f;
  }

  /** Rescaling by a positive factor keeps the sign of each component. */
  lemma NormalizeKeepsSigns(v: Vec2, mag: real, speed: real)
    requires 0.0 < speed && 0.0 < mag
    ensures var n := Normalize(v, mag, speed);
      && (v.x > 0.0 ==> n.x > 0.0) && (v.x < 0.0 ==> n.x < 0.0) && (v.x == 0.0 ==> n.x == 0.0)
      && (v.y > 0.0 ==> n.y > 0.0) && (v.y < 0.0 ==> n.y < 0.0) && (v.y == 0.0 ==> n.y == 0.0)
  {
    var f := speed / mag;
    assert 0.0 < f;
    assert v.x / mag * speed == v.x * f;
    assert v.y / mag * speed == v.y * f;
  }

  /** Rescaling by the length gives the vector the speed as its length. */
  lemma NormalizeSpeed(v: Vec2, mag: real, speed: real)
    requires 0.0 < mag && IsHypot(v.x, v.y, mag)
    ensures SqNorm(Normalize(v, mag, speed)) == Sq(speed)
  {
    ScaledUnit(v.x, v.y, mag, speed);
  }

  /** The collision loop's test: the square root of the squared offset
      below the sum of the radii. */
  predicate Reaches(f: Foe, player: Vec2, playerRadius: real, sqrt: (real, real) -> real) {
    sqrt(player.x - f.position.x, player.y - f.position.y) < playerRadius + f.radius
  }

  /** With a true square root the loop's test is the shared collision test. */
  lemma ReachesIsCollides(f: Foe, player: Vec2, playerRadius: real, sqrt: (real, real) -> real)
    requires IsHypot(player.x - f.position.x, player.y - f.position.y,
                     sqrt(player.x - f.position.x, player.y - f.position.y))
    ensures Reaches(f, player, playerRadius, sqrt) <==> Collides(f, player, playerRadius)
  {
    CollidesIffCloser(f, player, playerRadius, sqrt(player.x - f.position.x, player.y - f.position.y));
  }

  /** With no collision the first hit is -1; otherwise it is the first
      enemy that reaches the player. */
  function FirstHit(fs: seq<Foe>, player: Vec2, playerRadius: real, sqrt: (real, real) -> real): (k: int)
    ensures -1 <= k < |fs|
    ensures k == -1 <==> forall j :: 0 <= j < |fs| ==> !Reaches(fs[j], player, playerRadius, sqrt)
    ensures 0 <= k ==> Reaches(fs[k], player, playerRadius, sqrt)
    ensures 0 <= k ==> forall j :: 0 <= j < k ==> !Reaches(fs[j], player, playerRadius, sqrt)
    decreases |fs|
  {
    if fs == [] then -1
    else if Reaches(fs[0], player, playerRadius, sqrt) then 0
    else
      var k := FirstHit(fs[1..], player, playerRadius, sqrt);
      assert forall j :: 1 <= j < |fs| ==> fs[j] == fs[1..][j - 1];
      if k == -1 then -1 else k + 1
  }

  /** With a true square root, the first hit is the first enemy whose circle
      overlaps the player's, and -1 exactly when none does. */
  lemma FirstHitOverlaps(fs: seq<Foe>, player: Vec2, playerRadius: real, sqrt: (real, real) -> real)
    requires HypotOracle(sqrt)
    ensures var k := FirstHit(fs, player, playerRadius, sqrt);
      && (k == -1 <==> forall j :: 0 <= j < |fs| ==> !Collides(fs[j], player, playerRadius))
      && (0 <= k ==> Collides(fs[k], player, playerRadius))
      && (0 <= k ==> forall j :: 0 <= j < k ==> !Collides(fs[j], player, playerRadius))
  {
    forall j | 0 <= j < |fs|
      ensures Reaches(fs[j], player, playerRadius, sqrt) <==> Collides(fs[j], player, playerRadius)
    {
      var f := fs[j];
      assert IsHypot(player.x - f.position.x, player.y - f.position.y,
                     sqrt(player.x - f.position.x, player.y - f.position.y));
      ReachesIsCollides(f, player, playerRadius, sqrt);
    }
  }

  /** The loop of the collision check: the index of the first enemy that
      reaches the player, or -1. */
  method FindFirstHit(fs: seq<Foe>, player: Vec2, playerRadius: real, sqrt: (real, real) -> real) returns (k: int)
    ensures k == FirstHit(fs, player, playerRadius, sqrt)
  {
    k := -1;
    var i := 0;
    while i < |fs|
      invariant 0 <= i <= |fs|
      invariant forall j :: 0 <= j < i ==> !Reaches(fs[j], player, playerRadius, sqrt)
    {
      if Reaches(fs[i], player, playerRadius, sqrt) {
        k := i;
        break;
      }
      i := i + 1;
    }
  }

  /** What one frame's collision check and shake countdown make of the
      enemies, the lives, the player's invincibility and the shake. */
  datatype Clash = Clash(enemies: seq<Foe>, lives: int, shield: Invincibility.Shield, shake: real)

  /** The collision check on the enemies `fs`: unless the player is
      invincible, the first enemy that reaches the player is removed, a life
      goes, the player turns invincible for `duration` and the screen
      shakes. */
  function Strike(fs: seq<Foe>, player: Vec2, playerRadius: real, sqrt: (real, real) -> real, lives: int,
                  shield: Invincibility.Shield, shake: real, duration: real): (c: Clash)
    ensures c.lives == lives - 1 <==> !shield.invincible && FirstHit(fs, player, playerRadius, sqrt) >= 0
    ensures c.lives != lives - 1 ==> c == Clash(fs, lives, shield, shake)
    ensures c.lives == lives - 1 ==>
      |c.enemies| == |fs| - 1 && c.shield == Invincibility.Grant(duration) && c.shake == ShakeDuration
  {
    var k := FirstHit(fs, player, playerRadius, sqrt);
    if !shield.invincible && k >= 0 then
      Clash(fs[..k] + fs[k + 1..], lives - 1, Invincibility.Grant(duration), ShakeDuration)
    else
      Clash(fs, lives, shield, shake)
  }

  /** The end of a frame: a running shake counts down by `dt`. */
  function ShakeDown(c: Clash, dt: real): Clash {
    c.(shake := if c.shake > 0.0 then c.shake - dt else c.shake)
  }

  /** The enemies still on screen, in their order. */
  function OnScreen(fs: seq<Foe>, offScreen: (Foe, real, real) -> bool, width: real, height: real)
    : (r: seq<Foe>)
    ensures |r| <= |fs|
    decreases |fs|
  {
    if fs == [] then []
    else
      var init := fs[..|fs| - 1];
      var last := fs[|fs| - 1];
      OnScreen(init, offScreen, width, height) + (if offScreen(last, width, height) then [] else [last])
  }

  /** What stays is exactly the enemies that are not off screen. */
  lemma {:induction false} OnScreenKeepsVisible(fs: seq<Foe>, offScreen: (Foe, real, real) -> bool,
                                                width: real, height: real)
    ensures var r := OnScreen(fs, offScreen, width, height);
      && (forall f | f in r :: f in fs && !offScreen(f, width, height))
      && (forall f | f in fs && !offScreen(f, width, height) :: f in r)
    decreases |fs|
  {
    if fs != [] {
      var init := fs[..|fs| - 1];
      var last := fs[|fs| - 1];
      assert fs == init + [last];
      OnScreenKeepsVisible(init, offScreen, width, height);
    }
  }

  class Game {
    const width: real
    const height: real
    const player: LegacyPlayer.Player

    var enemies: seq<Foe>
    var lives: int
    var score: real
    var bestScore: real
    var leaderboard: seq<ScoreEntry>
    var gameOver: bool
    var shakeTimer: real
    var lastSpawnTime: real
    var spawnInterval: real
    var touchPosition: Option<Vec2>
    var useJoystick: bool
    var joystickBase: Option<Vec2>
    var joystickPosition: Option<Vec2>
    var selectedLocation: nat
    var state: Phase

    /** A location of the catalogue is selected, the canvas has an area, the
        player keeps its radius and the board is ranked and at most ten
        long. */
    predicate Valid()
      reads this`selectedLocation, this`leaderboard, player`radius
    {
      && selectedLocation < |LegacyLocationConfig.LegacyLocations|
      && 0.0 < width && 0.0 < height
      && player.radius == LegacyPlayer.PlayerRadius
      && Descending(leaderboard) && |leaderboard| <= BoardSize
    }

    /** The session state a touch may leave alone. */
    function Snapshot(): Progress
      reads this, player
    {
      Progress(selectedLocation, spawnInterval, lastSpawnTime, player.position, enemies, lives, score,
               gameOver, bestScore, leaderboard)
    }

    /** Where the movement part of `update` takes a player standing at
        `from`: along the held joystick's direction, kept a radius inside the
        canvas; else onto the last touch; else nowhere. */
    function MoveTarget(from: Vec2, dt: real, sqrt: (real, real) -> real): (p: Vec2)
      reads this`useJoystick, this`joystickBase, this`joystickPosition, this`touchPosition, player`radius
      ensures useJoystick && joystickBase.Some? && joystickPosition.Some? ==>
        && player.radius <= p.x && player.radius <= p.y
        && (2.0 * player.radius <= width ==> p.x <= width - player.radius)
        && (2.0 * player.radius <= height ==> p.y <= height - player.radius)
      ensures !(useJoystick && joystickBase.Some? && joystickPosition.Some?) ==>
        p == (if touchPosition.Some? then touchPosition.value else from)
    {
      if useJoystick && joystickBase.Some? && joystickPosition.Some? then
        var base, knob := joystickBase.value, joystickPosition.value;
        Confine(Step(from, StickDirection(base, knob, sqrt(knob.x - base.x, knob.y - base.y)), dt),
                player.radius, width, height)
      else if touchPosition.Some? then touchPosition.value
      else from
    }

    /** A new game in the menu, with the scores stored for the first
        location loaded. */
    constructor(width: real, height: real, storedBest: real, stored: seq<ScoreEntry>)
      requires 0.0 < width && 0.0 < height
      ensures Valid() && fresh(player)
      ensures this.width == width && this.height == height
      ensures state == Menu && !gameOver && lives == InitialLives && score == 0.0 && enemies == []
      ensures selectedLocation == 0 && spawnInterval == 1.0 && !useJoystick
      ensures touchPosition.None? && joystickBase.None? && joystickPosition.None?
      ensures bestScore == storedBest && leaderboard == TopScores(stored)
      ensures shakeTimer == 0.0 && lastSpawnTime == 0.0
    {
      this.width := width;
      this.height := height;
      player := new LegacyPlayer.Player();
      enemies := [];
      lives := InitialLives;
      score := 0.0;
      gameOver := false;
      shakeTimer := 0.0;
      lastSpawnTime := 0.0;
      spawnInterval := 1.0;
      touchPosition := None;
      useJoystick := false;
      joystickBase := None;
      joystickPosition := None;
      selectedLocation := 0;
      state := Menu;
      bestScore := storedBest;
      leaderboard := TopScores(stored);
    }

    /** `loadScores()` on the parsed stored values: the stored best, and the
        stored board sorted and cut to ten. */
    method LoadScores(storedBest: real, stored: seq<ScoreEntry>)
      requires Valid()
      modifies this`bestScore, this`leaderboard
      ensures Valid()
      ensures bestScore == storedBest && leaderboard == TopScores(stored)
    {
      bestScore := storedBest;
      leaderboard := TopScores(stored);
    }

    /** `saveScores()` at time `now`: the best is the larger of the old best
        and the score, and the score joins the board, which is sorted and cut
        to ten again. */
    method SaveScores(now: real)
      requires Valid()
      modifies this`bestScore, this`leaderboard
      ensures Valid()
      ensures bestScore == Max(old(bestScore), score)
      ensures leaderboard == TopScores(old(leaderboard) + [ScoreEntry(score, now)])
    {
      bestScore := Max(bestScore, score);
      var entries := leaderboard + [ScoreEntry(score, now)];
      leaderboard := TopScores(entries);
    }

    /** `startGame(i)` at time `now`: a fresh session at location `i`, with
        the player in the middle and that location's scores loaded. */
    method StartGame(i: nat, now: real, storedBest: real, stored: seq<ScoreEntry>)
      requires Valid() && i < |LegacyLocationConfig.LegacyLocations|
      modifies this`selectedLocation, this`spawnInterval, player`position, this`enemies, this`lives
      modifies this`score, this`gameOver, this`state, this`lastSpawnTime, this`bestScore, this`leaderboard
      ensures Valid()
      ensures selectedLocation == i
      ensures spawnInterval * LegacyLocationConfig.LegacyLocations[i].spawnRate == 1.0
      ensures player.position == Vec2(width / 2.0, height / 2.0)
      ensures enemies == [] && lives == InitialLives && score == 0.0 && !gameOver && state == Playing
      ensures lastSpawnTime == now
      ensures bestScore == storedBest && leaderboard == TopScores(stored)
    {
      LoadScores(storedBest, stored);
      selectedLocation := i;
      spawnInterval := LegacyLocationConfig.SpawnInterval(i);
      player.position := Vec2(width / 2.0, height / 2.0);
      enemies, lives, score, gameOver, state, lastSpawnTime := [], InitialLives, 0.0, false, Playing, now;
    }

    /** The movement part of `update`: with the joystick held the player
        steps along its direction and is kept a radius inside the canvas;
        otherwise the player jumps to the last touch, if any. */
    method Move(dt: real, sqrt: (real, real) -> real) returns (dir: Vec2)
      modifies player`position
      ensures var held := useJoystick && joystickBase.Some? && joystickPosition.Some?;
        && (held ==>
          var base, knob := joystickBase.value, joystickPosition.value;
          && dir == StickDirection(base, knob, sqrt(knob.x - base.x, knob.y - base.y))
          && player.position == Confine(Step(old(player.position), dir, dt), player.radius, width, height))
        && (!held && touchPosition.Some? ==> player.position == touchPosition.value)
        && (!held && touchPosition.None? ==> player.position == old(player.position))
      ensures player.position == old(MoveTarget(player.position, dt, sqrt))
      ensures HypotOracle(sqrt) ==> SqNorm(dir) <= 1.0
    {
      dir := Origin;
      if useJoystick && joystickBase.Some? && joystickPosition.Some? {
        var base, knob := joystickBase.value, joystickPosition.value;
        var dist := sqrt(knob.x - base.x, knob.y - base.y);
        dir := StickDirection(base, knob, dist);
        if IsHypot(knob.x - base.x, knob.y - base.y, dist) {
          StickDirectionIsJoystickDirection(base, knob, dist);
        }
        player.position := Confine(Step(player.position, dir, dt), player.radius, width, height);
      } else if touchPosition.Some? {
        player.position := touchPosition.value;
      }
    }

    /** `spawnEnemy()`: a new enemy 20 (the player's radius) outside an edge
        at the selected location's speed joins the end of the list. The
        enemy class sets its own collision radius, `enemyRadius` here. */
    method SpawnEnemy(r: SpawnRolls, enemyRadius: real, sqrt: (real, real) -> real)
      requires Valid() && ValidRolls(r)
      modifies this`enemies
      ensures enemies == old(enemies) + [Spawn(r, width, height, player.radius,
        LegacyLocationConfig.EnemySpeed(selectedLocation), enemyRadius, sqrt)]
    {
      var speed := LegacyLocationConfig.EnemySpeed(selectedLocation);
      enemies := enemies + [Spawn(r, width, height, player.radius, speed, enemyRadius, sqrt)];
    }

    /** The enemy part of `update`: each enemy takes its step, then the ones
        off screen are dropped. */
    method MoveEnemies(dt: real, step: (Foe, real) -> Foe, offScreen: (Foe, real, real) -> bool)
      modifies this`enemies
      ensures enemies == OnScreen(StepAll(old(enemies), step, dt), offScreen, width, height)
    {
      for i := 0 to |enemies|
        invariant |enemies| == |old(enemies)|
        invariant forall k :: 0 <= k < i ==> enemies[k] == step(old(enemies)[k], dt)
        invariant forall k :: i <= k < |enemies| ==> enemies[k] == old(enemies)[k]
      {
        enemies := enemies[i := step(enemies[i], dt)];
      }
      assert enemies == StepAll(old(enemies), step, dt);
      enemies := OnScreen(enemies, offScreen, width, height);
    }

    /** A hit on enemy `k` at time `now`: a life goes, the player turns
        invincible, the screen shakes and the enemy is removed; the last
        life ends the session and saves the score. */
    method Hit(k: nat, now: real)
      requires Valid() && k < |enemies|
      modifies this`lives, player`invincible, player`invincibleTimer, this`shakeTimer, this`enemies
      modifies this`gameOver, this`state, this`bestScore, this`leaderboard
      ensures Valid()
      ensures lives == old(lives) - 1 && shakeTimer == ShakeDuration
      ensures enemies == old(enemies)[..k] + old(enemies)[k + 1..]
      ensures player.ShieldState() == Invincibility.Grant(old(player.invincibleDuration))
      ensures player.position == old(player.position) && player.invincibleDuration == old(player.invincibleDuration)
      ensures lives <= 0 ==>
        && gameOver && state == GameOver
        && bestScore == Max(old(bestScore), score)
        && leaderboard == TopScores(old(leaderboard) + [ScoreEntry(score, now)])
      ensures lives > 0 ==>
        && gameOver == old(gameOver) && state == old(state)
        && bestScore == old(bestScore) && leaderboard == old(leaderboard)
    {
      lives := lives - 1;
      player.MakeInvincible();
      shakeTimer := ShakeDuration;
      enemies := SpliceOne(enemies, k);
      if lives <= 0 {
        gameOver := true;
        state := GameOver;
        SaveScores(now);
      }
    }

    /** The collision part of `update` at time `now`: unless the player is
        invincible, the first enemy that reaches the player is hit, and only
        that one. */
    method CheckCollisions(now: real, sqrt: (real, real) -> real)
      requires Valid()
      modifies this`lives, player`invincible, player`invincibleTimer, this`shakeTimer, this`enemies
      modifies this`gameOver, this`state, this`bestScore, this`leaderboard
      ensures Valid()
      ensures player.position == old(player.position) && player.invincibleDuration == old(player.invincibleDuration)
      ensures Clash(enemies, lives, player.ShieldState(), shakeTimer) ==
        old(Strike(enemies, player.position, player.radius, sqrt, lives, player.ShieldState(), shakeTimer,
                   player.invincibleDuration))
      ensures if lives < old(lives) && lives <= 0 then
          && gameOver && state == GameOver
          && bestScore == Max(old(bestScore), score)
          && leaderboard == TopScores(old(leaderboard) + [ScoreEntry(score, now)])
        else
          && gameOver == old(gameOver) && state == old(state)
          && bestScore == old(bestScore) && leaderboard == old(leaderboard)
    {
      var k := -1;
      if !player.invincible {
        k := FindFirstHit(enemies, player.position, player.radius, sqrt);
      }
      if k >= 0 {
        Hit(k, now);
      }
    }

    /** `update(dt)` at time `now`. Outside a session nothing happens. In a
        session the score grows by 10 a second, the player's invincibility
        runs down and the player moves; an enemy spawns once more than the
        spawn interval has passed; the enemies move; at most one life is
        lost; and the shake runs down. */
    method Update(dt: real, now: real, r: SpawnRolls, enemyRadius: real, sqrt: (real, real) -> real,
                  step: (Foe, real) -> Foe, offScreen: (Foe, real, real) -> bool)
      requires Valid() && ValidRolls(r)
      modifies this`score, player`position, player`invincible, player`invincibleTimer, this`lastSpawnTime, this`enemies, this`lives, this`shakeTimer
      modifies this`gameOver, this`state, this`bestScore, this`leaderboard
      ensures Valid()
      ensures old(state) != Playing ==> unchanged(this) && unchanged(player)
      ensures old(state) == Playing ==>
        && score == old(score) + dt * ScoreRate
        && lastSpawnTime == (if old(now - lastSpawnTime > spawnInterval) then now else old(lastSpawnTime))
        && player.position == old(MoveTarget(player.position, dt, sqrt))
        && player.invincibleDuration == old(player.invincibleDuration)
      ensures old(state) == Playing ==>
        var arrived := old(enemies + if now - lastSpawnTime > spawnInterval then [Spawn(r, width, height,
          player.radius, LegacyLocationConfig.EnemySpeed(selectedLocation), enemyRadius, sqrt)] else []);
        Clash(enemies, lives, player.ShieldState(), shakeTimer) ==
          ShakeDown(Strike(OnScreen(StepAll(arrived, step, dt), offScreen, width, height), player.position,
                  player.radius, sqrt, old(lives), Invincibility.Tick(old(player.ShieldState()), dt), old(shakeTimer),
                  player.invincibleDuration), dt)
      ensures old(state) == Playing ==> (state == GameOver <==> lives < old(lives) && lives <= 0)
      ensures old(state) == Playing ==>
        if state == GameOver then
          && gameOver && state == GameOver
          && bestScore == Max(old(bestScore), score)
          && leaderboard == TopScores(old(leaderboard) + [ScoreEntry(score, now)])
        else
          && gameOver == old(gameOver) && state == Playing
          && bestScore == old(bestScore) && leaderboard == old(leaderboard)
    {
      if state == Playing {
        Play(dt, now, r, enemyRadius, sqrt, step, offScreen);
      }
    }

    /** The in-session branch of `update`: `Advance`, then `Combat`. */
    method Play(dt: real, now: real, r: SpawnRolls, enemyRadius: real, sqrt: (real, real) -> real,
                step: (Foe, real) -> Foe, offScreen: (Foe, real, real) -> bool)
      requires Valid() && ValidRolls(r) && state == Playing
      modifies this`score, player`position, player`invincible, player`invincibleTimer, this`lastSpawnTime, this`enemies, this`lives, this`shakeTimer
      modifies this`gameOver, this`state, this`bestScore, this`leaderboard
      ensures Valid()
      ensures
        && score == old(score) + dt * ScoreRate
        && lastSpawnTime == (if old(now - lastSpawnTime > spawnInterval) then now else old(lastSpawnTime))
        && player.position == old(MoveTarget(player.position, dt, sqrt))
        && player.invincibleDuration == old(player.invincibleDuration)
      ensures
        var arrived := old(enemies + if now - lastSpawnTime > spawnInterval then [Spawn(r, width, height,
          player.radius, LegacyLocationConfig.EnemySpeed(selectedLocation), enemyRadius, sqrt)] else []);
        Clash(enemies, lives, player.ShieldState(), shakeTimer) ==
          ShakeDown(Strike(OnScreen(StepAll(arrived, step, dt), offScreen, width, height), player.position,
                  player.radius, sqrt, old(lives), Invincibility.Tick(old(player.ShieldState()), dt), old(shakeTimer),
                  player.invincibleDuration), dt)
      ensures (state == GameOver <==> lives < old(lives) && lives <= 0)
      ensures
        if state == GameOver then
          && gameOver && state == GameOver
          && bestScore == Max(old(bestScore), score)
          && leaderboard == TopScores(old(leaderboard) + [ScoreEntry(score, now)])
        else
          && gameOver == old(gameOver) && state == Playing
          && bestScore == old(bestScore) && leaderboard == old(leaderboard)
    {
      ghost var arrived := enemies + (if now - lastSpawnTime > spawnInterval then [Spawn(r, width, height,
        player.radius, LegacyLocationConfig.EnemySpeed(selectedLocation), enemyRadius, sqrt)] else []);
      ghost var shield := Invincibility.Tick(player.ShieldState(), dt);
      Advance(dt, now, r, enemyRadius, sqrt);
      assert enemies == arrived && player.ShieldState() == shield;
      assert lives == old(lives) && gameOver == old(gameOver) && shakeTimer == old(shakeTimer);
      assert bestScore == old(bestScore) && leaderboard == old(leaderboard);
      ghost var (sc, ls, pos) := (score, lastSpawnTime, player.position);
      Combat(dt, now, step, offScreen, sqrt);
      assert score == sc && lastSpawnTime == ls && player.position == pos;
    }

    /** The first part of a session's `update`: the score, the player's
        invincibility and position, and the spawning. */
    method Advance(dt: real, now: real, r: SpawnRolls, enemyRadius: real, sqrt: (real, real) -> real)
      requires Valid() && ValidRolls(r)
      modifies this`score, player`position, player`invincible, player`invincibleTimer, this`lastSpawnTime, this`enemies
      ensures Valid()
      ensures score == old(score) + dt * ScoreRate
      ensures lastSpawnTime == if old(now - lastSpawnTime > spawnInterval) then now else old(lastSpawnTime)
      ensures enemies == old(enemies + if now - lastSpawnTime > spawnInterval then [Spawn(r, width, height,
        player.radius, LegacyLocationConfig.EnemySpeed(selectedLocation), enemyRadius, sqrt)] else [])
      ensures player.ShieldState() == Invincibility.Tick(old(player.ShieldState()), dt)
      ensures player.position == old(MoveTarget(player.position, dt, sqrt))
      ensures player.invincibleDuration == old(player.invincibleDuration)
    {
      score := score + dt * ScoreRate;
      player.Update(dt);
      var _ := Move(dt, sqrt);
      if now - lastSpawnTime > spawnInterval {
        SpawnEnemy(r, enemyRadius, sqrt);
        lastSpawnTime := now;
      }
    }

    /** The second part of a session's `update`: the enemies move, at most
        one life is lost, and the shake runs down. */
    method Combat(dt: real, now: real, step: (Foe, real) -> Foe, offScreen: (Foe, real, real) -> bool,
                  sqrt: (real, real) -> real)
      requires Valid() && state == Playing
      modifies this`enemies, this`lives, this`shakeTimer, player`invincible, player`invincibleTimer
      modifies this`gameOver, this`state, this`bestScore, this`leaderboard
      ensures Valid()
      ensures player.position == old(player.position) && player.invincibleDuration == old(player.invincibleDuration)
      ensures Clash(enemies, lives, player.ShieldState(), shakeTimer) ==
        ShakeDown(old(Strike(OnScreen(StepAll(enemies, step, dt), offScreen, width, height), player.position,
                player.radius, sqrt, lives, player.ShieldState(), shakeTimer, player.invincibleDuration)), dt)
      ensures state == GameOver <==> lives < old(lives) && lives <= 0
      ensures if state == GameOver then
          && gameOver && state == GameOver
          && bestScore == Max(old(bestScore), score)
          && leaderboard == TopScores(old(leaderboard) + [ScoreEntry(score, now)])
        else
          && gameOver == old(gameOver) && state == Playing
          && bestScore == old(bestScore) && leaderboard == old(leaderboard)
    {
      Collide(dt, now, step, offScreen, sqrt);
      if shakeTimer > 0.0 {
        shakeTimer := shakeTimer - dt;
      }
    }

    /** The enemies move, then the collision check runs on the list they
        leave. */
    method Collide(dt: real, now: real, step: (Foe, real) -> Foe, offScreen: (Foe, real, real) -> bool,
                   sqrt: (real, real) -> real)
      requires Valid() && state == Playing
      modifies this`enemies, this`lives, this`shakeTimer, player`invincible, player`invincibleTimer
      modifies this`gameOver, this`state, this`bestScore, this`leaderboard
      ensures Valid()
      ensures player.position == old(player.position) && player.invincibleDuration == old(player.invincibleDuration)
      ensures Clash(enemies, lives, player.ShieldState(), shakeTimer) ==
        old(Strike(OnScreen(StepAll(enemies, step, dt), offScreen, width, height), player.position,
                   player.radius, sqrt, lives, player.ShieldState(), shakeTimer, player.invincibleDuration))
      ensures state == GameOver <==> lives < old(lives) && lives <= 0
      ensures if state == GameOver then
          && gameOver && state == GameOver
          && bestScore == Max(old(bestScore), score)
          && leaderboard == TopScores(old(leaderboard) + [ScoreEntry(score, now)])
        else
          && gameOver == old(gameOver) && state == Playing
          && bestScore == old(bestScore) && leaderboard == old(leaderboard)
    {
      MoveEnemies(dt, step, offScreen);
      CheckCollisions(now, sqrt);
    }

    /** `handleTouchStart` for a touch at `touch` (none when the event has no
        coordinates), at time `now`. In the menu a touch on a location row
        starts a session there and a touch on the toggle line flips the
        joystick mode; after a game a touch on the restart line returns to
        the menu; in a session the touch holds the joystick or sets the
        touch target. */
    method HandleTouchStart(touch: Option<Vec2>, now: real, storedBest: real, stored: seq<ScoreEntry>)
      requires Valid()
      modifies this`selectedLocation, this`spawnInterval, player`position, this`enemies, this`lives
      modifies this`score, this`gameOver, this`state, this`lastSpawnTime, this`bestScore, this`leaderboard
      modifies this`useJoystick, this`joystickBase, this`joystickPosition, this`touchPosition
      ensures Valid()
      ensures touch.None? ==> unchanged(this) && unchanged(player)
      ensures touch.Some? && old(state) == Menu ==>
        var row := MenuRow(touch.value.y, height);
        && (row.Some? ==>
             && state == Playing && selectedLocation == row.value
             && spawnInterval * LegacyLocationConfig.LegacyLocations[row.value].spawnRate == 1.0
             && player.position == Vec2(width / 2.0, height / 2.0)
             && enemies == [] && lives == InitialLives && score == 0.0 && !gameOver && lastSpawnTime == now
             && bestScore == storedBest && leaderboard == TopScores(stored))
        && (row.None? ==> state == Menu && Snapshot() == old(Snapshot()))
        && (useJoystick != old(useJoystick) <==> OnToggle(touch.value.y, height))
        && joystickBase == old(joystickBase) && joystickPosition == old(joystickPosition)
        && touchPosition == old(touchPosition)
      ensures touch.Some? && old(state) == GameOver ==>
        && (state == Menu <==> OnRestart(touch.value.y, height, |old(leaderboard)|))
        && (state != Menu ==> state == GameOver)
        && Snapshot() == old(Snapshot())
        && useJoystick == old(useJoystick) && touchPosition == old(touchPosition)
        && joystickBase == old(joystickBase) && joystickPosition == old(joystickPosition)
      ensures touch.Some? && old(state) == Playing ==>
        && state == Playing && useJoystick == old(useJoystick) && Snapshot() == old(Snapshot())
        && (useJoystick ==> joystickBase == touch && joystickPosition == touch && touchPosition == old(touchPosition))
        && (!useJoystick ==>
             && touchPosition == touch
             && joystickBase == old(joystickBase) && joystickPosition == old(joystickPosition))
    {
      if touch.None? {
        return;
      }
      var t := touch.value;
      if state == Menu {
        var row := MenuRow(t.y, height);
        if row.Some? {
          StartGame(row.value, now, storedBest, stored);
        }
        if OnToggle(t.y, height) {
          useJoystick := !useJoystick;
        }
      } else if state == GameOver {
        if OnRestart(t.y, height, |leaderboard|) {
          state := Menu;
        }
      } else {
        if useJoystick {
          joystickBase := Some(t);
          joystickPosition := Some(t);
        } else {
          touchPosition := Some(t);
        }
      }
    }

    /** `handleTouchMove` for a touch at `touch`: in a session with the
        joystick held the knob follows the touch within 50 of the base;
        otherwise, in a session, the touch target follows the touch. */
    method HandleTouchMove(touch: Option<Vec2>, sqrt: (real, real) -> real)
      modifies this`joystickPosition, this`touchPosition
      ensures touch.None? || state != Playing ==>
        joystickPosition == old(joystickPosition) && touchPosition == old(touchPosition)
      ensures touch.Some? && state == Playing && useJoystick && joystickBase.Some? ==>
        var base, t := joystickBase.value, touch.value;
        && joystickPosition == Some(TouchKnob(base, t, sqrt(t.x - base.x, t.y - base.y)))
        && touchPosition == old(touchPosition)
        && (HypotOracle(sqrt) ==> SqDist(joystickPosition.value, base) <= Sq(JoystickRadius))
      ensures touch.Some? && state == Playing && !(useJoystick && joystickBase.Some?) ==>
        touchPosition == touch && joystickPosition == old(joystickPosition)
    {
      if touch.None? || state != Playing {
        return;
      }
      var t := touch.value;
      if useJoystick && joystickBase.Some? {
        var base := joystickBase.value;
        var dist := sqrt(t.x - base.x, t.y - base.y);
        joystickPosition := Some(TouchKnob(base, t, dist));
        if IsHypot(t.x - base.x, t.y - base.y, dist) {
          TouchKnobIsKnob(base, t, dist);
        }
      } else {
        touchPosition := Some(t);
      }
    }

    /** `handleTouchEnd`: the joystick, or the touch target, is released. */
    method HandleTouchEnd()
      modifies this`joystickBase, this`joystickPosition, this`touchPosition
      ensures useJoystick ==> joystickBase.None? && joystickPosition.None? && touchPosition == old(touchPosition)
      ensures !useJoystick ==>
        touchPosition.None? && joystickBase == old(joystickBase) && joystickPosition == old(joystickPosition)
    {
      if useJoystick {
        joystickBase := None;
        joystickPosition := None;
      } else {
        touchPosition := None;
      }
    }
  }
}

=== FILE: legacy_game_screen.dfy ===
/** The canvas game screen: the 2D session of the screen-based browser game.
    Enemies appear just outside an edge heading for the player, items fall
    from the top, a caught item scores, an enemy that reaches the player costs
    a life and disappears, and the session ends as soon as the lives are gone.

    The clock and the random numbers are parameters, and `Math.hypot` is
    passed in as a function. The screen builds its enemies with the 3D enemy
    class (`Enemies.Enemy`), passing a position and a velocity where that
    class's constructor takes a scene and two end points. An enemy here is
    therefore the value the screen reads (position, velocity, collision
    radius), and its per-frame `update` is a parameter. */
module LegacyGameScreen {
  import opened Geometry
  import opened JsArrays
  import LocationConfig
  import FallingItems
  import Joysticks
  import EntityPlayer
  import opened Foes

  const InitialLives: int := 3
  const PlayerSpeed: real := 300.0
  const ItemSpawnInterval: real := 2.0
  /** How far outside the canvas edge an enemy appears. */
  const SpawnOffset: real := 20.0
  /** How far in from the left and right edges an item may start. */
  const ItemMargin: real := 10.0

  /** Before the first `setConfig`. */
  const DefaultSpawnInterval: real := 0.4
  const DefaultEnemySpeed: real := 200.0
  const DefaultScorePoint: real := 10.0

  /** The random numbers `spawnEnemy` draws: the edge, then where on it. */
  datatype SpawnRolls = SpawnRolls(side: real, along: real)

  // ----- Items -----

  /** `dist < item.radius + player.radius`, decided on squared lengths. */
  predicate Caught(item: Vec2, itemRadius: real, player: Vec2, playerRadius: real) {
    Overlaps(item, player, itemRadius + playerRadius)
  }

  /** The catch filter's verdict: an item stays while it is neither caught
      nor fallen a full radius past the bottom edge. */
  predicate Keeps(item: Vec2, itemRadius: real, player: Vec2, playerRadius: real, height: real) {
    !Caught(item, itemRadius, player, playerRadius) && item.y < height + itemRadius
  }

  /** The items the catch filter keeps, in their order. */
  function KeptItems(items: seq<FallingItems.FallingItem>, player: Vec2, playerRadius: real, height: real)
    : (r: seq<FallingItems.FallingItem>)
    reads items
    ensures |r| <= |items|
    ensures forall it | it in r :: it in items && Keeps(it.position, it.radius, player, playerRadius, height)
  {
    if items == [] then []
    else
      var last := items[|items| - 1];
      KeptItems(items[..|items| - 1], player, playerRadius, height)
      + (if Keeps(last.position, last.radius, player, playerRadius, height) then [last] else [])
  }

  /** The number of items the player catches. */
  function CatchCount(items: seq<FallingItems.FallingItem>, player: Vec2, playerRadius: real): nat
    reads items
  {
    if items == [] then 0
    else
      var last := items[|items| - 1];
      CatchCount(items[..|items| - 1], player, playerRadius)
      + (if Caught(last.position, last.radius, player, playerRadius) then 1 else 0)
  }

  /** What the catches are worth: `point` for each item the player
      catches, added one catch at a time in list order. */
  function CatchScore(items: seq<FallingItems.FallingItem>, player: Vec2, playerRadius: real, point: real): real
    reads items
  {
    if items == [] then 0.0
    else
      var last := items[|items| - 1];
      CatchScore(items[..|items| - 1], player, playerRadius, point)
      + (if Caught(last.position, last.radius, player, playerRadius) then point else 0.0)
  }

  /** The catches are worth `point` times their number. */
  lemma {:induction false} CatchScoreCounts(items: seq<FallingItems.FallingItem>, player: Vec2,
                                            playerRadius: real, point: real)
    ensures CatchScore(items, player, playerRadius, point) == point * CatchCount(items, player, playerRadius) as real
    decreases |items|
  {
    if items != [] {
      var init := items[..|items| - 1];
      CatchScoreCounts(init, player, playerRadius, point);
      OneMore(point, CatchCount(init, player, playerRadius));
    }
  }

  lemma OneMore(point: real, n: nat)
    ensures point * (n + 1) as real == point * n as real + point
  {
  }

  /** A point that is not negative never makes the catches cost score. */
  lemma {:induction false} CatchScoreNonneg(items: seq<FallingItems.FallingItem>, player: Vec2,
                                            playerRadius: real, point: real)
    requires 0.0 <= point
    ensures 0.0 <= CatchScore(items, player, playerRadius, point)
    decreases |items|
  {
    if items != [] {
      CatchScoreNonneg(items[..|items| - 1], player, playerRadius, point);
    }
  }

  /** Every item that is neither caught nor gone stays; each caught item is
      counted once and removed, so the caught and the kept together are at
      most all the items. */
  lemma {:induction false} CatchAccount(items: seq<FallingItems.FallingItem>, player: Vec2,
                                        playerRadius: real, height: real)
    ensures forall it | it in items && Keeps(it.position, it.radius, player, playerRadius, height) ::
      it in KeptItems(items, player, playerRadius, height)
    ensures CatchCount(items, player, playerRadius) + |KeptItems(items, player, playerRadius, height)| <= |items|
    decreases |items|
  {
    if items != [] {
      var init := items[..|items| - 1];
      CatchAccount(init, player, playerRadius, height);
      assert items == init + [items[|items| - 1]];
    }
  }

  /** Filtering keeps a list free of repeats. */
  lemma {:induction false} KeptItemsDistinct(items: seq<FallingItems.FallingItem>, player: Vec2,
                                             playerRadius: real, height: real)
    requires Distinct(items)
    ensures Distinct(KeptItems(items, player, playerRadius, height))
    decreases |items|
  {
    if items != [] {
      var init := items[..|items| - 1];
      var last := items[|items| - 1];
      assert Distinct(init);
      KeptItemsDistinct(init, player, playerRadius, height);
      assert last !in init;
    }
  }

  /** The loop of the catch filter, starting from the score `score`: the
      items it keeps, and the score after `point` is added for each catch,
      one by one in list order. */
  method FilterItems(items: seq<FallingItems.FallingItem>, player: Vec2, playerRadius: real, height: real,
                     point: real, score: real)
    returns (kept: seq<FallingItems.FallingItem>, newScore: real)
    ensures kept == KeptItems(items, player, playerRadius, height)
    ensures newScore == score + CatchScore(items, player, playerRadius, point)
  {
    kept, newScore := [], score;
    for i := 0 to |items|
      invariant kept == KeptItems(items[..i], player, playerRadius, height)
      invariant newScore == score + CatchScore(items[..i], player, playerRadius, point)
    {
      assert items[..i + 1][..i] == items[..i];
      var it := items[i];
      var caught := Caught(it.position, it.radius, player, playerRadius);
      if caught {
        newScore := newScore + point;
      }
      if !caught && it.position.y < height + it.radius {
        kept := kept + [it];
      }
    }
    assert items[..|items|] == items;
  }

  // ----- Enemies -----

  /** The enemies the collision filter keeps, in their order. */
  function Survivors(fs: seq<Foe>, player: Vec2, playerRadius: real): (r: seq<Foe>)
    ensures |r| <= |fs|
    ensures forall f | f in r :: f in fs && !Collides(f, player, playerRadius)
  {
    if fs == [] then []
    else
      var last := fs[|fs| - 1];
      Survivors(fs[..|fs| - 1], player, playerRadius)
      + (if Collides(last, player, playerRadius) then [] else [last])
  }

  /** The number of enemies that reach the player. */
  function Collisions(fs: seq<Foe>, player: Vec2, playerRadius: real): nat {
    if fs == [] then 0
    else
      Collisions(fs[..|fs| - 1], player, playerRadius)
      + (if Collides(fs[|fs| - 1], player, playerRadius) then 1 else 0)
  }

  /** Each enemy either costs one life and is removed or is kept; every
      enemy that does not reach the player is kept. */
  lemma {:induction false} CollisionAccount(fs: seq<Foe>, player: Vec2, playerRadius: real)
    ensures |Survivors(fs, player, playerRadius)| + Collisions(fs, player, playerRadius) == |fs|
    ensures forall f | f in fs && !Collides(f, player, playerRadius) :: f in Survivors(fs, player, playerRadius)
    decreases |fs|
  {
    if fs != [] {
      var init := fs[..|fs| - 1];
      CollisionAccount(init, player, playerRadius);
      assert fs == init + [fs[|fs| - 1]];
    }
  }

  /** With no enemy on the player, the filter keeps the list as it is. */
  lemma {:induction false} NoCollisionKeepsAll(fs: seq<Foe>, player: Vec2, playerRadius: real)
    requires forall k :: 0 <= k < |fs| ==> !Collides(fs[k], player, playerRadius)
    ensures Survivors(fs, player, playerRadius) == fs
    ensures Collisions(fs, player, playerRadius) == 0
    decreases |fs|
  {
    if fs != [] {
      var init := fs[..|fs| - 1];
      NoCollisionKeepsAll(init, player, playerRadius);
      assert fs == init + [fs[|fs| - 1]];
    }
  }

  // ----- Spawning -----

  /** The velocity `spawnEnemy` gives: `speed` towards the player, where
      `len` is the length of the way there; `|| 1` stands in for a zero
      length, which leaves the enemy standing. */
  function Aim(from: Vec2, to: Vec2, len: real, speed: real): Vec2 {
    Heading(to.x - from.x, to.y - from.y, len, speed)
  }

  /** `Aim` is parallel to the way to the target; given the length of the
      way, it is zero on the target and otherwise `speed` long, and its
      component along the way is `speed` times the length, so it points at
      the target. */
  lemma AimHeadsFor(from: Vec2, to: Vec2, len: real, speed: real)
    ensures var v := Aim(from, to, len, speed);
      && v.x * (to.y - from.y) == v.y * (to.x - from.x)
      && (IsHypot(to.x - from.x, to.y - from.y, len) ==>
           && (len == 0.0 ==> v == Origin)
           && (len != 0.0 ==> SqNorm(v) == Sq(speed))
           && v.x * (to.x - from.x) + v.y * (to.y - from.y) == speed * len)
  {
    var dx, dy := to.x - from.x, to.y - from.y;
    assert Aim(from, to, len, speed) == Heading(dx, dy, len, speed);
    AimFacts(dx, dy, len, speed);
  }

  /** `(d / (len || 1)) * speed` on both axes. */
  function Heading(dx: real, dy: real, len: real, speed: real): Vec2 {
    var l := if len == 0.0 then 1.0 else len;
    Vec2(dx / l * speed, dy / l * speed)
  }

  /** The facts of `AimHeadsFor`, about the heading itself. */
  lemma AimFacts(dx: real, dy: real, len: real, speed: real)
    ensures Heading(dx, dy, len, speed).x * dy == Heading(dx, dy, len, speed).y * dx
    ensures IsHypot(dx, dy, len) ==>
      && (len == 0.0 ==> Heading(dx, dy, len, speed) == Origin)
      && (len != 0.0 ==> SqNorm(Heading(dx, dy, len, speed)) == Sq(speed))
      && Heading(dx, dy, len, speed).x * dx + Heading(dx, dy, len, speed).y * dy == speed * len
  {
    HeadingParallel(dx, dy, len, speed);
    if len == 0.0 {
      HeadingStill(dx, dy, len, speed);
    } else {
      HeadingNorm(dx, dy, len, speed);
      HeadingAlong(dx, dy, len, speed);
    }
  }

  lemma HeadingNorm(dx: real, dy: real, len: real, speed: real)
    requires len != 0.0
    ensures IsHypot(dx, dy, len) ==> SqNorm(Heading(dx, dy, len, speed)) == Sq(speed)
  {
    ScaledUnit(dx, dy, len, speed);
  }

  lemma HeadingAlong(dx: real, dy: real, len: real, speed: real)
    requires len != 0.0
    ensures IsHypot(dx, dy, len) ==>
      Heading(dx, dy, len, speed).x * dx + Heading(dx, dy, len, speed).y * dy == speed * len
  {
    AimAlong(dx, dy, len, speed);
  }

  lemma HeadingParallel(dx: real, dy: real, len: real, speed: real)
    ensures Heading(dx, dy, len, speed).x * dy == Heading(dx, dy, len, speed).y * dx
  {
    Joysticks.ScaledParallel(dx, dy, if len == 0.0 then 1.0 else len, speed);
  }

  lemma HeadingStill(dx: real, dy: real, len: real, speed: real)
    requires len == 0.0
    ensures IsHypot(dx, dy, len) ==>
      && Heading(dx, dy, len, speed) == Origin
      && Heading(dx, dy, len, speed).x * dx + Heading(dx, dy, len, speed).y * dy == speed * len
  {
    StandingWhenOnTarget(dx, dy, len, 1.0, speed);
  }

  /** The velocity points at the target: its component along the way there
      is `speed` times the length of the way. */
  lemma AimAlong(dx: real, dy: real, len: real, speed: real)
    requires len != 0.0
    ensures IsHypot(dx, dy, len) ==> (dx / len * speed) * dx + (dy / len * speed) * dy == speed * len
  {
    if IsHypot(dx, dy, len) {
      var a, b := dx / len, dy / len;
      assert a * len == dx && b * len == dy;
      var lhs := (a * speed) * dx + (b * speed) * dy;
      assert lhs * len == speed * ((a * len) * dx + (b * len) * dy);
      assert dx * dx + dy * dy == len * len;
      assert lhs * len == (speed * len) * len;
      CancelFactor(lhs, speed * len, len);
    }
  }

  /** An enemy spawned on the player's centre gets no velocity. */
  lemma StandingWhenOnTarget(dx: real, dy: real, len: real, l: real, speed: real)
    requires l != 0.0
    ensures IsHypot(dx, dy, len) && len == 0.0 ==> Vec2(dx / l * speed, dy / l * speed) == Origin
  {
    if IsHypot(dx, dy, len) && len == 0.0 {
      HypotZeroIff(dx, dy, len);
      ZeroScaled(dx, dy, l, speed);
    }
  }

  lemma ZeroScaled(dx: real, dy: real, l: real, k: real)
    requires dx == 0.0 && dy == 0.0 && l != 0.0
    ensures Vec2(dx / l * k, dy / l * k) == Origin
  {
  }

  // ----- Joystick movement -----

  /** The player moved by the stick direction `dir` for `dt` seconds. */
  function Nudge(p: Vec2, dir: Vec2, dt: real): Vec2 {
    Vec2(p.x + dir.x * (PlayerSpeed * dt), p.y + dir.y * (PlayerSpeed * dt))
  }

  /** Inside the play area, a joystick frame moves the player at most
      `300 * dt`. */
  lemma NudgeWithinStep(p: Vec2, dir: Vec2, dt: real)
    requires SqNorm(dir) <= 1.0
    ensures SqDist(Nudge(p, dir, dt), p) <= Sq(PlayerSpeed * dt)
  {
    StepDistance(p, dir, PlayerSpeed * dt);
  }

  /** The item list after the spawn step, `arrivals`, from the list
      `items` before it: the same items, then, when an item was due, one
      more that started at `dropped`; its position is read after the fall
      of `dt`. */
  ghost predicate Arrived(items: seq<FallingItems.FallingItem>, arrivals: seq<FallingItems.FallingItem>, due: bool,
                          dropped: Vec2, dt: real)
    reads arrivals
  {
    && |arrivals| == |items| + (if due then 1 else 0)
    && arrivals[..|items|] == items
    && (due ==> arrivals[|items|].position == FallingItems.Fall(dropped, dt))
  }

  class GameScreen {
    /** The canvas. */
    const width: real
    const height: real
    /** The collision radius the enemy class gives its enemies. */
    const enemyRadius: real
    const player: EntityPlayer.Player

    var enemies: seq<Foe>
    var score: real
    var running: bool
    var lives: int
    var lastSpawnTime: real
    var spawnInterval: real
    var enemySpeed: real
    var locationIndex: nat
    var useJoystick: bool
    var joystick: Joysticks.Joystick?
    var scorePoint: real
    var fallingItems: seq<FallingItems.FallingItem>
    var lastItemSpawn: real
    /** The pointer-move listener is attached. */
    var followsPointer: bool
    /** The screen manager has been asked for the results screen. */
    var resultsShown: bool

    /** The player keeps its radius, an item is never listed twice, every
        item is a standard one, and an item is never worth less than 0. */
    predicate Valid()
      reads this`fallingItems, this`scorePoint, player`radius
    {
      && player.radius == EntityPlayer.PlayerRadius
      && Distinct(fallingItems)
      && (forall it | it in fallingItems :: it.radius == FallingItems.ItemRadius && it.speed == FallingItems.FallSpeed)
      && 0.0 <= scorePoint
    }

    /** A new screen with the field defaults of the class. */
    constructor(width: real, height: real, enemyRadius: real)
      ensures Valid()
      ensures this.width == width && this.height == height && this.enemyRadius == enemyRadius
      ensures fresh(player) && player.position == Origin && !player.invincible
      ensures enemies == [] && score == 0.0 && !running && lives == InitialLives
      ensures lastSpawnTime == 0.0 && spawnInterval == DefaultSpawnInterval
      ensures enemySpeed == DefaultEnemySpeed && scorePoint == DefaultScorePoint
      ensures locationIndex == 0 && !useJoystick && joystick == null
      ensures fallingItems == [] && lastItemSpawn == 0.0
      ensures !followsPointer && !resultsShown
    {
      this.width := width;
      this.height := height;
      this.enemyRadius := enemyRadius;
      player := new EntityPlayer.Player();
      enemies := [];
      score := 0.0;
      running := false;
      lives := InitialLives;
      lastSpawnTime := 0.0;
      spawnInterval := DefaultSpawnInterval;
      enemySpeed := DefaultEnemySpeed;
      locationIndex := 0;
      useJoystick := false;
      joystick := null;
      scorePoint := DefaultScorePoint;
      fallingItems := [];
      lastItemSpawn := 0.0;
      followsPointer := false;
      resultsShown := false;
    }

    /** `setConfig(i, useJoystick)`: the spawn interval is one over the
        location's spawn rate; enemy speed and item points are the
        location's. */
    method SetConfig(i: nat, useJoystick: bool)
      requires Valid() && i < |LocationConfig.Locations|
      modifies this`locationIndex, this`useJoystick, this`spawnInterval, this`enemySpeed, this`scorePoint
      ensures Valid()
      ensures locationIndex == i && this.useJoystick == useJoystick
      ensures 0.0 < spawnInterval && spawnInterval * LocationConfig.Locations[i].spawnRate == 1.0
      ensures enemySpeed == LocationConfig.Locations[i].enemySpeed
      ensures scorePoint == LocationConfig.Locations[i].scorePoint
    {
      LocationConfig.CatalogueShape();
      locationIndex := i;
      this.useJoystick := useJoystick;
      spawnInterval := LocationConfig.SpawnInterval(i);
      enemySpeed := LocationConfig.Locations[i].enemySpeed;
      scorePoint := LocationConfig.Locations[i].scorePoint;
    }

    /** `init()` at time `now`: a running session with no score, no enemies,
        3 lives and the player in the middle of the canvas; a new joystick in
        joystick mode, the pointer listener otherwise. Items on screen and the
        item timer are left as they were. */
    method Init(now: real)
      requires Valid()
      modifies this`running, this`score, this`enemies, this`lives, this`lastSpawnTime
      modifies this`joystick, this`followsPointer, player`position
      ensures Valid()
      ensures running && score == 0.0 && enemies == [] && lives == InitialLives && lastSpawnTime == now
      ensures player.position == Vec2(width / 2.0, height / 2.0)
      ensures useJoystick ==>
        && joystick != null && fresh(joystick)
        && joystick.base.None? && joystick.pos.None? && joystick.radius == Joysticks.JoystickRadius
        && followsPointer == old(followsPointer)
      ensures !useJoystick ==> followsPointer && joystick == old(joystick)
    {
      running := true;
      score := 0.0;
      enemies := [];
      lives := InitialLives;
      lastSpawnTime := now;
      player.position := Vec2(width / 2.0, height / 2.0);
      if useJoystick {
        joystick := new Joysticks.Joystick();
      } else {
        followsPointer := true;
      }
    }

    /** `getScore()`: the score rounded down. */
    function GetScore(): (r: int)
      reads this
      ensures r as real <= score < r as real + 1.0
    {
      score.Floor
    }

    /** The pointer listener: the player jumps to the pointer. */
    method OnPointerMove(p: Vec2)
      requires followsPointer
      modifies player`position
      ensures player.position == p
    {
      player.position := p;
    }

    /** `destroy()`: stop the loop, detach the pointer listener and drop the
        joystick. Enemies and items stay listed. */
    method Destroy()
      modifies this`running, this`followsPointer, this`joystick
      ensures !running && !followsPointer && joystick == null
    {
      running := false;
      followsPointer := false;
      joystick := null;
    }

    /** The enemy `spawnEnemy()` makes: just outside the edge the rolls
        pick, with the velocity `Aim` gives towards the player at the enemy
        speed (see `AimHeadsFor`). */
    function NewFoe(r: SpawnRolls, hypot: (real, real) -> real): (f: Foe)
      requires IsRoll(r.side) && IsRoll(r.along)
      reads this`enemySpeed, player`position
      ensures f.position == EdgePoint(r.side, r.along, width, height, SpawnOffset) && f.radius == enemyRadius
    {
      var p := EdgePoint(r.side, r.along, width, height, SpawnOffset);
      var to := player.position;
      Foe(p, Aim(p, to, hypot(to.x - p.x, to.y - p.y), enemySpeed), enemyRadius)
    }

    /** `spawnEnemy()`: a new enemy just outside an edge, heading for the
        player at the enemy speed, joins the end of the list. */
    method SpawnEnemy(r: SpawnRolls, hypot: (real, real) -> real)
      requires IsRoll(r.side) && IsRoll(r.along)
      modifies this`enemies
      ensures enemies == old(enemies + [NewFoe(r, hypot)])
    {
      var p := EdgePoint(r.side, r.along, width, height, SpawnOffset);
      var len := hypot(player.position.x - p.x, player.position.y - p.y);
      var v := Aim(p, player.position, len, enemySpeed);
      enemies := enemies + [Foe(p, v, enemyRadius)];
    }

    /** `spawnFallingItem()`: a new item above the top edge, at least 10
        pixels in from either side, joins the end of the list. */
    method SpawnFallingItem(roll: real)
      requires Valid() && IsRoll(roll)
      modifies this`fallingItems
      ensures Valid()
      ensures |fallingItems| == |old(fallingItems)| + 1
      ensures fallingItems[..|old(fallingItems)|] == old(fallingItems)
      ensures var it := fallingItems[|fallingItems| - 1];
        && fresh(it)
        && it.position == Vec2(Along(roll, ItemMargin, width - ItemMargin), -FallingItems.ItemRadius)
    {
      var x := Along(roll, ItemMargin, width - ItemMargin);
      var it := new FallingItems.FallingItem(x);
      fallingItems := fallingItems + [it];
    }

    /** The spawn part of `update` at time `now`: an enemy once the spawn
        interval has passed, an item once the item interval has passed, each
        resetting its own timer. */
    method HandleSpawns(now: real, enemyRolls: SpawnRolls, itemRoll: real, hypot: (real, real) -> real)
      requires Valid() && IsRoll(enemyRolls.side) && IsRoll(enemyRolls.along) && IsRoll(itemRoll)
      modifies this`enemies, this`lastSpawnTime, this`fallingItems, this`lastItemSpawn
      ensures Valid()
      ensures lastSpawnTime == if old(now - lastSpawnTime >= spawnInterval) then now else old(lastSpawnTime)
      ensures enemies == old(enemies + if now - lastSpawnTime >= spawnInterval then [NewFoe(enemyRolls, hypot)] else [])
      ensures var spawn := now - old(lastItemSpawn) >= ItemSpawnInterval;
        && |fallingItems| == |old(fallingItems)| + (if spawn then 1 else 0)
        && fallingItems[..|old(fallingItems)|] == old(fallingItems)
        && lastItemSpawn == (if spawn then now else old(lastItemSpawn))
      ensures |fallingItems| > |old(fallingItems)| ==>
        && fresh(fallingItems[|old(fallingItems)|])
        && fallingItems[|old(fallingItems)|].position == Vec2(Along(itemRoll, ItemMargin, width - ItemMargin), -FallingItems.ItemRadius)
      ensures forall k :: 0 <= k < |old(fallingItems)| ==> unchanged(old(fallingItems)[k])
    {
      if now - lastSpawnTime >= spawnInterval {
        SpawnEnemy(enemyRolls, hypot);
        lastSpawnTime := now;
      }
      if now - lastItemSpawn >= ItemSpawnInterval {
        SpawnFallingItem(itemRoll);
        lastItemSpawn := now;
      }
    }

    /** Every item falls for `dt` seconds. */
    method UpdateItems(dt: real)
      requires Valid()
      modifies fallingItems
      ensures Valid()
      ensures forall k :: 0 <= k < |fallingItems| ==>
        fallingItems[k].position == FallingItems.Fall(old(fallingItems[k].position), dt)
    {
      var items := fallingItems;
      for i := 0 to |items|
        invariant forall k :: 0 <= k < i ==>
          items[k].position == FallingItems.Fall(old(items[k].position), dt)
        invariant forall k :: i <= k < |items| ==> unchanged(items[k])
      {
        assert forall k :: 0 <= k < |items| && k != i ==> items[k] != items[i];
        items[i].Update(dt);
      }
    }

    /** The catch filter: each caught item scores once and goes, and so does
        each item a full radius below the bottom edge. */
    method CatchItems()
      requires Valid()
      modifies this`fallingItems, this`score
      ensures Valid()
      ensures fallingItems == KeptItems(old(fallingItems), player.position, player.radius, height)
      ensures score == old(score) + CatchScore(old(fallingItems), player.position, player.radius, scorePoint)
      ensures old(score) <= score
    {
      var kept, newScore := FilterItems(fallingItems, player.position, player.radius, height, scorePoint, score);
      KeptItemsDistinct(fallingItems, player.position, player.radius, height);
      CatchScoreNonneg(fallingItems, player.position, player.radius, scorePoint);
      score, fallingItems := newScore, kept;
    }

    /** Every enemy takes its step; `step` is the enemy class's `update`. */
    method UpdateEnemies(dt: real, step: (Foe, real) -> Foe)
      modifies this`enemies
      ensures |enemies| == |old(enemies)|
      ensures forall k :: 0 <= k < |enemies| ==> enemies[k] == step(old(enemies)[k], dt)
      ensures enemies == StepAll(old(enemies), step, dt)
    {
      for i := 0 to |enemies|
        invariant |enemies| == |old(enemies)|
        invariant forall k :: 0 <= k < i ==> enemies[k] == step(old(enemies)[k], dt)
        invariant forall k :: i <= k < |enemies| ==> enemies[k] == old(enemies)[k]
      {
        enemies := enemies[i := step(enemies[i], dt)];
      }
    }

    /** The collision filter: each enemy on the player costs a life and
        goes; the others stay in order. */
    method CollideEnemies()
      modifies this`enemies, this`lives
      ensures enemies == Survivors(old(enemies), player.position, player.radius)
      ensures lives == old(lives) - Collisions(old(enemies), player.position, player.radius)
    {
      var fs := enemies;
      var kept := [];
      for i := 0 to |fs|
        invariant kept == Survivors(fs[..i], player.position, player.radius)
        invariant lives == old(lives) - Collisions(fs[..i], player.position, player.radius)
      {
        assert fs[..i + 1][..i] == fs[..i];
        if Collides(fs[i], player.position, player.radius) {
          lives := lives - 1;
        } else {
          kept := kept + [fs[i]];
        }
      }
      assert fs[..|fs|] == fs;
      enemies := kept;
    }

    /** The joystick part of `update`: the player moves along the stick
        direction `dir` it reads and is then kept a radius inside the
        canvas. Without a joystick nothing moves. */
    method MoveByJoystick(dt: real, hypot: (real, real) -> real) returns (dir: Vec2)
      modifies player`position
      ensures useJoystick && joystick != null ==>
        && dir == joystick.Reading(hypot)
        && player.position == Confine(Nudge(old(player.position), dir, dt), player.radius, width, height)
      ensures !(useJoystick && joystick != null) ==> player.position == old(player.position) && dir == Origin
    {
      if !useJoystick || joystick == null {
        return Origin;
      }
      dir := joystick.GetDirection(hypot);
      Glide(dir, dt);
    }

    /** The player takes a joystick step along `dir` and is kept a radius
        inside the canvas. */
    method Glide(dir: Vec2, dt: real)
      modifies player`position
      ensures player.position == Confine(Nudge(old(player.position), dir, dt), player.radius, width, height)
    {
      player.position := Confine(Nudge(player.position, dir, dt), player.radius, width, height);
    }

    /** `update(dt)` at time `now`: spawns, items fall and are caught,
        enemies move and collide; with no lives left the screen is destroyed
        and the results shown before the player can move, otherwise the
        joystick moves the player. `arrivals` is the item list after the
        spawn step. */
    method Update(dt: real, now: real, enemyRolls: SpawnRolls, itemRoll: real,
                  hypot: (real, real) -> real, step: (Foe, real) -> Foe)
      returns (ghost arrivals: seq<FallingItems.FallingItem>)
      requires Valid() && IsRoll(enemyRolls.side) && IsRoll(enemyRolls.along) && IsRoll(itemRoll)
      modifies this`enemies, this`lastSpawnTime, this`fallingItems, this`lastItemSpawn
      modifies this`score, this`lives, this`running, this`followsPointer, this`joystick
      modifies this`resultsShown, player`position, fallingItems
      ensures Valid()
      ensures Arrived(old(fallingItems), arrivals, old(now - lastItemSpawn >= ItemSpawnInterval),
                      Vec2(Along(itemRoll, ItemMargin, width - ItemMargin), -FallingItems.ItemRadius), dt)
      ensures forall k :: 0 <= k < |old(fallingItems)| ==>
        old(fallingItems)[k].position == FallingItems.Fall(old(fallingItems[k].position), dt)
      ensures EnemiesAfter(old(enemies + if now - lastSpawnTime >= spawnInterval then [NewFoe(enemyRolls, hypot)] else []),
                           old(lives), old(player.position), dt, step)
      ensures ItemsAfter(arrivals, old(score), old(player.position))
      ensures lastSpawnTime == if old(now - lastSpawnTime >= spawnInterval) then now else old(lastSpawnTime)
      ensures lastItemSpawn == if old(now - lastItemSpawn >= ItemSpawnInterval) then now else old(lastItemSpawn)
      ensures lives <= old(lives) && old(score) <= score
      ensures |enemies| <= |old(enemies)| + 1
      ensures lives <= 0 ==>
        && !running && resultsShown && !followsPointer && joystick == null
        && player.position == old(player.position)
      ensures lives > 0 ==>
        && running == old(running) && resultsShown == old(resultsShown)
        && followsPointer == old(followsPointer) && joystick == old(joystick)
      ensures lives > 0 && useJoystick && joystick != null ==>
        && player.position == Confine(Nudge(old(player.position), joystick.Reading(hypot), dt),
                                      player.radius, width, height)
        && player.radius <= player.position.x && player.radius <= player.position.y
        && (2.0 * player.radius <= width ==> player.position.x <= width - player.radius)
        && (2.0 * player.radius <= height ==> player.position.y <= height - player.radius)
      ensures !(useJoystick && joystick != null) ==> player.position == old(player.position)
    {
      arrivals := Frame(dt, now, enemyRolls, itemRoll, hypot, step);
      ghost var (es, ls, sc, ts, ti) := (enemies, lives, score, lastSpawnTime, lastItemSpawn);
      Settle(dt, hypot);
      assert enemies == es && lives == ls && score == sc && lastSpawnTime == ts && lastItemSpawn == ti;
    }

    /** The end of `update`: with no lives left the screen is destroyed and
        the results shown, otherwise the joystick moves the player. */
    method Settle(dt: real, hypot: (real, real) -> real)
      modifies this`running, this`followsPointer, this`joystick, this`resultsShown, player`position
      ensures lives <= 0 ==>
        && !running && resultsShown && !followsPointer && joystick == null
        && player.position == old(player.position)
      ensures lives > 0 ==>
        && running == old(running) && resultsShown == old(resultsShown)
        && followsPointer == old(followsPointer) && joystick == old(joystick)
      ensures lives > 0 && useJoystick && joystick != null ==>
        && player.position == Confine(Nudge(old(player.position), joystick.Reading(hypot), dt),
                                      player.radius, width, height)
        && player.radius <= player.position.x && player.radius <= player.position.y
        && (2.0 * player.radius <= width ==> player.position.x <= width - player.radius)
        && (2.0 * player.radius <= height ==> player.position.y <= height - player.radius)
      ensures !(useJoystick && joystick != null) ==> player.position == old(player.position)
    {
      if lives <= 0 {
        Destroy();
        resultsShown := true;
        return;
      }
      var _ := MoveByJoystick(dt, hypot);
    }

    /** What the enemy step of a frame leaves, from the enemies `foes` it
        starts with, the lives `lives0` and the player at `at`: the enemies
        that survive the collision filter after every enemy took its step,
        in order, and a life gone for each collision. */
    ghost predicate EnemiesAfter(foes: seq<Foe>, lives0: int, at: Vec2, dt: real, step: (Foe, real) -> Foe)
      reads this`enemies, this`lives, player`radius
    {
      var moved := StepAll(foes, step, dt);
      && enemies == Survivors(moved, at, player.radius)
      && lives == lives0 - Collisions(moved, at, player.radius)
    }

    /** What the catch filter leaves, from the fallen items `arrivals`, the
        score `score0` and the player at `at`: the items it keeps, in order,
        and `point` more for each catch. */
    ghost predicate ItemsAfter(arrivals: seq<FallingItems.FallingItem>, score0: real, at: Vec2)
      reads this`fallingItems, this`score, this`scorePoint, player`radius, arrivals
    {
      && fallingItems == KeptItems(arrivals, at, player.radius, height)
      && score == score0 + CatchScore(arrivals, at, player.radius, scorePoint)
    }

    /** The part of `update` before the lives check: the spawns, then the
        items, then the enemies. */
    method Frame(dt: real, now: real, enemyRolls: SpawnRolls, itemRoll: real,
                 hypot: (real, real) -> real, step: (Foe, real) -> Foe)
      returns (ghost arrivals: seq<FallingItems.FallingItem>)
      requires Valid() && IsRoll(enemyRolls.side) && IsRoll(enemyRolls.along) && IsRoll(itemRoll)
      modifies this`enemies, this`lastSpawnTime, this`fallingItems, this`lastItemSpawn
      modifies this`score, this`lives, fallingItems
      ensures Valid()
      ensures Arrived(old(fallingItems), arrivals, old(now - lastItemSpawn >= ItemSpawnInterval),
                      Vec2(Along(itemRoll, ItemMargin, width - ItemMargin), -FallingItems.ItemRadius), dt)
      ensures forall k :: 0 <= k < |old(fallingItems)| ==>
        old(fallingItems)[k].position == FallingItems.Fall(old(fallingItems[k].position), dt)
      ensures ItemsAfter(arrivals, old(score), player.position) && old(score) <= score
      ensures lastSpawnTime == if old(now - lastSpawnTime >= spawnInterval) then now else old(lastSpawnTime)
      ensures lastItemSpawn == if old(now - lastItemSpawn >= ItemSpawnInterval) then now else old(lastItemSpawn)
      ensures EnemiesAfter(old(enemies + if now - lastSpawnTime >= spawnInterval then [NewFoe(enemyRolls, hypot)] else []),
                           old(lives), player.position, dt, step)
      ensures lives <= old(lives) && |enemies| <= |old(enemies)| + 1
    {
      ghost var foes := old(enemies + if now - lastSpawnTime >= spawnInterval then [NewFoe(enemyRolls, hypot)] else []);
      arrivals := Supply(dt, now, enemyRolls, itemRoll, hypot);
      assert enemies == foes && lives == old(lives);
      Enemies(dt, step);
    }

    /** The spawns and the items of `update`: the enemy and item spawns,
        then every item falls and the catch filter runs. `arrivals` is the
        item list after the spawns. */
    method Supply(dt: real, now: real, enemyRolls: SpawnRolls, itemRoll: real, hypot: (real, real) -> real)
      returns (ghost arrivals: seq<FallingItems.FallingItem>)
      requires Valid() && IsRoll(enemyRolls.side) && IsRoll(enemyRolls.along) && IsRoll(itemRoll)
      modifies this`enemies, this`lastSpawnTime, this`fallingItems, this`lastItemSpawn
      modifies this`score, fallingItems
      ensures Valid()
      ensures Arrived(old(fallingItems), arrivals, old(now - lastItemSpawn >= ItemSpawnInterval),
                      Vec2(Along(itemRoll, ItemMargin, width - ItemMargin), -FallingItems.ItemRadius), dt)
      ensures forall k :: 0 <= k < |old(fallingItems)| ==>
        old(fallingItems)[k].position == FallingItems.Fall(old(fallingItems[k].position), dt)
      ensures ItemsAfter(arrivals, old(score), player.position) && old(score) <= score
      ensures lastSpawnTime == if old(now - lastSpawnTime >= spawnInterval) then now else old(lastSpawnTime)
      ensures lastItemSpawn == if old(now - lastItemSpawn >= ItemSpawnInterval) then now else old(lastItemSpawn)
      ensures enemies == old(enemies + if now - lastSpawnTime >= spawnInterval then [NewFoe(enemyRolls, hypot)] else [])
    {
      HandleSpawns(now, enemyRolls, itemRoll, hypot);
      arrivals := fallingItems;
      Items(dt);
    }

    /** The item part of `update`: the items fall, then the catch filter. */
    method Items(dt: real)
      requires Valid()
      modifies this`fallingItems, this`score, fallingItems
      ensures Valid()
      ensures forall k :: 0 <= k < |old(fallingItems)| ==>
        old(fallingItems)[k].position == FallingItems.Fall(old(fallingItems[k].position), dt)
      ensures ItemsAfter(old(fallingItems), old(score), player.position)
      ensures old(score) <= score
      ensures unchanged(this`enemies, this`lastSpawnTime, this`lastItemSpawn)
    {
      UpdateItems(dt);
      CatchItems();
    }

    /** The enemy part of `update`: the enemies move, then the collision
        filter. */
    method Enemies(dt: real, step: (Foe, real) -> Foe)
      modifies this`enemies, this`lives
      ensures EnemiesAfter(old(enemies), old(lives), player.position, dt, step)
      ensures lives <= old(lives) && |enemies| <= |old(enemies)|
    {
      UpdateEnemies(dt, step);
      CollideEnemies();
    }
  }
}

=== FILE: legacy_location_config.dfy ===
/** The older difficulty catalogue used by the first browser game: the same
    three locations with their own enemy speeds and spawn rates. */
module LegacyLocationConfig {
  import LocationConfig

  datatype LegacyLocation = LegacyLocation(
    name: string,
    enemySpeed: real,
    spawnRate: real,
    backgroundColor: string)

  const LegacyLocations: seq<LegacyLocation> := [
    LegacyLocation("Easy Forest", 1000.0, 100.0, "#228B22"),
    LegacyLocation("Medium Desert", 1500.0, 200.0, "#EDC9AF"),
    LegacyLocation("Hard Space", 2000.0, 300.0, "#000000")
  ]

  /** The seconds between spawns at location `i`. */
  function SpawnInterval(i: nat): (r: real)
    requires i < |LegacyLocations|
    ensures 0.0 < r
    ensures r * LegacyLocations[i].spawnRate == 1.0
  {
    1.0 / LegacyLocations[i].spawnRate
  }

  /** The enemy speed at location `i`. */
  function EnemySpeed(i: nat): (r: real)
    requires i < |LegacyLocations|
    ensures 0.0 < r
  {
    LegacyLocations[i].enemySpeed
  }

  /** Three locations with positive spawn rates, strictly increasing in enemy
      speed and spawn rate, named index for index like the newer catalogue. */
  lemma CatalogueShape()
    ensures |LegacyLocations| == 3 == |LocationConfig.Locations|
    ensures forall i :: 0 <= i < |LegacyLocations| ==> 0.0 < LegacyLocations[i].spawnRate
    ensures forall i, j :: 0 <= i < j < |LegacyLocations| ==>
      && LegacyLocations[i].enemySpeed < LegacyLocations[j].enemySpeed
      && LegacyLocations[i].spawnRate < LegacyLocations[j].spawnRate
    ensures forall i :: 0 <= i < |LegacyLocations| ==>
      LegacyLocations[i].name == LocationConfig.Locations[i].name
  {
  }
}

=== FILE: legacy_menu.dfy ===
/** The first menu screen: a click on one of the location rows starts a
    session there with the current joystick setting, and a click on the line
    below them switches the joystick on or off. Each row is a band 300 wide
    and 30 high whose bottom edge is the row's text baseline. */
module LegacyMenu {
  import opened Geometry
  import LocationConfig

  const ButtonLeft: real := 250.0
  const ButtonWidth: real := 300.0
  const FirstBaseline: real := 200.0
  const RowSpacing: real := 60.0
  const BandHeight: real := 30.0

  /** The baseline of row `i`; the toggle line is the row after the last
      location. */
  function Baseline(i: nat): real {
    FirstBaseline + i as real * RowSpacing
  }

  /** The point is in the band above the baseline `base` (edges included). */
  predicate InBand(x: real, y: real, base: real) {
    ButtonLeft <= x <= ButtonLeft + ButtonWidth && base - BandHeight <= y <= base
  }

  predicate OnLocation(i: nat, x: real, y: real) {
    InBand(x, y, Baseline(i))
  }

  predicate OnToggle(x: real, y: real) {
    InBand(x, y, Baseline(|LocationConfig.Locations|))
  }

  /** The call `startGame(location, useJoystick)` a click makes. */
  datatype StartRequest = StartRequest(location: nat, useJoystick: bool)

  /** What a click does: the session it starts, if any, and the joystick
      setting afterwards. */
  datatype Outcome = Outcome(start: Option<StartRequest>, useJoystick: bool)

  /** The first location row from `from` on that holds the point. */
  function FirstLocation(x: real, y: real, from: nat): (r: Option<nat>)
    requires from <= |LocationConfig.Locations|
    ensures r.Some? ==>
      && from <= r.value < |LocationConfig.Locations| && OnLocation(r.value, x, y)
      && forall j | from <= j < r.value :: !OnLocation(j, x, y)
    ensures r.None? ==> forall j | from <= j < |LocationConfig.Locations| :: !OnLocation(j, x, y)
    decreases |LocationConfig.Locations| - from
  {
    if from == |LocationConfig.Locations| then None
    else if OnLocation(from, x, y) then Some(from)
    else FirstLocation(x, y, from + 1)
  }

  /** The click handler on values: the first row holding the point starts a
      session with the current setting and nothing else happens; with no row
      hit, a click on the toggle line flips the setting. */
  function Click(useJoystick: bool, x: real, y: real): (r: Outcome)
    ensures r.start.Some? ==>
      && r.start.value.location < |LocationConfig.Locations|
      && OnLocation(r.start.value.location, x, y)
      && r.start.value.useJoystick == useJoystick
      && r.useJoystick == useJoystick
    ensures r.start.None? ==>
      && (forall j | 0 <= j < |LocationConfig.Locations| :: !OnLocation(j, x, y))
      && (r.useJoystick <==> (useJoystick != OnToggle(x, y)))
  {
    match FirstLocation(x, y, 0)
    case Some(i) => Outcome(Some(StartRequest(i, useJoystick)), useJoystick)
    case None => Outcome(None, if OnToggle(x, y) then !useJoystick else useJoystick)
  }

  /** Rows, and the toggle line, are 60 apart and 30 high, so no point lies
      in two of them. */
  lemma BandsApart(i: nat, j: nat, x: real, y: real)
    requires i < j
    ensures !(InBand(x, y, Baseline(i)) && InBand(x, y, Baseline(j)))
  {
    assert Baseline(j) - Baseline(i) == (j - i) as real * RowSpacing;
  }

  /** A click on a location row starts that row's session, whatever other
      row the handler tries first. */
  lemma ClickStartsOnRow(useJoystick: bool, x: real, y: real, i: nat)
    requires i < |LocationConfig.Locations| && OnLocation(i, x, y)
    ensures Click(useJoystick, x, y).start == Some(StartRequest(i, useJoystick))
  {
    var r := Click(useJoystick, x, y);
    if r.start.Some? {
      var k := r.start.value.location;
      if k < i {
        BandsApart(k, i, x, y);
      } else if i < k {
        BandsApart(i, k, x, y);
      }
    }
  }

  /** Two clicks at the same point leave the joystick setting as it was. */
  lemma ClickTwiceRestores(useJoystick: bool, x: real, y: real)
    ensures Click(Click(useJoystick, x, y).useJoystick, x, y).useJoystick == useJoystick
  {
    var once := Click(useJoystick, x, y);
    var twice := Click(once.useJoystick, x, y);
    assert once.start.None? <==> twice.start.None?;
  }

  /** A click outside every row and the toggle line changes nothing. */
  lemma ClickOutsideIgnored(useJoystick: bool, x: real, y: real)
    requires forall j | 0 <= j <= |LocationConfig.Locations| :: !InBand(x, y, Baseline(j))
    ensures Click(useJoystick, x, y) == Outcome(None, useJoystick)
  {
    assert !OnToggle(x, y);
  }

  /** The click on the toggle line flips the setting and starts nothing. */
  lemma ClickToggles(useJoystick: bool, x: real, y: real)
    requires OnToggle(x, y)
    ensures Click(useJoystick, x, y) == Outcome(None, !useJoystick)
  {
  }

  class MenuScreen {
    var useJoystick: bool

    constructor()
      ensures !useJoystick
    {
      useJoystick := false;
    }

    /** The `onclick` handler at offset (`x`, `y`): the rows are tried in
        order and the first that holds the point starts its session at
        once; otherwise the toggle line flips the setting. */
    method OnClick(x: real, y: real) returns (start: Option<StartRequest>)
      modifies this
      ensures Outcome(start, useJoystick) == Click(old(useJoystick), x, y)
    {
      var i := 0;
      while i < |LocationConfig.Locations|
        invariant 0 <= i <= |LocationConfig.Locations|
        invariant FirstLocation(x, y, i) == FirstLocation(x, y, 0)
      {
        if OnLocation(i, x, y) {
          start := Some(StartRequest(i, useJoystick));
          return;
        }
        i := i + 1;
      }
      start := None;
      if OnToggle(x, y) {
        useJoystick := !useJoystick;
      }
    }
  }
}

=== FILE: legacy_player.dfy ===
/** The 2D player: the browser game's player, drawn as a circle or an image. Only its invincibility
    changes over time; the screens move it. */
module LegacyPlayer {
  import opened Geometry
  import opened Invincibility

  const PlayerRadius: real := 20.0

  class Player {
    var position: Vec2
    var velocity: Vec2
    var radius: real
    var invincible: bool
    var invincibleTimer: real
    var invincibleDuration: real

    function ShieldState(): Shield
      reads this`invincible, this`invincibleTimer
    {
      Shield(invincible, invincibleTimer)
    }

    constructor()
      ensures position == Origin && velocity == Origin
      ensures radius == PlayerRadius
      ensures !invincible && invincibleTimer == 0.0
      ensures invincibleDuration == InvincibleDuration
    {
      position := Origin;
      velocity := Origin;
      radius := PlayerRadius;
      invincible := false;
      invincibleTimer := 0.0;
      invincibleDuration := InvincibleDuration;
    }

    /** `update(dt)`: only the invincibility timer moves. */
    method Update(dt: real)
      modifies this`invincible, this`invincibleTimer
      ensures ShieldState() == Tick(old(ShieldState()), dt)
      ensures position == old(position) && velocity == old(velocity)
      ensures radius == old(radius) && invincibleDuration == old(invincibleDuration)
    {
      if invincible {
        invincibleTimer := invincibleTimer - dt;
        if invincibleTimer <= 0.0 {
          invincible := false;
        }
      }
    }

    method MakeInvincible()
      modifies this`invincible, this`invincibleTimer
      ensures ShieldState() == Grant(old(invincibleDuration))
      ensures position == old(position) && velocity == old(velocity)
      ensures radius == old(radius) && invincibleDuration == old(invincibleDuration)
    {
      invincible := true;
      invincibleTimer := invincibleDuration;
    }
  }
}

=== FILE: location_config.dfy ===
/** The difficulty catalogue of the 3D game screen: three locations with an
    enemy speed, a spawn rate in enemies per second, and the points an item is
    worth. */
module LocationConfig {

  datatype Location = Location(
    name: string,
    enemySpeed: real,
    spawnRate: real,
    scorePoint: real,
    backgroundColor: string)

  const Locations: seq<Location> := [
    Location("Easy Forest", 100.0, 1.0, 10.0, "#228B22"),
    Location("Medium Desert", 200.0, 3.0, 20.0, "#EDC9AF"),
    Location("Hard Space", 300.0, 5.0, 30.0, "#000000")
  ]

  /** The seconds between spawns at location `i`: one over its spawn rate. */
  function SpawnInterval(i: nat): (r: real)
    requires i < |Locations|
    ensures 0.0 < r
    ensures r * Locations[i].spawnRate == 1.0
  {
    1.0 / Locations[i].spawnRate
  }

  /** Three locations, each with a positive spawn rate, getting strictly
      harder in enemy speed, spawn rate and points from one to the next, with
      pairwise distinct names. */
  lemma CatalogueShape()
    ensures |Locations| == 3
    ensures forall i :: 0 <= i < |Locations| ==> 0.0 < Locations[i].spawnRate
    ensures forall i, j :: 0 <= i < j < |Locations| ==>
      && Locations[i].enemySpeed < Locations[j].enemySpeed
      && Locations[i].spawnRate < Locations[j].spawnRate
      && Locations[i].scorePoint < Locations[j].scorePoint
      && Locations[i].name != Locations[j].name
  {
  }
}

=== FILE: trajectory.dfy ===
/** Where an enemy is along its path at progress `t`: a straight line, a
    quadratic Bézier arc through an optional control point, or a straight line
    with a sideways sine wobble (zigzag). */
module Trajectory {
  import opened Geometry

  /** The three path shapes, plus any other value, which the `switch` sends to
      its default branch. */
  datatype Kind = Straight | Arc | Zigzag | Other

  /** The `pathData` record: an arc's control point, when there is one. */
  datatype PathData = PathData(control: Option<Vec2>)

  const DefaultAmplitude: real := 3.0
  const DefaultFrequency: real := 2.0

  /** The threshold below which a zigzag path is too short to have a normal. */
  const MinZigzagLength: real := 0.01

  /** The point of the quadratic Bézier curve with control point `c`. */
  function Bezier(t: real, s: Vec2, c: Vec2, e: Vec2): Vec2 {
    var u := 1.0 - t;
    Vec2(u * u * s.x + 2.0 * u * t * c.x + t * t * e.x,
         u * u * s.y + 2.0 * u * t * c.y + t * t * e.y)
  }

  /** `getTrajectoryPosition`. `len` is the value of `Math.hypot` on the
      path's vector and `sinTurns(x)` that of `Math.sin(2 * Math.PI * x)`;
      neither is computed here. */
  function Position(kind: Kind, t: real, start: Vec2, end: Vec2, path: PathData,
                    amplitude: real, frequency: real, len: real, sinTurns: real -> real): (p: Vec2)
    ensures kind == Straight || (kind == Arc && path.control.Some?) ==>
      (t == 0.0 ==> p == start) && (t == 1.0 ==> p == end)
    ensures kind == Arc && path.control.None? ==> p == end
    ensures kind == Other ==> p == start
  {
    match kind
    case Straight => Lerp(start, end, t)
    case Arc =>
      if path.control.Some? then Bezier(t, start, path.control.value, end) else end
    case Zigzag =>
      var base := Lerp(start, end, t);
      var dx := end.x - start.x;
      var dy := end.y - start.y;
      if len > MinZigzagLength then
        var nx := -dy / len;
        var ny := dx / len;
        var offset := sinTurns(t * frequency) * amplitude;
        Vec2(base.x + nx * offset, base.y + ny * offset)
      else
        base
    case Other => start
  }

  /** For `t` in [0, 1] a straight path lies between its endpoints on both
      axes. */
  lemma StraightBetween(t: real, start: Vec2, end: Vec2, path: PathData,
                        amplitude: real, frequency: real, len: real, sinTurns: real -> real)
    requires 0.0 <= t <= 1.0
    ensures var p := Position(Straight, t, start, end, path, amplitude, frequency, len, sinTurns);
      Between(start.x, p.x, end.x) && Between(start.y, p.y, end.y)
  {
  }

  /** An arc whose control point is the midpoint of the path is the straight
      path. */
  lemma ArcThroughMidpointIsStraight(t: real, start: Vec2, end: Vec2,
                                     amplitude: real, frequency: real, len: real, sinTurns: real -> real)
    ensures var mid := Vec2((start.x + end.x) / 2.0, (start.y + end.y) / 2.0);
      Position(Arc, t, start, end, PathData(Some(mid)), amplitude, frequency, len, sinTurns)
      == Position(Straight, t, start, end, PathData(None), amplitude, frequency, len, sinTurns)
  {
    var mid := Vec2((start.x + end.x) / 2.0, (start.y + end.y) / 2.0);
    BezierMidpoint(t, start.x, end.x);
    BezierMidpoint(t, start.y, end.y);
  }

  lemma BezierMidpoint(t: real, s: real, e: real)
    ensures var u := 1.0 - t;
      u * u * s + 2.0 * u * t * ((s + e) / 2.0) + t * t * e == s + (e - s) * t
  {
    var u := 1.0 - t;
    assert 2.0 * u * t * ((s + e) / 2.0) == u * t * s + u * t * e;
    assert u * u * s + u * t * s == u * s * (u + t);
    assert u * t * e + t * t * e == t * e * (u + t);
  }

  /** A zigzag path too short to have a direction (length at most 0.01) is the
      straight path. */
  lemma ZigzagShortIsStraight(t: real, start: Vec2, end: Vec2, path: PathData,
                              amplitude: real, frequency: real, len: real, sinTurns: real -> real)
    requires IsHypot(end.x - start.x, end.y - start.y, len)
    requires SqDist(end, start) <= Sq(MinZigzagLength)
    ensures Position(Zigzag, t, start, end, path, amplitude, frequency, len, sinTurns)
      == Lerp(start, end, t)
  {
    if len > MinZigzagLength {
      SqStrictlyIncreasing(MinZigzagLength, len);
    }
  }

  /** A zigzag point is displaced from the straight point along the path's
      unit normal: the displacement is perpendicular to the path, its squared
      length is that of `sin(..) * amplitude`, so it is at most `amplitude`
      away. */
  lemma ZigzagOffsetAlongNormal(t: real, start: Vec2, end: Vec2, path: PathData,
                                amplitude: real, frequency: real, len: real, sinTurns: real -> real)
    requires IsHypot(end.x - start.x, end.y - start.y, len)
    requires IsSineOfTurns(sinTurns)
    requires len > MinZigzagLength
    ensures var p := Position(Zigzag, t, start, end, path, amplitude, frequency, len, sinTurns);
      var d := Sub(p, Lerp(start, end, t));
      && d.x * (end.x - start.x) + d.y * (end.y - start.y) == 0.0
      && SqNorm(d) == Sq(sinTurns(t * frequency) * amplitude)
      && SqNorm(d) <= Sq(amplitude)
  {
    var dx, dy := end.x - start.x, end.y - start.y;
    var sn := sinTurns(t * frequency);
    var k := sn * amplitude;
    ZigzagDisplacement(t, start, end, path, amplitude, frequency, len, sinTurns);
    NormalOffset(dx, dy, len, k);
    ScaledSineBound(sn, amplitude);
  }

  /** The normal `(-dy, dx) / len` scaled by `k` is perpendicular to `(dx, dy)`
      and has squared length `k * k`. */
  lemma NormalOffset(dx: real, dy: real, len: real, k: real)
    requires IsHypot(dx, dy, len) && len != 0.0
    ensures var d := Vec2(-dy / len * k, dx / len * k);
      d.x * dx + d.y * dy == 0.0 && SqNorm(d) == Sq(k)
  {
    NormalIsPerpendicular(dx, dy, len, k);
    assert IsHypot(-dy, dx, len);
    ScaledUnit(-dy, dx, len, k);
  }

  /** The zigzag displacement is the unit normal scaled by the offset. */
  lemma ZigzagDisplacement(t: real, start: Vec2, end: Vec2, path: PathData,
                           amplitude: real, frequency: real, len: real, sinTurns: real -> real)
    requires len > MinZigzagLength
    ensures var dx, dy := end.x - start.x, end.y - start.y;
      var k := sinTurns(t * frequency) * amplitude;
      Sub(Position(Zigzag, t, start, end, path, amplitude, frequency, len, sinTurns), Lerp(start, end, t))
      == Vec2(-dy / len * k, dx / len * k)
  {
  }

  lemma NormalIsPerpendicular(dx: real, dy: real, len: real, k: real)
    requires len != 0.0
    ensures -dy / len * k * dx + dx / len * k * dy == 0.0
  {
    var a, b := dx / len, dy / len;
    assert -b * k * dx + a * k * dy == k * (a * dy - b * dx);
    assert a * dy == dx * dy / len;
    assert b * dx == dx * dy / len;
  }

  lemma ScaledSineBound(s: real, amplitude: real)
    requires -1.0 <= s <= 1.0
    ensures Sq(s * amplitude) <= Sq(amplitude)
  {
    SqOfProduct(s, amplitude);
    SqAtMostOne(s);
    SqNonneg(amplitude);
    ProductNonneg(1.0 - Sq(s), Sq(amplitude));
  }

  /** Where the sine is at a whole number of turns the zigzag point is on the
      straight path; with a whole-number frequency that includes both ends of
      the path. */
  lemma ZigzagNode(t: real, start: Vec2, end: Vec2, path: PathData,
                   amplitude: real, frequency: real, len: real, sinTurns: real -> real)
    requires IsSineOfTurns(sinTurns)
    requires (t * frequency).Floor as real == t * frequency
    ensures Position(Zigzag, t, start, end, path, amplitude, frequency, len, sinTurns)
      == Lerp(start, end, t)
  {
    assert sinTurns(t * frequency) == 0.0;
  }

  /** With the defaults an enemy uses, a zigzag path starts at `start` and ends
      at `end`. */
  lemma ZigzagEndpoints(start: Vec2, end: Vec2, path: PathData, len: real, sinTurns: real -> real)
    requires IsSineOfTurns(sinTurns)
    ensures Position(Zigzag, 0.0, start, end, path, DefaultAmplitude, DefaultFrequency, len, sinTurns) == start
    ensures Position(Zigzag, 1.0, start, end, path, DefaultAmplitude, DefaultFrequency, len, sinTurns) == end
  {
    ZigzagNode(0.0, start, end, path, DefaultAmplitude, DefaultFrequency, len, sinTurns);
    ZigzagNode(1.0, start, end, path, DefaultAmplitude, DefaultFrequency, len, sinTurns);
  }
}

=== FILE: ui_game_screen.dfy ===
/** The 3D game screen: one session of five timed waves in which enemies walk
    across the camera's view, the player loses a life to each enemy that
    reaches it, and the session ends either when the lives run out (after the
    lose animation) or when the last wave is over.

    The clock (`performance.now()`) and the random numbers are parameters;
    `Math.hypot` and `Math.atan2` are passed in as functions. The 3D player
    object is not part of this model: the screen keeps, as a value, the part
    of its state the screen reads and writes. Rendering, the scene graph and
    pointer ray casting are left out. */
module UiGameScreen {
  import opened Geometry
  import opened JsArrays
  import LocationConfig
  import Waves
  import Joysticks
  import Enemies
  import Trajectory
  import FallingItems

  const InitialLives: int := 3
  const WaveCount: int := 5
  const WaveSeconds: real := 15.0
  const PauseSeconds: real := 8.0

  /** How far outside the camera's view an enemy starts and ends its walk. */
  const SpawnMargin: real := 10.0

  const ItemSpawnInterval: real := 2.0
  /** While collecting, a burst of five items comes four times as often. */
  const BurstSize: nat := 5
  const BurstSpeedUp: real := 4.0
  const SideItemSpeed: real := 400.0
  /** Items start this far outside the canvas edge they come from. */
  const ItemEdgeOffset: real := 10.0

  /** The share of the player's speed one joystick step moves the target. */
  const JoystickStepShare: real := 0.5

  /** Before the first `setConfig`. */
  const DefaultSpawnInterval: real := 0.4
  const DefaultEnemySpeed: real := 200.0
  const DefaultScorePoint: real := 10.0

  /** The camera's view on the ground plane. */
  datatype Bounds = Bounds(left: real, right: real, top: real, bottom: real)

  /** The orthographic camera `init` sets up for a window of the given size. */
  function CameraView(windowWidth: real, windowHeight: real): (b: Bounds)
    ensures b.right - b.left == windowWidth / 40.0 && b.left == -b.right
    ensures b.top - b.bottom == windowHeight / 40.0 && b.bottom == -b.top
  {
    Bounds(-(windowWidth / 80.0), windowWidth / 80.0, windowHeight / 80.0, -(windowHeight / 80.0))
  }

  /** An item as the screen launches it: where it appears and how it moves. */
  datatype LaunchedItem = LaunchedItem(position: Vec2, velocity: Vec2)

  /** The random numbers `spawnEnemy` draws: the edge, where on it the walk
      starts and ends, then the enemy's own path shape and arc offset. */
  datatype EnemyRolls = EnemyRolls(side: real, from: real, to: real, kind: real, offset: real)

  /** The random numbers `spawnFallingItem` draws: the edge, then where on it. */
  datatype ItemRolls = ItemRolls(side: real, along: real)

  predicate ValidEnemyRolls(r: EnemyRolls) {
    IsRoll(r.side) && IsRoll(r.from) && IsRoll(r.to) && IsRoll(r.kind) && IsRoll(r.offset)
  }

  predicate ValidItemRolls(r: ItemRolls) {
    IsRoll(r.side) && IsRoll(r.along)
  }

  // ----- Enemy spawn geometry -----

  /** A walk that starts `SpawnMargin` outside one edge of the view and ends
      the same distance outside the opposite edge, crossing somewhere within
      the view's extent along that edge. */
  predicate CrossesView(b: Bounds, s: Vec2, e: Vec2) {
    || (s.x == b.left - SpawnMargin && e.x == b.right + SpawnMargin
        && Between(b.bottom, s.y, b.top) && Between(b.bottom, e.y, b.top))
    || (s.x == b.right + SpawnMargin && e.x == b.left - SpawnMargin
        && Between(b.bottom, s.y, b.top) && Between(b.bottom, e.y, b.top))
    || (s.y == b.top + SpawnMargin && e.y == b.bottom - SpawnMargin
        && Between(b.left, s.x, b.right) && Between(b.left, e.x, b.right))
    || (s.y == b.bottom - SpawnMargin && e.y == b.top + SpawnMargin
        && Between(b.left, s.x, b.right) && Between(b.left, e.x, b.right))
  }

  predicate InView(b: Bounds, p: Vec2) {
    b.left <= p.x <= b.right && b.bottom <= p.y <= b.top
  }

  /** The start and end points `spawnEnemy` picks: side 0 walks left to
      right, 1 right to left, 2 top to bottom, 3 bottom to top. */
  function EnemyEndpoints(b: Bounds, r: EnemyRolls): (se: (Vec2, Vec2))
    requires ValidEnemyRolls(r)
    ensures CrossesView(b, se.0, se.1)
    ensures Side(r.side) == 0 ==> se.0.x < se.1.x || b.right + 2.0 * SpawnMargin <= b.left
  {
    match Side(r.side)
    case 0 =>
      (Vec2(b.left - SpawnMargin, Along(r.from, b.bottom, b.top)),
       Vec2(b.right + SpawnMargin, Along(r.to, b.bottom, b.top)))
    case 1 =>
      (Vec2(b.right + SpawnMargin, Along(r.from, b.bottom, b.top)),
       Vec2(b.left - SpawnMargin, Along(r.to, b.bottom, b.top)))
    case 2 =>
      (Vec2(Along(r.from, b.left, b.right), b.top + SpawnMargin),
       Vec2(Along(r.to, b.left, b.right), b.bottom - SpawnMargin))
    case _ =>
      (Vec2(Along(r.from, b.left, b.right), b.bottom - SpawnMargin),
       Vec2(Along(r.to, b.left, b.right), b.top + SpawnMargin))
  }

  /** Every walk begins and ends outside the view, on opposite sides of it. */
  lemma EnemiesEnterFromOutside(b: Bounds, r: EnemyRolls)
    requires ValidEnemyRolls(r)
    requires b.left <= b.right && b.bottom <= b.top
    ensures var (s, e) := EnemyEndpoints(b, r);
      && !InView(b, s) && !InView(b, e)
      && ((s.x < b.left && b.right < e.x) || (e.x < b.left && b.right < s.x)
          || (s.y < b.bottom && b.top < e.y) || (e.y < b.bottom && b.top < s.y))
  {
  }

  // ----- Item spawn geometry -----

  /** An item launched `ItemEdgeOffset` outside one canvas edge, moving
      straight into the canvas at `SideItemSpeed`, from a point within the
      edge's extent. */
  predicate EntersFromEdge(it: LaunchedItem, width: real, height: real) {
    || (it.position.y == -ItemEdgeOffset && it.velocity == Vec2(0.0, SideItemSpeed)
        && Between(0.0, it.position.x, width))
    || (it.position.y == height + ItemEdgeOffset && it.velocity == Vec2(0.0, -SideItemSpeed)
        && Between(0.0, it.position.x, width))
    || (it.position.x == -ItemEdgeOffset && it.velocity == Vec2(SideItemSpeed, 0.0)
        && Between(0.0, it.position.y, height))
    || (it.position.x == width + ItemEdgeOffset && it.velocity == Vec2(-SideItemSpeed, 0.0)
        && Between(0.0, it.position.y, height))
  }

  /** `spawnFallingItem(fromSides)` on a canvas of `width` by `height`. An item
      from the sides enters through one of the four edges; any other item
      starts where the one-argument `FallingItem` constructor puts an item,
      at least 10 pixels in from the left and right edges, and falls at that
      class's speed. */
  function ItemLaunch(fromSides: bool, r: ItemRolls, width: real, height: real): (it: LaunchedItem)
    requires ValidItemRolls(r)
    ensures fromSides ==> EntersFromEdge(it, width, height)
    ensures fromSides ==> SqNorm(it.velocity) == Sq(SideItemSpeed)
    ensures !fromSides ==>
      && it.position.y == -FallingItems.ItemRadius
      && it.velocity == Vec2(0.0, FallingItems.FallSpeed)
      && Between(FallingItems.ItemRadius, it.position.x, width - FallingItems.ItemRadius)
  {
    if fromSides then
      match Side(r.side)
      case 0 => LaunchedItem(Vec2(Along(r.along, 0.0, width), -ItemEdgeOffset), Vec2(0.0, SideItemSpeed))
      case 1 => LaunchedItem(Vec2(Along(r.along, 0.0, width), height + ItemEdgeOffset), Vec2(0.0, -SideItemSpeed))
      case 2 => LaunchedItem(Vec2(-ItemEdgeOffset, Along(r.along, 0.0, height)), Vec2(SideItemSpeed, 0.0))
      case _ => LaunchedItem(Vec2(width + ItemEdgeOffset, Along(r.along, 0.0, height)), Vec2(-SideItemSpeed, 0.0))
    else
      LaunchedItem(Vec2(Along(r.along, 10.0, width - 10.0), -10.0), Vec2(0.0, 150.0))
  }

  /** The items of one burst, in the order they are pushed. */
  function Burst(rolls: seq<ItemRolls>, width: real, height: real): (items: seq<LaunchedItem>)
    requires forall k :: 0 <= k < |rolls| ==> ValidItemRolls(rolls[k])
    ensures |items| == |rolls|
    ensures forall k :: 0 <= k < |rolls| ==> items[k] == ItemLaunch(true, rolls[k], width, height)
  {
    seq(|rolls|, k requires 0 <= k < |rolls| => ItemLaunch(true, rolls[k], width, height))
  }

  /** Whether `handleSpawns` launches items at time `now`, the last launch
      having been at `last`: every item interval, or every quarter of it
      while collecting. */
  predicate ItemsDue(collecting: bool, now: real, last: real) {
    now - last >= (if collecting then ItemSpawnInterval / BurstSpeedUp else ItemSpawnInterval)
  }

  /** The items `handleSpawns` launches when they are due: a burst from the
      sides while collecting, otherwise one item from the first rolls. */
  function Launches(collecting: bool, rolls: seq<ItemRolls>, width: real, height: real): (items: seq<LaunchedItem>)
    requires |rolls| == BurstSize && forall k :: 0 <= k < |rolls| ==> ValidItemRolls(rolls[k])
    ensures |items| == if collecting then BurstSize else 1
  {
    if collecting then Burst(rolls, width, height) else [ItemLaunch(false, rolls[0], width, height)]
  }

  // ----- Joystick steering -----

  /** The target `handleJoystick` gives the player for a non-zero stick
      direction `dir` of length `len`: the unit direction times half the
      player's speed times `min(len, 1)`. */
  function JoystickTarget(position: Vec2, dir: Vec2, len: real, speed: real): Vec2
    requires len != 0.0
  {
    var step := speed * JoystickStepShare;
    var strength := Min(len, 1.0);
    Vec2(position.x + dir.x / len * step * strength, position.y + dir.y / len * step * strength)
  }

  /** A stick direction is never longer than 1, so the normalisation and the
      `min(len, 1)` cancel: the target is the position plus the direction
      times half the speed, and never farther away than half the speed. */
  lemma JoystickTargetWithinStep(position: Vec2, dir: Vec2, len: real, speed: real)
    requires len != 0.0
    ensures IsHypot(dir.x, dir.y, len) && SqNorm(dir) <= 1.0 ==>
      var step := speed * JoystickStepShare;
      var target := JoystickTarget(position, dir, len, speed);
      && target == Vec2(position.x + dir.x * step, position.y + dir.y * step)
      && SqDist(target, position) <= Sq(step)
  {
    if !(IsHypot(dir.x, dir.y, len) && SqNorm(dir) <= 1.0) {
      return;
    }
    var step := speed * JoystickStepShare;
    if 1.0 < len {
      SqStrictlyIncreasing(1.0, len);
      assert false;
    }
    assert Min(len, 1.0) == len;
    assert dir.x / len * step * len == dir.x * step;
    assert dir.y / len * step * len == dir.y * step;
    StepDistance(position, dir, step);
  }

  /** The target `handleJoystick` takes from the stick direction `d`: none
      for a zero direction, otherwise `JoystickTarget` along `d`, whose
      length `hypot` gives. */
  function SteerTarget(position: Vec2, d: Vec2, hypot: (real, real) -> real, speed: real): Option<Vec2>
    requires HypotOracle(hypot)
  {
    if d == Origin then None
    else
      HypotZeroIff(d.x, d.y, hypot(d.x, d.y));
      Some(JoystickTarget(position, d, hypot(d.x, d.y), speed))
  }

  /** A stick direction is never longer than 1, so a target taken from it
      is at most half the speed away. */
  lemma SteerTargetWithinStep(position: Vec2, d: Vec2, hypot: (real, real) -> real, speed: real)
    requires HypotOracle(hypot) && SqNorm(d) <= 1.0
    ensures var target := SteerTarget(position, d, hypot, speed);
      target.Some? ==> SqDist(target.value, position) <= Sq(speed * JoystickStepShare)
  {
    if d != Origin {
      HypotZeroIff(d.x, d.y, hypot(d.x, d.y));
      JoystickTargetWithinStep(position, d, hypot(d.x, d.y), speed);
    }
  }

  // ----- Collisions -----

  /** What `checkCollisions` looks at in an enemy. */
  datatype EnemyView = EnemyView(attacking: bool, position: Vec2, radius: real, hasMixer: bool)

  /** `dist < player.radius + enemy.radius` for an enemy that is not already
      attacking, decided on squared lengths. */
  predicate Hit(v: EnemyView, player: Vec2, playerRadius: real) {
    !v.attacking && Overlaps(player, v.position, playerRadius + v.radius)
  }

  /** The number of enemies that cost a life in one pass. */
  function Hits(vs: seq<EnemyView>, player: Vec2, playerRadius: real): nat {
    if vs == [] then 0
    else Hits(vs[..|vs| - 1], player, playerRadius)
         + (if Hit(vs[|vs| - 1], player, playerRadius) then 1 else 0)
  }

  lemma HitsSnoc(vs: seq<EnemyView>, i: nat, player: Vec2, playerRadius: real)
    requires i < |vs|
    ensures Hits(vs[..i + 1], player, playerRadius)
      == Hits(vs[..i], player, playerRadius) + (if Hit(vs[i], player, playerRadius) then 1 else 0)
  {
    assert vs[..i + 1][..i] == vs[..i];
  }

  /** An enemy after the pass: one that hit and has a mixer is now attacking. */
  function Settle(v: EnemyView, player: Vec2, playerRadius: real): (w: EnemyView)
    ensures w.position == v.position && w.radius == v.radius && w.hasMixer == v.hasMixer
    ensures w.attacking <==> v.attacking || (Hit(v, player, playerRadius) && v.hasMixer)
  {
    if Hit(v, player, playerRadius) && v.hasMixer then v.(attacking := true) else v
  }

  function Settled(vs: seq<EnemyView>, player: Vec2, playerRadius: real): (ws: seq<EnemyView>)
    ensures |ws| == |vs|
    ensures forall j :: 0 <= j < |vs| ==> ws[j] == Settle(vs[j], player, playerRadius)
  {
    seq(|vs|, j requires 0 <= j < |vs| => Settle(vs[j], player, playerRadius))
  }

  /** Overlapping enemies without a mixer never start attacking. */
  function MixerlessHits(vs: seq<EnemyView>, player: Vec2, playerRadius: real): nat {
    if vs == [] then 0
    else MixerlessHits(vs[..|vs| - 1], player, playerRadius)
         + (if Hit(vs[|vs| - 1], player, playerRadius) && !vs[|vs| - 1].hasMixer then 1 else 0)
  }

  /** After one pass only the enemies without a mixer can hit again: each
      enemy that attacks costs exactly one life, however many passes follow. */
  lemma {:induction false} SettledHitsOnlyMixerless(vs: seq<EnemyView>, player: Vec2, playerRadius: real)
    ensures Hits(Settled(vs, player, playerRadius), player, playerRadius) == MixerlessHits(vs, player, playerRadius)
    ensures MixerlessHits(vs, player, playerRadius) <= Hits(vs, player, playerRadius)
    decreases |vs|
  {
    if vs != [] {
      var n := |vs|;
      var ws := Settled(vs, player, playerRadius);
      assert ws[..n - 1] == Settled(vs[..n - 1], player, playerRadius);
      SettledHitsOnlyMixerless(vs[..n - 1], player, playerRadius);
    }
  }

  /** When every enemy has a mixer, a second pass costs no life. */
  lemma {:induction false} NoMixerlessNoHits(vs: seq<EnemyView>, player: Vec2, playerRadius: real)
    requires forall j :: 0 <= j < |vs| ==> vs[j].hasMixer
    ensures MixerlessHits(vs, player, playerRadius) == 0
    ensures Hits(Settled(vs, player, playerRadius), player, playerRadius) == 0
    decreases |vs|
  {
    if vs != [] {
      NoMixerlessNoHits(vs[..|vs| - 1], player, playerRadius);
    }
    SettledHitsOnlyMixerless(vs, player, playerRadius);
  }

  /** When every enemy overlaps the player and none is attacking, each one
      costs a life. */
  lemma {:induction false} AllOverlappingHit(vs: seq<EnemyView>, player: Vec2, playerRadius: real)
    requires forall j :: 0 <= j < |vs| ==> Hit(vs[j], player, playerRadius)
    ensures Hits(vs, player, playerRadius) == |vs|
    decreases |vs|
  {
    if vs != [] {
      AllOverlappingHit(vs[..|vs| - 1], player, playerRadius);
    }
  }

  /** Four enemies reaching the player in the same frame take the three
      lives down to -1: nothing stops the count at zero. */
  lemma LivesCanGoNegative(vs: seq<EnemyView>, player: Vec2, playerRadius: real)
    requires |vs| == 4
    requires forall j :: 0 <= j < |vs| ==> Hit(vs[j], player, playerRadius)
    ensures InitialLives - Hits(vs, player, playerRadius) == -1
  {
    AllOverlappingHit(vs, player, playerRadius);
  }

  function ViewOf(e: Enemies.Enemy): EnemyView
    reads e
  {
    EnemyView(e.attacking, e.position, e.radius, |e.clips| > 0)
  }

  function Views(es: seq<Enemies.Enemy>): (vs: seq<EnemyView>)
    reads es
    ensures |vs| == |es|
    ensures forall j :: 0 <= j < |es| ==> vs[j] == ViewOf(es[j])
  {
    if es == [] then [] else [ViewOf(es[0])] + Views(es[1..])
  }

  /** What `checkCollisions` sees of enemy `e` once `updateEnemies` has
      moved it: its attack, radius and mixer as they are, at its
      `NextPosition`. */
  function SteppedView(e: Enemies.Enemy, dt: real): EnemyView
    reads e
  {
    EnemyView(e.attacking, e.NextPosition(dt), e.radius, |e.clips| > 0)
  }

  function SteppedViews(es: seq<Enemies.Enemy>, dt: real): (vs: seq<EnemyView>)
    reads es
    ensures |vs| == |es|
    ensures forall j :: 0 <= j < |es| ==> vs[j] == SteppedView(es[j], dt)
  {
    if es == [] then [] else [SteppedView(es[0], dt)] + SteppedViews(es[1..], dt)
  }

  /** What `checkCollisions` sees of an enemy on the frame it spawns: a new
      enemy has a model, does not attack and stands at the start of its
      path, so its first step takes it to the path's point at the advanced
      `t`. Only fields fixed at construction are read. */
  function FirstStepView(e: Enemies.Enemy, dt: real): EnemyView
  {
    EnemyView(false, e.route(Enemies.Progress(0.0, dt)), e.radius, |e.clips| > 0)
  }

  /** A new enemy's first step is what `FirstStepView` says. */
  lemma FreshStepView(e: Enemies.Enemy, dt: real)
    requires e.hasModel && !e.attacking && e.t == 0.0 && e.position == e.start
    ensures SteppedView(e, dt) == FirstStepView(e, dt)
  {
  }

  /** The views `moved` the collision pass of a frame sees, for the enemies
      `spawned` after the spawns: the enemies listed before the frame as
      `pre` says, then each new enemy after its first step. */
  predicate MovedViews(spawned: seq<Enemies.Enemy>, moved: seq<EnemyView>, pre: seq<EnemyView>,
                       dt: real)
  {
    && |pre| <= |spawned| && |moved| == |spawned|
    && moved[..|pre|] == pre
    && forall k | |pre| <= k < |moved| :: moved[k] == FirstStepView(spawned[k], dt)
  }

  // ----- Loss sequence -----

  /** `checkGameOver` on `lives` and `is_losing`: whether it fires (returns
      true and starts the lose sequence), and `is_losing` afterwards. */
  function GameOverStep(lives: int, losing: bool): (r: (bool, bool))
    ensures r.0 <==> lives <= 0 && !losing
    ensures r.1 <==> losing || lives <= 0
  {
    if lives > 0 || losing then (false, losing) else (true, true)
  }

  /** How many of a run of `checkGameOver` calls fire, one per frame with the
      frame's `lives`. */
  function FireCount(losing: bool, lives: seq<int>): nat
    decreases |lives|
  {
    if lives == [] then 0
    else
      var r := GameOverStep(lives[0], losing);
      (if r.0 then 1 else 0) + FireCount(r.1, lives[1..])
  }

  /** Over a whole session the lose sequence starts at most once: exactly
      once if some frame ends with no lives left, never otherwise, and never
      again after it has started. */
  lemma {:induction false} LossFiresOnce(losing: bool, lives: seq<int>)
    ensures losing ==> FireCount(losing, lives) == 0
    ensures !losing ==>
      (FireCount(losing, lives) == 1 <==> exists j :: 0 <= j < |lives| && lives[j] <= 0)
    ensures FireCount(losing, lives) <= 1
    decreases |lives|
  {
    if lives != [] {
      var r := GameOverStep(lives[0], losing);
      LossFiresOnce(r.1, lives[1..]);
      if !losing && !r.0 {
        assert (exists j :: 0 <= j < |lives| && lives[j] <= 0)
          <==> (exists j :: 0 <= j < |lives[1..]| && lives[1..][j] <= 0) by {
          if exists j :: 0 <= j < |lives| && lives[j] <= 0 {
            var j :| 0 <= j < |lives| && lives[j] <= 0;
            assert j != 0 && lives[1..][j - 1] <= 0;
          }
          if exists j :: 0 <= j < |lives[1..]| && lives[1..][j] <= 0 {
            var j :| 0 <= j < |lives[1..]| && lives[1..][j] <= 0;
            assert lives[j + 1] <= 0;
          }
        }
      }
    }
  }

  // ----- The screen -----

  class GameScreen {
    var isLosing: bool
    var running: bool
    var lives: int
    var score: real
    var enemies: seq<Enemies.Enemy>
    var lastSpawnTime: real
    var spawnInterval: real
    var enemySpeed: real
    var scorePoint: real
    var locationIndex: nat
    var useJoystick: bool
    var joystick: Joysticks.Joystick?
    var fallingItems: seq<LaunchedItem>
    var lastItemSpawn: real
    var wave: Waves.WaveController
    /** The camera's view on the ground plane. */
    var view: Bounds
    /** The part of the 3D player the screen reads and writes: where it
        is, whether it is frozen, the target it walks to, and how many hit
        and lose animations it has been asked to play. */
    var playerPosition: Vec2
    var playerFrozen: bool
    var playerTarget: Option<Vec2>
    var hitAnimations: nat
    var loseAnimations: nat
    /** The lose sequence's two-second timer has been set and not yet run. */
    var lossTimerPending: bool
    /** The screen manager has been asked for the results screen. */
    var resultsShown: bool

    /** The canvas the items are launched around. */
    const width: real
    const height: real
    /** The player's collision radius and speed. */
    const playerRadius: real
    const playerSpeed: real
    /** The animation clips every enemy gets. */
    const clips: seq<Enemies.Clip>

    /** The scheduler is consistent, no enemy is listed twice, every enemy is
        consistent, and the score is never anything but 0: no code of this
        screen adds to it. */
    predicate Valid()
      reads this, wave, enemies
    {
      && wave.Valid()
      && Distinct(enemies)
      && (forall e | e in enemies :: e.Valid())
      && score == 0.0
    }

    /** A new screen, with the field defaults of the class. The scheduler,
        which the class creates only in `init`, is created here too so that
        it is never missing. */
    constructor(width: real, height: real, playerRadius: real, playerSpeed: real,
                clips: seq<Enemies.Clip>)
      ensures Valid()
      ensures !isLosing && !running && lives == InitialLives && score == 0.0 && enemies == []
      ensures lastSpawnTime == 0.0 && spawnInterval == DefaultSpawnInterval
      ensures enemySpeed == DefaultEnemySpeed && scorePoint == DefaultScorePoint
      ensures locationIndex == 0 && !useJoystick && joystick == null
      ensures fallingItems == [] && lastItemSpawn == 0.0
      ensures !lossTimerPending && !resultsShown
      ensures this.width == width && this.height == height
      ensures this.playerRadius == playerRadius && this.playerSpeed == playerSpeed && this.clips == clips
    {
      this.width := width;
      this.height := height;
      this.playerRadius := playerRadius;
      this.playerSpeed := playerSpeed;
      this.clips := clips;
      isLosing := false;
      running := false;
      lives := InitialLives;
      score := 0.0;
      enemies := [];
      lastSpawnTime := 0.0;
      spawnInterval := DefaultSpawnInterval;
      enemySpeed := DefaultEnemySpeed;
      scorePoint := DefaultScorePoint;
      locationIndex := 0;
      useJoystick := false;
      joystick := null;
      fallingItems := [];
      lastItemSpawn := 0.0;
      wave := new Waves.WaveController(WaveCount, WaveSeconds, PauseSeconds);
      view := CameraView(0.0, 0.0);
      playerPosition, playerFrozen, playerTarget := Origin, false, None;
      hitAnimations, loseAnimations := 0, 0;
      lossTimerPending := false;
      resultsShown := false;
    }

    /** `setConfig(i, useJoystick, useImages)`: the spawn interval is one over
        the location's spawn rate; enemy speed and item points are the
        location's. */
    method SetConfig(i: nat, useJoystick: bool, useImages: bool)
      requires i < |LocationConfig.Locations|
      modifies this`locationIndex, this`useJoystick, this`spawnInterval, this`enemySpeed, this`scorePoint
      ensures locationIndex == i && this.useJoystick == useJoystick
      ensures 0.0 < spawnInterval && spawnInterval * LocationConfig.Locations[i].spawnRate == 1.0
      ensures enemySpeed == LocationConfig.Locations[i].enemySpeed
      ensures scorePoint == LocationConfig.Locations[i].scorePoint
    {
      locationIndex := i;
      this.useJoystick := useJoystick;
      spawnInterval := LocationConfig.SpawnInterval(i);
      enemySpeed := LocationConfig.Locations[i].enemySpeed;
      scorePoint := LocationConfig.Locations[i].scorePoint;
    }

    /** The state reset of `init` at time `now` for a window of the given
        size: a fresh session of 5 waves of 15 seconds with 8-second pauses,
        3 lives, no enemies, the player at the origin and, in joystick mode,
        a new joystick. */
    method Init(now: real, windowWidth: real, windowHeight: real)
      requires Valid()
      modifies this`isLosing, this`running, this`score, this`enemies, this`lives
      modifies this`lastSpawnTime, this`wave, this`view, this`joystick
      modifies this`playerPosition, this`playerFrozen, this`playerTarget
      modifies this`hitAnimations, this`loseAnimations
      ensures Valid()
      ensures fresh(wave) && wave.State() == Waves.Init(WaveCount, WaveSeconds, PauseSeconds)
      ensures !isLosing && running && score == 0.0 && enemies == [] && lives == InitialLives
      ensures lastSpawnTime == now
      ensures view == CameraView(windowWidth, windowHeight)
      ensures playerPosition == Origin && !playerFrozen && playerTarget.None?
      ensures hitAnimations == 0 && loseAnimations == 0
      ensures useJoystick ==>
        && joystick != null && fresh(joystick)
        && joystick.base.None? && joystick.pos.None? && joystick.radius == Joysticks.JoystickRadius
      ensures !useJoystick ==> joystick == old(joystick)
    {
      ResetSession(now);
      wave := new Waves.WaveController(WaveCount, WaveSeconds, PauseSeconds);
      SetUpScene(windowWidth, windowHeight);
    }

    /** The first part of `init`: the session's counters. */
    method ResetSession(now: real)
      requires wave.Valid()
      modifies this`isLosing, this`running, this`score, this`enemies, this`lives, this`lastSpawnTime
      ensures Valid()
      ensures !isLosing && running && score == 0.0 && enemies == [] && lives == InitialLives
      ensures lastSpawnTime == now
    {
      isLosing := false;
      running := true;
      score := 0.0;
      enemies := [];
      lives := InitialLives;
      lastSpawnTime := now;
    }

    /** The part of `init` that sets up the camera, the player and, in
        joystick mode, the joystick. */
    method SetUpScene(windowWidth: real, windowHeight: real)
      modifies this`view, this`joystick
      modifies this`playerPosition, this`playerFrozen, this`playerTarget
      modifies this`hitAnimations, this`loseAnimations
      ensures view == CameraView(windowWidth, windowHeight)
      ensures playerPosition == Origin && !playerFrozen && playerTarget.None?
      ensures hitAnimations == 0 && loseAnimations == 0
      ensures useJoystick ==>
        && joystick != null && fresh(joystick)
        && joystick.base.None? && joystick.pos.None? && joystick.radius == Joysticks.JoystickRadius
      ensures !useJoystick ==> joystick == old(joystick)
    {
      view := CameraView(windowWidth, windowHeight);
      playerPosition, playerFrozen, playerTarget := Origin, false, None;
      hitAnimations, loseAnimations := 0, 0;
      if useJoystick {
        joystick := new Joysticks.Joystick();
      }
    }

    /** `getScore()`: the score rounded down, which on this screen is
        always 0. */
    function GetScore(): (r: int)
      reads this, wave, enemies
      ensures r as real <= score < r as real + 1.0
      ensures Valid() ==> r == 0
    {
      score.Floor
    }

    /** `removeEnemy(e)`: `splice(indexOf(e), 1)`. A listed enemy is taken
        out; an enemy no longer listed takes the last one out instead. */
    method RemoveEnemy(e: Enemies.Enemy)
      requires Valid()
      modifies this`enemies
      ensures Valid()
      ensures enemies == RemoveFirst(old(enemies), e)
      ensures e in old(enemies) ==> multiset(enemies) == multiset(old(enemies)) - multiset{e}
      ensures e !in old(enemies) && old(enemies) != [] ==> enemies == old(enemies)[..|old(enemies)| - 1]
    {
      RemoveKeepsDistinct(enemies, e);
      if e in enemies {
        RemovePresent(enemies, e);
      } else if enemies != [] {
        RemoveAbsentDropsLast(enemies, e);
      }
      enemies := RemoveFirst(enemies, e);
    }

    /** `onWaveEnd()`: remove the first enemy until none is left. */
    method OnWaveEnd()
      requires Valid()
      modifies this`enemies
      ensures Valid()
      ensures enemies == []
    {
      while |enemies| > 0
        invariant Valid()
        decreases |enemies|
      {
        RemoveHead(enemies);
        RemoveEnemy(enemies[0]);
      }
    }

    /** `updateEnemies(dt)`: every enemy takes its step. */
    method UpdateEnemies(dt: real, hypot: (real, real) -> real, atan2: (real, real) -> real)
      requires Valid()
      modifies enemies
      ensures Valid()
      ensures forall e | e in enemies :: e.Stepped(dt, hypot, atan2)
      ensures Views(enemies) == old(SteppedViews(enemies, dt))
      ensures unchanged(this`fallingItems, this`lastItemSpawn, this`lastSpawnTime, this`enemies, this`wave, wave)
    {
      for i := 0 to |enemies|
        invariant Valid()
        invariant forall j :: 0 <= j < i ==> enemies[j].Stepped(dt, hypot, atan2)
        invariant forall j :: i <= j < |enemies| ==> unchanged(enemies[j])
      {
        enemies[i].Update(dt, hypot, atan2);
      }
      assert forall j :: 0 <= j < |enemies| ==>
        Views(enemies)[j] == old(SteppedViews(enemies, dt))[j];
    }

    /** `checkGameOver()`: fires once the lives are gone, unless the lose
        sequence is already running. Firing starts the player's lose
        animation and the two-second timer after which the results show. */
    method CheckGameOver() returns (fired: bool)
      modifies this`isLosing, this`loseAnimations, this`lossTimerPending
      ensures (fired, isLosing) == GameOverStep(lives, old(isLosing))
      ensures fired ==> lossTimerPending && loseAnimations == old(loseAnimations) + 1
      ensures !fired ==> lossTimerPending == old(lossTimerPending) && loseAnimations == old(loseAnimations)
    {
      if lives > 0 || isLosing {
        return false;
      }
      isLosing := true;
      loseAnimations := loseAnimations + 1;
      lossTimerPending := true;
      return true;
    }

    /** `destroy()`: stop the loop, drop the joystick, clear enemies and
        items. */
    method Destroy()
      requires Valid()
      modifies this`running, this`joystick, this`enemies, this`fallingItems
      ensures Valid()
      ensures !running && joystick == null && enemies == [] && fallingItems == []
    {
      running := false;
      joystick := null;
      OnWaveEnd();
      enemies := [];
      fallingItems := [];
    }

    /** `endGame()`: destroy and show the results. */
    method EndGame()
      requires Valid()
      modifies this`running, this`joystick, this`enemies, this`fallingItems, this`resultsShown
      ensures Valid()
      ensures !running && joystick == null && enemies == [] && fallingItems == [] && resultsShown
    {
      Destroy();
      resultsShown := true;
    }

    /** The lose sequence's timer: destroy and show the results. */
    method OnLossTimeout()
      requires Valid() && lossTimerPending
      modifies this`running, this`joystick, this`enemies, this`fallingItems, this`resultsShown
      modifies this`lossTimerPending
      ensures Valid()
      ensures !running && joystick == null && enemies == [] && fallingItems == [] && resultsShown
      ensures !lossTimerPending
    {
      Destroy();
      resultsShown := true;
      lossTimerPending := false;
    }

    /** The player's target after `handleJoystick()`: the stick's target
        in joystick mode when the stick gives one, `target` otherwise. */
    function JoystickTargetOr(target: Option<Vec2>, hypot: (real, real) -> real): Option<Vec2>
      reads this`useJoystick, this`joystick, this`playerPosition, joystick
      requires HypotOracle(hypot)
    {
      if useJoystick && joystick != null
         && SteerTarget(playerPosition, joystick.Reading(hypot), hypot, playerSpeed).Some?
      then SteerTarget(playerPosition, joystick.Reading(hypot), hypot, playerSpeed)
      else target
    }

    /** The player's target is what `handleJoystick()` makes of `target`. */
    ghost predicate Steered(target: Option<Vec2>, hypot: (real, real) -> real)
      reads this`playerTarget, this`useJoystick, this`joystick, this`playerPosition, joystick
      requires HypotOracle(hypot)
    {
      playerTarget == JoystickTargetOr(target, hypot)
    }

    /** `handleJoystick()`: in joystick mode, a non-zero stick direction sets
        the player's target at most half the player's speed away, along the
        stick. */
    method HandleJoystick(hypot: (real, real) -> real)
      requires Valid() && HypotOracle(hypot)
      modifies this`playerTarget
      ensures Valid()
      ensures Steered(old(playerTarget), hypot)
      ensures playerTarget != old(playerTarget) ==>
        && playerTarget.Some? && useJoystick && joystick != null
        && SqDist(playerTarget.value, playerPosition) <= Sq(playerSpeed * JoystickStepShare)
    {
      if !useJoystick || joystick == null {
        return;
      }
      var target := Steer(joystick, playerPosition, hypot, playerSpeed);
      if target.Some? {
        playerTarget := target;
      }
    }

    /** `handlePlayerHit(e)`: freeze the player, take a life and start the
        enemy's attack. Returns the delay after which the attack's hit
        callback (`OnAttackHit`) is due, if one is scheduled; the finish
        callback is `OnAttackFinished(e)`. */
    method HandlePlayerHit(e: Enemies.Enemy, atan2: (real, real) -> real) returns (hitDelay: Option<real>)
      requires e.Valid()
      modifies this`playerFrozen, this`lives, e
      ensures e.Valid()
      ensures lives == old(lives) - 1 && playerFrozen
      ensures e.position == old(e.position) && e.t == old(e.t)
      ensures e.attacking <==> old(e.attacking) || e.HasMixer()
      ensures !e.HasMixer() || old(e.attacking) ==> unchanged(e) && hitDelay.None?
      ensures var key := Enemies.FindClip(e.clips, "attack1", 0);
        e.HasMixer() && !old(e.attacking) ==>
          if key.None? then
            && hitDelay.None? && e.current == old(e.current) && e.timeScale == old(e.timeScale)
            && e.heading == old(e.heading) && e.attackClip == old(e.attackClip)
          else
            && e.current == key && e.attackClip == key
            && e.timeScale == Enemies.AttackTimeScale
            && hitDelay == Some(e.clips[key.value].duration / Enemies.AttackTimeScale * Enemies.HitFraction)
            && (e.hasModel ==> e.heading == atan2(playerPosition.x - e.position.x, playerPosition.y - e.position.y))
    {
      playerFrozen := true;
      lives := lives - 1;
      hitDelay := e.PlayAttackAnimation(playerPosition, atan2);
    }

    /** The attack's hit callback: the hit animation plays only while lives
        are left. */
    method OnAttackHit()
      modifies this`hitAnimations
      ensures hitAnimations == old(hitAnimations) + (if lives > 0 then 1 else 0)
    {
      if lives > 0 {
        hitAnimations := hitAnimations + 1;
      }
    }

    /** The attack's finish callback: remove the enemy and unfreeze the
        player. If the enemy was already removed (the wave ended or the
        screen was destroyed first), the last listed enemy goes instead. */
    method OnAttackFinished(e: Enemies.Enemy)
      requires Valid()
      modifies this`enemies, this`playerFrozen
      ensures Valid()
      ensures enemies == RemoveFirst(old(enemies), e) && !playerFrozen
      ensures e in old(enemies) ==> multiset(enemies) == multiset(old(enemies)) - multiset{e}
      ensures e !in old(enemies) && old(enemies) != [] ==> enemies == old(enemies)[..|old(enemies)| - 1]
    {
      RemoveEnemy(e);
      playerFrozen := false;
    }

    /** `checkCollisions()`: every enemy that is not attacking and overlaps
        the player costs one life and starts attacking (if it has a mixer). */
    method CheckCollisions(atan2: (real, real) -> real)
      requires Valid()
      modifies this`lives, this`playerFrozen, enemies
      ensures Valid()
      ensures lives == old(lives) - Hits(old(Views(enemies)), playerPosition, playerRadius)
      ensures Views(enemies) == Settled(old(Views(enemies)), playerPosition, playerRadius)
      ensures playerFrozen == (old(playerFrozen) || lives < old(lives))
      ensures unchanged(this`fallingItems, this`lastItemSpawn, this`lastSpawnTime, this`enemies, this`wave, wave)
    {
      var es := enemies;
      ghost var vs := Views(es);
      CollideAll(es, vs, atan2);
      assert Views(enemies) == Settled(vs, playerPosition, playerRadius);
    }

    /** The pass of `checkCollisions` over the enemies `es`, whose views
        before the pass are `vs`. */
    method CollideAll(es: seq<Enemies.Enemy>, ghost vs: seq<EnemyView>, atan2: (real, real) -> real)
      requires Distinct(es) && vs == Views(es)
      requires forall j :: 0 <= j < |es| ==> es[j].Valid()
      modifies this`lives, this`playerFrozen, es
      ensures forall j :: 0 <= j < |es| ==> es[j].Valid()
      ensures lives == old(lives) - Hits(vs, playerPosition, playerRadius)
      ensures forall j :: 0 <= j < |es| ==> ViewOf(es[j]) == Settle(vs[j], playerPosition, playerRadius)
      ensures playerFrozen == (old(playerFrozen) || lives < old(lives))
    {
      for i := 0 to |es|
        invariant playerFrozen == (old(playerFrozen) || lives < old(lives))
        invariant lives == old(lives) - Hits(vs[..i], playerPosition, playerRadius)
        invariant forall j :: 0 <= j < i ==>
          es[j].Valid() && ViewOf(es[j]) == Settle(vs[j], playerPosition, playerRadius)
        invariant forall j :: i <= j < |es| ==> es[j].Valid() && ViewOf(es[j]) == vs[j]
      {
        CollideStep(es, vs, i, old(lives), old(playerFrozen), atan2);
      }
      assert vs[..|vs|] == vs;
    }

    /** Enemy `i` of the pass meets the player; those before it are
        settled, those after it untouched. */
    method CollideStep(es: seq<Enemies.Enemy>, ghost vs: seq<EnemyView>, i: nat, ghost lives0: int,
                       ghost frozen0: bool, atan2: (real, real) -> real)
      requires Distinct(es) && |vs| == |es| && i < |es|
      requires playerFrozen == (frozen0 || lives < lives0)
      requires lives == lives0 - Hits(vs[..i], playerPosition, playerRadius)
      requires forall j :: 0 <= j < i ==>
        es[j].Valid() && ViewOf(es[j]) == Settle(vs[j], playerPosition, playerRadius)
      requires forall j :: i <= j < |es| ==> es[j].Valid() && ViewOf(es[j]) == vs[j]
      modifies this`lives, this`playerFrozen, es[i]
      ensures playerFrozen == (frozen0 || lives < lives0)
      ensures lives == lives0 - Hits(vs[..i + 1], playerPosition, playerRadius)
      ensures forall j :: 0 <= j < i + 1 ==>
        es[j].Valid() && ViewOf(es[j]) == Settle(vs[j], playerPosition, playerRadius)
      ensures forall j :: i + 1 <= j < |es| ==> es[j].Valid() && ViewOf(es[j]) == vs[j]
    {
      HitsSnoc(vs, i, playerPosition, playerRadius);
      assert forall j :: 0 <= j < |es| && j != i ==> es[j] != es[i];
      CollideWith(es[i], atan2);
    }

    /** One step of the pass: the enemy hits when it is not attacking and
        overlaps the player. */
    method CollideWith(e: Enemies.Enemy, atan2: (real, real) -> real)
      requires e.Valid()
      modifies this`lives, this`playerFrozen, e
      ensures e.Valid()
      ensures ViewOf(e) == Settle(old(ViewOf(e)), playerPosition, playerRadius)
      ensures lives == old(lives) - (if Hit(old(ViewOf(e)), playerPosition, playerRadius) then 1 else 0)
      ensures playerFrozen == (old(playerFrozen) || lives < old(lives))
    {
      if !e.IsAttacking() && Overlaps(playerPosition, e.position, playerRadius + e.radius) {
        var _ := HandlePlayerHit(e, atan2);
      }
    }

    /** `spawnEnemy()`: a new enemy walking across the view joins the end of
        the list. */
    method SpawnEnemy(r: EnemyRolls, sinTurns: real -> real, hypot: (real, real) -> real)
      requires Valid() && ValidEnemyRolls(r)
      modifies this`enemies
      ensures Valid()
      ensures |enemies| == |old(enemies)| + 1 && enemies[..|old(enemies)|] == old(enemies)
      ensures var e := enemies[|enemies| - 1];
        && fresh(e)
        && (e.start, e.end) == EnemyEndpoints(view, r)
        && CrossesView(view, e.start, e.end)
        && e.kind == Enemies.KindFromRoll(r.kind)
        && e.position == e.start && e.t == 0.0 && e.clips == clips
        && e.hasModel && !e.attacking
        && forall u :: e.route(u) == Trajectory.Position(e.kind, u, e.start, e.end, e.path, e.amplitude, e.frequency,
                                                         hypot(e.end.x - e.start.x, e.end.y - e.start.y), sinTurns)
    {
      var (s, t) := EnemyEndpoints(view, r);
      var e := new Enemies.Enemy(s, t, r.kind, r.offset, clips, sinTurns, hypot);
      enemies := enemies + [e];
    }

    /** `spawnFallingItem(fromSides)`. */
    method SpawnFallingItem(fromSides: bool, r: ItemRolls)
      requires ValidItemRolls(r)
      modifies this`fallingItems
      ensures fallingItems == old(fallingItems) + [ItemLaunch(fromSides, r, width, height)]
    {
      fallingItems := fallingItems + [ItemLaunch(fromSides, r, width, height)];
    }

    /** The loop of `handleSpawns` that pushes a burst of items from the
        sides. */
    method SpawnBurst(rolls: seq<ItemRolls>)
      requires |rolls| == BurstSize && forall k :: 0 <= k < |rolls| ==> ValidItemRolls(rolls[k])
      modifies this`fallingItems
      ensures fallingItems == old(fallingItems) + Burst(rolls, width, height)
    {
      for k := 0 to BurstSize
        invariant fallingItems == old(fallingItems) + Burst(rolls[..k], width, height)
      {
        assert Burst(rolls[..k + 1], width, height)
          == Burst(rolls[..k], width, height) + [ItemLaunch(true, rolls[k], width, height)];
        SpawnFallingItem(true, rolls[k]);
      }
      assert rolls[..BurstSize] == rolls;
    }

    /** `handleSpawns(now)`. One enemy spawns when a wave is on and the
        spawn interval has passed since the last one. While collecting
        (`collecting`, the scheduler's collecting phase) a burst of five
        items comes every quarter of the item interval; otherwise one item
        comes every item interval. */
    method HandleSpawns(now: real, collecting: bool, enemyRolls: EnemyRolls, itemRolls: seq<ItemRolls>,
                        sinTurns: real -> real, hypot: (real, real) -> real)
      requires Valid() && ValidEnemyRolls(enemyRolls)
      requires |itemRolls| == BurstSize && forall k :: 0 <= k < |itemRolls| ==> ValidItemRolls(itemRolls[k])
      modifies this`enemies, this`lastSpawnTime, this`fallingItems, this`lastItemSpawn
      ensures Valid()
      ensures var spawn := wave.InWave() && now - old(lastSpawnTime) >= spawnInterval;
        && |enemies| == |old(enemies)| + (if spawn then 1 else 0)
        && enemies[..|old(enemies)|] == old(enemies)
        && lastSpawnTime == (if spawn then now else old(lastSpawnTime))
        && (spawn ==> var e := enemies[|enemies| - 1];
                      && fresh(e) && CrossesView(view, e.start, e.end)
                      && e.position == e.start && e.t == 0.0 && e.hasModel && !e.attacking)
      ensures collecting && now - old(lastItemSpawn) >= ItemSpawnInterval / BurstSpeedUp ==>
        fallingItems == old(fallingItems) + Burst(itemRolls, width, height) && lastItemSpawn == now
      ensures !collecting && now - old(lastItemSpawn) >= ItemSpawnInterval ==>
        fallingItems == old(fallingItems) + [ItemLaunch(false, itemRolls[0], width, height)]
        && lastItemSpawn == now
      ensures (if collecting then now - old(lastItemSpawn) < ItemSpawnInterval / BurstSpeedUp
               else now - old(lastItemSpawn) < ItemSpawnInterval) ==>
        fallingItems == old(fallingItems) && lastItemSpawn == old(lastItemSpawn)
      ensures ItemsSpawned(now, collecting, itemRolls)
    {
      if wave.InWave() && now - lastSpawnTime >= spawnInterval {
        SpawnEnemy(enemyRolls, sinTurns, hypot);
        lastSpawnTime := now;
      }
      if collecting {
        if now - lastItemSpawn >= ItemSpawnInterval / BurstSpeedUp {
          SpawnBurst(itemRolls);
          lastItemSpawn := now;
        }
      } else if now - lastItemSpawn >= ItemSpawnInterval {
        SpawnFallingItem(false, itemRolls[0]);
        lastItemSpawn := now;
      }
    }

    /** `update(dt)` at time `now`: the scheduler steps, spawns happen, the
        enemies move, collisions cost lives, the joystick steers; then either
        the lose sequence starts, or a finished session ends the game, or a
        pause clears the enemies. */
    method Update(dt: real, now: real, collecting: bool, enemyRolls: EnemyRolls,
                  itemRolls: seq<ItemRolls>, sinTurns: real -> real,
                  hypot: (real, real) -> real, atan2: (real, real) -> real)
      returns (ghost spawned: seq<Enemies.Enemy>, ghost moved: seq<EnemyView>)
      requires Valid() && ValidEnemyRolls(enemyRolls)
      requires |itemRolls| == BurstSize && forall k :: 0 <= k < |itemRolls| ==> ValidItemRolls(itemRolls[k])
      requires HypotOracle(hypot)
      modifies this, wave, enemies
      ensures Valid()
      ensures wave == old(wave) && wave.State() == Waves.Step(old(wave.State()), dt)
      ensures Spawned(spawned, moved, dt, now)
      ensures lives == old(lives) - Hits(moved, playerPosition, playerRadius)
      ensures lives <= old(lives)
      ensures isLosing == (old(isLosing) || lives <= 0)
      ensures var lostNow := isLosing && !old(isLosing);
        && (lostNow ==> lossTimerPending && running == old(running))
        && (!lostNow && wave.IsFinished() ==> !running && resultsShown && enemies == [])
        && (!lostNow && wave.IsPaused() ==> enemies == [])
      ensures var lostNow := isLosing && !old(isLosing);
        && lastItemSpawn == (if ItemsDue(collecting, now, old(lastItemSpawn)) then now else old(lastItemSpawn))
        && (!lostNow && wave.IsFinished() ==> joystick == null && fallingItems == [])
        && (lostNow || !wave.IsFinished() ==>
             && running == old(running) && resultsShown == old(resultsShown) && joystick == old(joystick)
             && fallingItems == old(fallingItems) + (if ItemsDue(collecting, now, old(lastItemSpawn))
                                                     then Launches(collecting, itemRolls, width, height) else []))
        && (lostNow || (!wave.IsFinished() && !wave.IsPaused()) ==> enemies == spawned)
    {
      spawned, moved := Advance(dt, now, collecting, enemyRolls, itemRolls, sinTurns, hypot, atan2);
      Resolve();
    }

    /** The first part of `update`: everything up to the joystick. */
    method Advance(dt: real, now: real, collecting: bool, enemyRolls: EnemyRolls,
                   itemRolls: seq<ItemRolls>, sinTurns: real -> real,
                   hypot: (real, real) -> real, atan2: (real, real) -> real)
      returns (ghost spawned: seq<Enemies.Enemy>, ghost moved: seq<EnemyView>)
      requires Valid() && ValidEnemyRolls(enemyRolls)
      requires |itemRolls| == BurstSize && forall k :: 0 <= k < |itemRolls| ==> ValidItemRolls(itemRolls[k])
      requires HypotOracle(hypot)
      modifies this`enemies, this`lastSpawnTime, this`fallingItems, this`lastItemSpawn
      modifies this`lives, this`playerFrozen, this`playerTarget, wave, enemies
      ensures Valid()
      ensures wave.State() == Waves.Step(old(wave.State()), dt)
      ensures enemies == spawned && Spawned(spawned, moved, dt, now)
      ensures lives == old(lives) - Hits(moved, playerPosition, playerRadius)
      ensures lives <= old(lives)
      ensures Steered(old(playerTarget), hypot)
      ensures ItemsSpawned(now, collecting, itemRolls)
    {
      moved := Arrive(dt, now, collecting, enemyRolls, itemRolls, sinTurns, hypot);
      spawned := enemies;
      Act(dt, hypot, atan2);
    }

    /** The scheduler steps and the spawns happen; `moved` is what the
        collision pass of the frame will see once every enemy has stepped. */
    method Arrive(dt: real, now: real, collecting: bool, enemyRolls: EnemyRolls,
                  itemRolls: seq<ItemRolls>, sinTurns: real -> real, hypot: (real, real) -> real)
      returns (ghost moved: seq<EnemyView>)
      requires Valid() && ValidEnemyRolls(enemyRolls)
      requires |itemRolls| == BurstSize && forall k :: 0 <= k < |itemRolls| ==> ValidItemRolls(itemRolls[k])
      modifies this`enemies, this`lastSpawnTime, this`fallingItems, this`lastItemSpawn, wave
      ensures Valid()
      ensures wave.State() == Waves.Step(old(wave.State()), dt)
      ensures forall k | |old(enemies)| <= k < |enemies| :: fresh(enemies[k])
      ensures moved == SteppedViews(enemies, dt)
      ensures Spawned(enemies, moved, dt, now)
      ensures ItemsSpawned(now, collecting, itemRolls)
    {
      Enter(dt, now, collecting, enemyRolls, itemRolls, sinTurns, hypot);
      ghost var n := |old(enemies)|;
      moved := SteppedViews(enemies, dt);
      assert forall j :: 0 <= j < n ==> moved[j] == old(SteppedViews(enemies, dt))[j];
      if |enemies| > n {
        FreshStepView(enemies[n], dt);
      }
    }

    /** The scheduler steps, then `handleSpawns` runs: what the enemy list
        becomes. */
    method Enter(dt: real, now: real, collecting: bool, enemyRolls: EnemyRolls,
                 itemRolls: seq<ItemRolls>, sinTurns: real -> real, hypot: (real, real) -> real)
      requires Valid() && ValidEnemyRolls(enemyRolls)
      requires |itemRolls| == BurstSize && forall k :: 0 <= k < |itemRolls| ==> ValidItemRolls(itemRolls[k])
      modifies this`enemies, this`lastSpawnTime, this`fallingItems, this`lastItemSpawn, wave
      ensures Valid()
      ensures wave.State() == Waves.Step(old(wave.State()), dt)
      ensures var spawn := old(Waves.Step(wave.State(), dt).inWave && now - lastSpawnTime >= spawnInterval);
        && |enemies| == |old(enemies)| + (if spawn then 1 else 0)
        && enemies[..|old(enemies)|] == old(enemies)
      ensures forall k | |old(enemies)| <= k < |enemies| ::
        fresh(enemies[k]) && enemies[k].hasModel && !enemies[k].attacking
        && enemies[k].t == 0.0 && enemies[k].position == enemies[k].start
      ensures lastSpawnTime == old(if Waves.Step(wave.State(), dt).inWave && now - lastSpawnTime >= spawnInterval
                                   then now else lastSpawnTime)
      ensures ItemsSpawned(now, collecting, itemRolls)
    {
      wave.Update(dt);
      HandleSpawns(now, collecting, enemyRolls, itemRolls, sinTurns, hypot);
    }

    /** What the spawn step of a frame and the moves after it make of the
        enemies listed before it: `spawned` is the old list and then the
        enemy spawned when the stepped scheduler is in a wave and the spawn
        interval has passed; `moved` is what the collision pass sees of
        them (`MovedViews`). */
    twostate predicate Spawned(new spawned: seq<Enemies.Enemy>, moved: seq<EnemyView>, dt: real, now: real)
      reads this`lastSpawnTime
    {
      var spawn := old(Waves.Step(wave.State(), dt).inWave && now - lastSpawnTime >= spawnInterval);
      && |spawned| == |old(enemies)| + (if spawn then 1 else 0)
      && spawned[..|old(enemies)|] == old(enemies)
      && MovedViews(spawned, moved, old(SteppedViews(enemies, dt)), dt)
      && lastSpawnTime == (if spawn then now else old(lastSpawnTime))
    }

    /** What `handleSpawns` at time `now` made of the items: the launches
        appended and the item timer reset when they were due, nothing
        otherwise. */
    twostate predicate ItemsSpawned(now: real, collecting: bool, itemRolls: seq<ItemRolls>)
      requires |itemRolls| == BurstSize && forall k :: 0 <= k < |itemRolls| ==> ValidItemRolls(itemRolls[k])
      reads this`lastItemSpawn, this`fallingItems
    {
      var due := ItemsDue(collecting, now, old(lastItemSpawn));
      && lastItemSpawn == (if due then now else old(lastItemSpawn))
      && fallingItems == old(fallingItems) + (if due then Launches(collecting, itemRolls, width, height) else [])
    }

    /** The enemies move, collisions cost lives and the joystick steers. */
    method Act(dt: real, hypot: (real, real) -> real, atan2: (real, real) -> real)
      requires Valid() && HypotOracle(hypot)
      modifies this`lives, this`playerFrozen, this`playerTarget, enemies
      ensures Valid()
      ensures Collided(old(SteppedViews(enemies, dt)), old(lives), old(playerFrozen))
      ensures Steered(old(playerTarget), hypot)
      ensures lives <= old(lives)
      ensures unchanged(this`fallingItems, this`lastItemSpawn, this`lastSpawnTime, this`enemies, this`wave, wave)
    {
      ghost var pre := old(SteppedViews(enemies, dt));
      Engage(dt, hypot, atan2);
      assert playerTarget == old(playerTarget);
      SteerKeeping(hypot, pre, old(lives), old(playerFrozen));
    }

    /** The joystick steers; the outcome of the collision pass stays as it
        was. */
    method SteerKeeping(hypot: (real, real) -> real, ghost pre: seq<EnemyView>, ghost lives0: int, ghost frozen0: bool)
      requires Valid() && HypotOracle(hypot) && Collided(pre, lives0, frozen0)
      modifies this`playerTarget
      ensures Valid() && Collided(pre, lives0, frozen0)
      ensures Steered(old(playerTarget), hypot)
      ensures unchanged(this`lives, this`fallingItems, this`lastItemSpawn, this`lastSpawnTime, this`enemies, this`wave, wave)
    {
      HandleJoystick(hypot);
    }

    /** What the collision pass leaves, from the views `pre` it sees, the
        lives `lives0` and the freeze flag `frozen0` before it: a life gone
        for each hit, the hit enemies settled, and the player frozen once
        hit. */
    ghost predicate Collided(pre: seq<EnemyView>, lives0: int, frozen0: bool)
      reads this`lives, this`playerFrozen, this`enemies, this`playerPosition, enemies
    {
      && lives == lives0 - Hits(pre, playerPosition, playerRadius)
      && Views(enemies) == Settled(pre, playerPosition, playerRadius)
      && playerFrozen == (frozen0 || lives < lives0)
    }

    /** The enemies move, then collisions cost lives. */
    method Engage(dt: real, hypot: (real, real) -> real, atan2: (real, real) -> real)
      requires Valid()
      modifies this`lives, this`playerFrozen, enemies
      ensures Valid()
      ensures Collided(old(SteppedViews(enemies, dt)), old(lives), old(playerFrozen))
      ensures unchanged(this`fallingItems, this`lastItemSpawn, this`lastSpawnTime, this`enemies, this`wave, wave)
    {
      UpdateEnemies(dt, hypot, atan2);
      CheckCollisions(atan2);
    }

    /** The second part of `update`: the lose sequence, the end of the
        session, or the end of a wave. */
    method Resolve()
      requires Valid()
      modifies this`isLosing, this`loseAnimations, this`lossTimerPending
      modifies this`running, this`joystick, this`enemies, this`fallingItems, this`resultsShown
      ensures Valid()
      ensures isLosing == (old(isLosing) || lives <= 0)
      ensures var lostNow := isLosing && !old(isLosing);
        && (lostNow ==> lossTimerPending && running == old(running))
        && (!lostNow && wave.IsFinished() ==> !running && resultsShown && enemies == [])
        && (!lostNow && wave.IsPaused() ==> enemies == [])
      ensures var lostNow := isLosing && !old(isLosing);
        && (lostNow ==> loseAnimations == old(loseAnimations) + 1)
        && (!lostNow ==> lossTimerPending == old(lossTimerPending) && loseAnimations == old(loseAnimations))
        && (!lostNow && wave.IsFinished() ==> joystick == null && fallingItems == [])
        && (lostNow || !wave.IsFinished() ==>
             && running == old(running) && resultsShown == old(resultsShown)
             && joystick == old(joystick) && fallingItems == old(fallingItems))
        && (lostNow || (!wave.IsFinished() && !wave.IsPaused()) ==> enemies == old(enemies))
    {
      var lost := CheckGameOver();
      if lost {
        return;
      }
      if wave.IsFinished() {
        EndGame();
        return;
      }
      if wave.IsPaused() {
        OnWaveEnd();
      }
    }
  }

  /** The target `handleJoystick` sets from the stick's direction: none for
      a zero direction, otherwise a point along it at most `speed / 2` away. */
  method Steer(stick: Joysticks.Joystick, position: Vec2, hypot: (real, real) -> real, speed: real)
    returns (target: Option<Vec2>)
    requires HypotOracle(hypot)
    ensures target == SteerTarget(position, stick.Reading(hypot), hypot, speed)
    ensures target.Some? ==> SqDist(target.value, position) <= Sq(speed * JoystickStepShare)
  {
    var dir := stick.GetDirection(hypot);
    SteerTargetWithinStep(position, dir, hypot, speed);
    if dir.x == 0.0 && dir.y == 0.0 {
      return None;
    }
    var len := hypot(dir.x, dir.y);
    HypotZeroIff(dir.x, dir.y, len);
    target := Some(JoystickTarget(position, dir, len, speed));
  }
}

=== FILE: wave_controller.dfy ===
/** The wave scheduler: a countdown automaton that alternates a wave phase and
    a pause phase until the last wave has run out, and then stays finished.

    `WaveState` is the scheduler's state as a value and `Step` is one call of
    `update(dt)` on it; the class `WaveController` holds the same state in
    fields and is proved to follow `Step`. */
module Waves {
  import opened Geometry

  datatype WaveState = WaveState(
    currentWave: int,
    totalWaves: int,
    waveDuration: real,
    pauseDuration: real,
    timer: real,
    inWave: bool,
    finished: bool)

  datatype Phase = InWavePhase | PausedPhase | FinishedPhase

  /** The state a new controller starts in. */
  function Init(totalWaves: int, waveDuration: real, pauseDuration: real): (s: WaveState)
    ensures s.currentWave == 1 && s.inWave && !s.finished
    ensures s.timer == waveDuration
    ensures SameSettings(s, WaveState(0, totalWaves, waveDuration, pauseDuration, 0.0, false, false))
  {
    WaveState(1, totalWaves, waveDuration, pauseDuration, waveDuration, true, false)
  }

  /** The three settings fixed at construction. */
  predicate SameSettings(s: WaveState, r: WaveState) {
    r.totalWaves == s.totalWaves && r.waveDuration == s.waveDuration
    && r.pauseDuration == s.pauseDuration
  }

  function PhaseOf(s: WaveState): Phase {
    if s.finished then FinishedPhase
    else if s.inWave then InWavePhase
    else PausedPhase
  }

  /** `isPaused()`: neither in a wave nor finished. */
  predicate Paused(s: WaveState) {
    !s.inWave && !s.finished
  }

  /** One call of `update(dt)`. */
  function Step(s: WaveState, dt: real): (r: WaveState)
    ensures SameSettings(s, r)
    ensures s.finished ==> r == s
  {
    if s.finished then s
    else
      var t := s.timer - dt;
      if t > 0.0 then s.(timer := t)
      else if s.inWave then
        if s.currentWave == s.totalWaves then
          s.(inWave := false, finished := true, timer := 0.0)
        else
          s.(inWave := false, timer := s.pauseDuration)
      else
        var w := s.currentWave + 1;
        if w > s.totalWaves then s.(currentWave := w, timer := t, finished := true)
        else s.(currentWave := w, inWave := true, timer := s.waveDuration)
  }

  /** A sequence of frames, each of length `dts[i]`. */
  function Run(s: WaveState, dts: seq<real>): WaveState
    decreases |dts|
  {
    if dts == [] then s else Run(Step(s, dts[0]), dts[1..])
  }

  /** What holds in every state the scheduler can reach. With at least one
      wave, the wave number stays within `1..totalWaves`, a pause is never
      after the last wave, and a finished scheduler sits at the last wave with
      its timer at zero. */
  predicate WaveInv(s: WaveState) {
    && !(s.inWave && s.finished)
    && 1 <= s.currentWave
    && (s.totalWaves >= 1 ==> s.currentWave <= s.totalWaves)
    && (s.totalWaves >= 1 && Paused(s) ==> s.currentWave < s.totalWaves)
    && (s.totalWaves >= 1 && s.finished ==> s.timer == 0.0 && s.currentWave == s.totalWaves)
  }

  /** A new controller is on wave 1, in a wave, with the whole wave to go. */
  lemma InitValid(totalWaves: int, waveDuration: real, pauseDuration: real)
    ensures WaveInv(Init(totalWaves, waveDuration, pauseDuration))
    ensures PhaseOf(Init(totalWaves, waveDuration, pauseDuration)) == InWavePhase
  {
  }

  /** Every step keeps the invariant. */
  lemma StepValid(s: WaveState, dt: real)
    requires WaveInv(s)
    ensures WaveInv(Step(s, dt))
  {
  }

  /** Every run of frames keeps the invariant. */
  lemma {:induction false} RunValid(s: WaveState, dts: seq<real>)
    requires WaveInv(s)
    ensures WaveInv(Run(s, dts))
    decreases |dts|
  {
    if dts != [] {
      StepValid(s, dts[0]);
      RunValid(Step(s, dts[0]), dts[1..]);
    }
  }

  /** Every state reached from a new controller satisfies the invariant. */
  lemma ReachableValid(n: int, w: real, p: real, dts: seq<real>)
    ensures WaveInv(Run(Init(n, w, p), dts))
  {
    InitValid(n, w, p);
    RunValid(Init(n, w, p), dts);
  }

  /** Finished is absorbing: no run of frames changes a finished scheduler. */
  lemma {:induction false} FinishedAbsorbing(s: WaveState, dts: seq<real>)
    requires s.finished
    ensures Run(s, dts) == s
    decreases |dts|
  {
    if dts != [] {
      FinishedAbsorbing(Step(s, dts[0]), dts[1..]);
    }
  }

  /** Of the three queries exactly one holds in a valid state. */
  lemma PhaseExclusive(s: WaveState)
    requires WaveInv(s)
    ensures s.inWave ==> !s.finished && !Paused(s)
    ensures s.finished ==> !s.inWave && !Paused(s)
    ensures s.inWave || s.finished || Paused(s)
  {
  }

  /** The phase that may follow `p` in one step. */
  predicate NextPhase(p: Phase, q: Phase) {
    match p
    case InWavePhase => q == PausedPhase || q == FinishedPhase
    case PausedPhase => q == InWavePhase || q == FinishedPhase
    case FinishedPhase => false
  }

  /** A step that does not expire the timer only counts it down; a step that
      does makes exactly one phase transition. */
  lemma AtMostOneTransition(s: WaveState, dt: real)
    requires !s.finished
    ensures var r := Step(s, dt);
      if s.timer - dt > 0.0 then r == s.(timer := s.timer - dt)
      else NextPhase(PhaseOf(s), PhaseOf(r))
  {
  }

  /** How long the overshoot of an expiring step was does not matter: any two
      frames long enough to expire the timer lead to the same state. */
  lemma OvershootDiscarded(s: WaveState, dt1: real, dt2: real)
    requires WaveInv(s) && s.totalWaves >= 1
    requires s.timer - dt1 <= 0.0 && s.timer - dt2 <= 0.0
    ensures Step(s, dt1) == Step(s, dt2)
  {
  }

  /** The end of a wave: the last wave finishes the run with the timer at zero;
      any other wave starts a pause of `pauseDuration` on the same wave. */
  lemma WaveExpiry(s: WaveState, dt: real)
    requires !s.finished && s.inWave && s.timer - dt <= 0.0
    ensures var r := Step(s, dt);
      && r.currentWave == s.currentWave && !r.inWave
      && (s.currentWave == s.totalWaves ==> r.finished && r.timer == 0.0)
      && (s.currentWave != s.totalWaves ==> Paused(r) && r.timer == s.pauseDuration)
  {
  }

  /** The end of a pause moves to the next wave with a full wave timer. */
  lemma PauseExpiry(s: WaveState, dt: real)
    requires WaveInv(s) && s.totalWaves >= 1
    requires Paused(s) && s.timer - dt <= 0.0
    ensures var r := Step(s, dt);
      r.currentWave == s.currentWave + 1 && r.inWave && !r.finished
      && r.timer == s.waveDuration
  {
  }

  /** The only way to finish from a reachable state is by the end of the last
      wave: the finishing branch after a pause is never taken. */
  lemma FinishOnlyFromLastWave(n: int, w: real, p: real, dts: seq<real>, dt: real)
    requires n >= 1
    ensures var s := Run(Init(n, w, p), dts);
      !s.finished && Step(s, dt).finished ==> s.inWave && s.currentWave == n
  {
    ReachableValid(n, w, p, dts);
    RunKeepsSettings(Init(n, w, p), dts);
  }

  lemma {:induction false} RunKeepsSettings(s: WaveState, dts: seq<real>)
    ensures SameSettings(s, Run(s, dts))
    decreases |dts|
  {
    if dts != [] {
      RunKeepsSettings(Step(s, dts[0]), dts[1..]);
    }
  }

  lemma {:induction false} RunAppend(s: WaveState, a: seq<real>, b: seq<real>)
    ensures Run(s, a + b) == Run(Run(s, a), b)
    decreases |a|
  {
    if a == [] {
      assert a + b == b;
    } else {
      assert (a + b)[1..] == a[1..] + b;
      RunAppend(Step(s, a[0]), a[1..], b);
    }
  }

  /** A wave of `waveDuration` followed by a pause of `pauseDuration` takes a
      scheduler at the start of a wave that is not the last to the start of
      the next one. */
  lemma WaveCycle(s: WaveState)
    requires !s.finished && s.inWave && s.timer == s.waveDuration
    requires s.currentWave < s.totalWaves
    ensures var r := Run(s, [s.waveDuration, s.pauseDuration]);
      r == s.(currentWave := s.currentWave + 1)
  {
    var m := Step(s, s.waveDuration);
    assert Paused(m) && m.timer == s.pauseDuration;
    assert Run(s, [s.waveDuration, s.pauseDuration]) == Run(m, [s.pauseDuration]);
    assert Run(m, [s.pauseDuration]) == Step(m, s.pauseDuration);
  }

  /** The frames of a full session: each wave runs out, followed by its pause,
      except after the last wave. */
  function Schedule(waves: nat, w: real, p: real): (dts: seq<real>)
    ensures waves >= 1 ==> |dts| == 2 * waves - 1
  {
    if waves <= 1 then (if waves == 1 then [w] else [])
    else [w, p] + Schedule(waves - 1, w, p)
  }

  lemma {:induction false} ScheduleLength(waves: nat, w: real, p: real)
    requires waves >= 1
    ensures Sum(Schedule(waves, w, p)) == waves as real * w + (waves - 1) as real * p
  {
    if waves > 1 {
      ScheduleLength(waves - 1, w, p);
      var rest := Schedule(waves - 1, w, p);
      assert ([w, p] + rest)[1..] == [p] + rest;
      assert ([p] + rest)[1..] == rest;
    }
  }

  /** From the start of wave `k` of `n`, the remaining schedule finishes the
      session. */
  lemma {:induction false} RemainingWavesFinish(s: WaveState)
    requires WaveInv(s) && s.totalWaves >= 1
    requires s.inWave && s.timer == s.waveDuration
    ensures var r := Run(s, Schedule(s.totalWaves - s.currentWave + 1, s.waveDuration, s.pauseDuration));
      r.finished && r.currentWave == s.totalWaves && r.timer == 0.0
    decreases s.totalWaves - s.currentWave
  {
    var k := s.totalWaves - s.currentWave + 1;
    if s.currentWave == s.totalWaves {
      assert Schedule(k, s.waveDuration, s.pauseDuration) == [s.waveDuration];
      assert Run(s, [s.waveDuration]) == Step(s, s.waveDuration);
    } else {
      var next := s.(currentWave := s.currentWave + 1);
      WaveCycle(s);
      RunAppend(s, [s.waveDuration, s.pauseDuration], Schedule(k - 1, s.waveDuration, s.pauseDuration));
      RemainingWavesFinish(next);
    }
  }

  /** A session of `n` waves finishes after `n` waves and `n - 1` pauses, that
      is after `n * w + (n - 1) * p` seconds, and stays finished. */
  lemma SessionFinishes(n: int, w: real, p: real, more: seq<real>)
    requires n >= 1
    ensures var s := Run(Init(n, w, p), Schedule(n, w, p));
      s.finished && s.currentWave == n && Run(s, more) == s
    ensures Sum(Schedule(n, w, p)) == n as real * w + (n - 1) as real * p
  {
    InitValid(n, w, p);
    RemainingWavesFinish(Init(n, w, p));
    FinishedAbsorbing(Run(Init(n, w, p), Schedule(n, w, p)), more);
    ScheduleLength(n, w, p);
  }

  /** The game screen's scheduler (5 waves of 15 s, 8 s pauses): after 15 s it
      pauses on wave 1, 8 s later wave 2 starts, and 107 s finish the session. */
  lemma GameScreenSession()
    ensures Paused(Run(Init(5, 15.0, 8.0), [15.0]))
    ensures Run(Init(5, 15.0, 8.0), [15.0]).currentWave == 1
    ensures var s := Run(Init(5, 15.0, 8.0), [15.0, 8.0]);
      s.inWave && !s.finished && s.currentWave == 2
    ensures Run(Init(5, 15.0, 8.0), Schedule(5, 15.0, 8.0)).finished
    ensures Sum(Schedule(5, 15.0, 8.0)) == 107.0
  {
    var s0 := Init(5, 15.0, 8.0);
    assert Run(s0, [15.0]) == Step(s0, 15.0);
    WaveCycle(s0);
    SessionFinishes(5, 15.0, 8.0, []);
  }

  /** The scheduler of the game screen as an object whose fields `update`
      changes in place. */
  class WaveController {
    var currentWave: int
    const totalWaves: int
    const waveDuration: real
    const pauseDuration: real
    var timer: real
    var isInWave: bool
    var isFinished: bool

    function State(): WaveState
      reads this
    {
      WaveState(currentWave, totalWaves, waveDuration, pauseDuration, timer, isInWave, isFinished)
    }

    predicate Valid()
      reads this
    {
      WaveInv(State())
    }

    constructor(totalWaves: int, waveDuration: real, pauseDuration: real)
      ensures State() == Init(totalWaves, waveDuration, pauseDuration)
      ensures Valid()
    {
      this.totalWaves := totalWaves;
      this.waveDuration := waveDuration;
      this.pauseDuration := pauseDuration;
      currentWave := 1;
      timer := waveDuration;
      isInWave := true;
      isFinished := false;
    }

    method Update(dt: real)
      modifies this
      ensures State() == Step(old(State()), dt)
      ensures old(Valid()) ==> Valid()
    {
      if isFinished {
        return;
      }
      timer := timer - dt;
      if timer <= 0.0 {
        if isInWave {
          if currentWave == totalWaves {
            isInWave := false;
            isFinished := true;
            timer := 0.0;
            return;
          } else {
            isInWave := false;
            timer := pauseDuration;
          }
        } else {
          currentWave := currentWave + 1;
          if currentWave > totalWaves {
            isFinished := true;
          } else {
            isInWave := true;
            timer := waveDuration;
          }
        }
      }
    }

    /** `getCurrentWave()`: always a wave of the session. */
    function CurrentWave(): (w: int)
      reads this
      requires Valid()
      ensures w == State().currentWave
      ensures 1 <= w && (totalWaves >= 1 ==> w <= totalWaves)
    {
      currentWave
    }

    /** `getTotalWaves()`: fixed at construction; never below the current wave
      when the session has a wave at all. */
    function TotalWaves(): (n: int)
      reads this
      requires Valid()
      ensures n >= 1 ==> n >= CurrentWave()
    {
      totalWaves
    }

    /** `getTimer()`: zero once the session has finished. */
    function Timer(): (t: real)
      reads this
      requires Valid()
      ensures t == State().timer
      ensures totalWaves >= 1 && IsFinished() ==> t == 0.0
    {
      timer
    }

    /** `inWave()`: never together with `isFinished()`. */
    function InWave(): (b: bool)
      reads this
      requires Valid()
      ensures b <==> PhaseOf(State()) == InWavePhase
    {
      isInWave
    }

    /** `isFinished()`. */
    function IsFinished(): (b: bool)
      reads this
      requires Valid()
      ensures b <==> PhaseOf(State()) == FinishedPhase
    {
      isFinished
    }

    /** `isPaused()`: the remaining phase, and never after the last wave. */
    function IsPaused(): (b: bool)
      reads this
      requires Valid()
      ensures b <==> PhaseOf(State()) == PausedPhase
      ensures b && totalWaves >= 1 ==> CurrentWave() < totalWaves
    {
      !isInWave && !isFinished
    }
  }
}
